=== FILE: README.md ===
# Executive order tracker — a Dafny model of its core

The application lists United States executive orders and rates each one,
with the help of AI providers, for its impact on Black Americans. The orders
come from the Federal Register API and from the White House presidential
actions page. They are kept in a Supabase database. Policy documents (PDFs)
are uploaded, stored as base64 and read back.

This project models the decision logic of that core as pure Dafny functions
and proves properties about it:

- the list view's search, pagination and page strip (`src/App.tsx`,
  `src/components/Pagination.tsx`);
- the document upload form and the document service: the file checks, the
  base64 storage format and the retrieval (`DocumentUpload.tsx`,
  `documentService.ts`), with a full base64 encoder/decoder after section 4
  of RFC 4648;
- the AI layer:
  - configuration, the base service's retry with exponential backoff, the
    DeepSeek, Perplexity and Latimer providers, and the proxy client;
  - the factory, the provider test, and the response rating and confidence
    heuristics (`src/services/ai/*`);
- the assessment service, the assessment queue, the aggregation script and
  the provider test button (`assessmentService.ts`, `queueService.ts`,
  `test_assessment.ts`, `AssessmentView.tsx`);
- the data sources: the Federal Register client and its transform, the White
  House scraper, and the order synchronisation job (`federalRegister.ts`,
  `whiteHouseScraper.ts`, `orderSync.ts`);
- the Supabase client set-up, its connection test and its error messages
  (`src/lib/supabase.ts`).

I/O is replaced by parameters:

- every network call, database query, file read, PDF text extraction and
  environment variable is an argument carrying the answer it gives (a
  `Js.Value` JSON body, an `Attempt` that is `Done` or `Threw`, an
  `Option`);
- an operation retried over time takes a function from the attempt number
  to that attempt's answer;
- clocks appear as a `now` argument, and timers as a number of ticks.

Shared modules:

- `Wrappers`: `Option` and `Result`.
- `Js`: JavaScript values, truthiness, `||`, `String(v)`, `length` in UTF-16 code units, and `Attempt` for "returns or throws".
- `Text`: ASCII case mapping, `includes`, `trim`, match counting.
- `Orders`: the executive-order record.

## Model

| member | source | states |
|---|---|---|
| UploadForm.SelectionError | src/components/DocumentUpload.tsx:20-43 | a chosen file is refused exactly when its type is not PDF, it exceeds 10 MiB or its first five bytes are not `%PDF-`, with the message of the first failing check in that order |
| UploadForm.FileChange | src/components/DocumentUpload.tsx:18-44 | no file leaves the form unchanged; a refused file is dropped with its message; an accepted file is selected and the error cleared; the title, type, loading flag and progress are untouched and a form holding only accepted files keeps doing so |
| UploadForm.FormChecksAgainstService | src/components/DocumentUpload.tsx:20-43 | every file the form accepts passes the service's checks or is refused there only for being under 100 bytes, and every file the service accepts with a PDF header passes the form |
| UploadForm.Tick | src/components/DocumentUpload.tsx:71-76 | one interval firing adds 5, and holds the bar at 90 once it has reached 90 |
| UploadForm.TickKeepsShown | src/components/DocumentUpload.tsx:71-76 | a firing keeps the bar a multiple of 5 between 0 and 90 |
| UploadForm.TicksFrom | src/components/DocumentUpload.tsx:71-76 | from 5j, k firings give 5(j+k) capped at 90 |
| UploadForm.UploadProgress | src/components/DocumentUpload.tsx:67-76 | after k firings from 0 the bar reads min(5k, 90) |
| UploadForm.UploadError | src/components/DocumentUpload.tsx:82-99 | a failed upload shows the size rewrite when the service's message mentions "request entity too large", else that message, else "Failed to upload document"; it is never empty |
| UploadForm.Submit | src/components/DocumentUpload.tsx:57-104 | nothing is sent, and the missing-input message is shown, exactly when there is no file or the title is blank; otherwise the trimmed title, the file and the type are sent, loading ends, success sets the bar to 100 with no error and failure resets it to 0 with the message of `UploadError` |
| UploadForm.Reset | src/components/DocumentUpload.tsx:90-96 | the success timer empties the file, title, type and progress and leaves the error and loading flag alone |
| UploadForm.SuccessThenReset | src/components/DocumentUpload.tsx:89-96 | a successful submission followed by its timer returns the form to its first-render state |
| UploadForm.SentFilePassedChecks | src/components/DocumentUpload.tsx:18-78 | a submission only sends a file that passed the selection checks |
| Documents.FileCheck | src/services/documentService.ts:14-25 | a file passes exactly when its type is `application/pdf` and its size lies in [100, 10 MiB], else the message of the first failing check (type, then too large, then too small) |
| Documents.SizeBoundsInclusive | src/services/documentService.ts:19-25 | files of exactly 100 bytes and exactly 10 MiB pass the size checks |
| Documents.BufferToBase64 | src/services/documentService.ts:200-225 | a reader error gives "Failed to convert PDF to base64"; otherwise the data URL's payload, cleaned, is the RFC 4648 encoding of the bytes, which passes `isValidBase64`; an empty buffer is refused as "Generated invalid base64 data" |
| Documents.UploadPolicyDocument | src/services/documentService.ts:8-85 | success and a missing error go together and exactly a successful upload stores a row; failed file checks and a missing `%PDF-` header give their messages; success means every check passed, the extracted text is not blank and is at least 10 UTF-16 code units long, the insert succeeded, and the row holds the title, type, text and the base64 encoding of the bytes |
| Documents.Extract | src/services/documentService.ts:40-77 | after the header check, the upload succeeds exactly when extraction returned a non-blank text of at least 10 UTF-16 code units, the reader did not fail and the insert raised nothing; a blank text and a short text each give their own message; the stored row carries the encoding of the bytes |
| Documents.AstralTextLongEnough | src/services/documentService.ts:48 | the minimum length counts UTF-16 code units, so five characters beyond U+FFFF pass it |
| Js.Utf16Length | src/services/documentService.ts:48 | a string's `length` lies between its number of characters and twice that, equal to the first exactly when no character is beyond U+FFFF and to the second exactly when all are |
| Documents.Store | src/services/documentService.ts:52-77 | once the text is accepted, the upload succeeds exactly when the reader and the insert succeed, and stores the encoding of the bytes |
| Documents.Base64ToBytes | src/services/documentService.ts:228-240 | the conversion throws exactly when `atob` rejects the cleaned string, with "Failed to convert base64 to binary data"; otherwise its result is what `atob` gives |
| Documents.GetPolicyDocumentPdf | src/services/documentService.ts:108-197 | every failure is an `Error`; an empty id, a database error and a missing or empty `pdf_data` give their messages; a present `pdf_data` goes through the stored-data checks; the call succeeds exactly when the id is non-empty and the row holds text that cleans to valid base64 decoding to a 100-byte to 10 MiB PDF, and its result is the `atob` of that cleaned text |
| Documents.DecodeStored | src/services/documentService.ts:133-169 | it succeeds exactly when the cleaned text passes `isValidBase64` and decodes to 100 bytes to 10 MiB starting with `%PDF-`, giving those bytes; otherwise it throws "Invalid base64 data format", "PDF data appears to be truncated", "PDF data exceeds maximum allowed size" or "Invalid PDF format", for the first check that fails |
| Documents.DecodeChecksNeverFire | src/services/documentService.ts:141-149 | a string that passes `isValidBase64` always decodes to at least one byte, so the "empty" check never fires |
| Documents.EncodingToBytes | src/services/documentService.ts:228-240 | `base64ToUint8Array` inverts the encoding |
| Documents.DownloadOfEncoding | src/services/documentService.ts:108-197 | the stored encoding of an in-range PDF is retrieved as exactly those bytes |
| Documents.DownloadOfValid | src/services/documentService.ts:127-182 | stored data that is clean, valid and decodes to an in-range PDF is returned as those bytes |
| Documents.UploadThenDownload | src/services/documentService.ts:66-73 | whatever a successful upload stores comes back byte for byte from `getPolicyDocumentPDF` |
| Base64.CharOf | src/services/documentService.ts:220 | each 6-bit value maps to a character of the base64 alphabet |
| Base64.ValueOf | src/services/documentService.ts:231 | decoding a character gives the value that encodes to it |
| Base64.ValueOfCharOf | src/services/documentService.ts:220-231 | the character map and the value map are inverse |
| Base64.EncodeGroup | src/services/documentService.ts:220 | three bytes encode as four alphabet characters |
| Base64.Unpadded | src/services/documentService.ts:220 | the unpadded encoding has 4 characters per full group of three bytes, plus 2 or 3 for a short tail, all of the alphabet |
| Base64.Padding | src/services/documentService.ts:220 | padding is at most two '=' |
| Base64.Encode | src/services/documentService.ts:220 | the encoding's length is a multiple of 4 and it is empty only for no bytes |
| Base64.DecodeGroup | src/services/documentService.ts:231 | four characters decode to three bytes |
| Base64.DecodeChars | src/services/documentService.ts:231 | n alphabet characters decode to floor(6n/8) bytes |
| Base64.KeepIf | src/services/documentService.ts:271-272 | filtering keeps only characters meeting the test, never lengthens, and keeps a string whose characters all meet it |
| Base64.StripPadding | src/services/documentService.ts:231 | `atob`'s padding strip only removes a suffix |
| Base64.Atob | src/services/documentService.ts:231 | a decoded value has floor(6n/8) bytes for the n data characters left after white space and padding are removed |
| Base64.GroupRoundTrip | src/services/documentService.ts:220-231 | a group of three bytes decodes back to itself |
| Base64.TwoByteTail | src/services/documentService.ts:220-231 | a two-byte tail round-trips |
| Base64.OneByteTail | src/services/documentService.ts:220-231 | a one-byte tail round-trips |
| Base64.DecodeCons | src/services/documentService.ts:231 | decoding proceeds one leading group at a time |
| Base64.UnpaddedCons | src/services/documentService.ts:220 | encoding emits one group ahead of the rest |
| Base64.UnpaddedRoundTrip | src/services/documentService.ts:220-231 | decoding the unpadded encoding gives back the bytes |
| Base64.GroupStep | src/services/documentService.ts:220-231 | if the bytes after the first three round-trip, all of them do |
| Base64.EncodingChars | src/services/documentService.ts:220 | an encoding consists of alphabet characters and '=' only |
| Base64.StripEncoding | src/services/documentService.ts:220-231 | `atob`'s padding strip removes exactly an encoding's padding |
| Base64.RoundTrip | src/services/documentService.ts:220-231 | `atob` of the encoding of any bytes gives those bytes back |
| Base64.Clean | src/services/documentService.ts:269-274 | a cleaned string holds only characters of `[A-Za-z0-9_+/=]` |
| Base64.CleanKeepsWordChars | src/services/documentService.ts:269-274 | the white-space pass is subsumed: cleaning keeps exactly the characters of `[A-Za-z0-9_+/=]`, and the last `replace` changes nothing |
| Base64.CleanIdempotent | src/services/documentService.ts:269-274 | cleaning twice is cleaning once |
| Base64.CleanKeepsEncoding | src/services/documentService.ts:209 | cleaning leaves an encoding unchanged |
| Base64.TrailingEquals | src/services/documentService.ts:251 | counts exactly the trailing '=' characters |
| Base64.IsValidBase64 | src/services/documentService.ts:243-266 | a valid string is non-empty and, once cleaned, matches `^[A-Za-z0-9+/]*={0,2}$` with a length divisible by 4 |
| Base64.ValidIff | src/services/documentService.ts:243-266 | the 100-character probe adds nothing: validity is exactly non-empty, cleaned non-empty, pattern match and length divisible by 4 |
| Base64.ValidShape | src/services/documentService.ts:251 | a valid cleaned string has no '_' and any '=' among its last two characters |
| Base64.PatternShape | src/services/documentService.ts:251 | a string matching the pattern has no '_' and any '=' among its last two characters |
| Base64.StripPattern | src/services/documentService.ts:251-261 | on a pattern-matching string of length divisible by 4, `atob`'s padding strip removes exactly its trailing '=' |
| Base64.AtobOfPattern | src/services/documentService.ts:251-261 | such a string decodes, to floor(6n/8) bytes for its n data characters |
| Base64.PatternData | src/services/documentService.ts:251-261 | on such a string `atob` keeps the characters before the '=', all of the alphabet, in a decodable count |
| Base64.PatternDecodes | src/services/documentService.ts:251-262 | a cleaned string matching the pattern decodes, to at least one byte exactly when it is not empty |
| Base64.LongProbe | src/services/documentService.ts:261-262 | the first 100 characters of a longer valid string decode to at least one byte |
| Base64.ValidDecodes | src/services/documentService.ts:243-266 | a valid string decodes, once cleaned, to at least one byte |
| Base64.EncodingIsValid | src/services/documentService.ts:209-216 | every non-empty encoding passes `isValidBase64` |
| Base64.Split | src/services/documentService.ts:209 | `split` always yields at least one part |
| Base64.SplitWithout | src/services/documentService.ts:209 | splitting a string without the delimiter yields that string alone |
| Base64.SplitPrefix | src/services/documentService.ts:209 | a delimiter-free prefix joins the first part |
| Base64.DataUrlPayload | src/services/documentService.ts:207-209 | `split(',')[1]` of a `data:` URL whose MIME type and payload hold no comma is the payload, and there are exactly two parts |
| Base64.EncodingHasNoComma | src/services/documentService.ts:209 | an encoding never contains a comma |
| OrderList.KeepMatching | src/App.tsx:65-70 | the kept orders are, in their original order, exactly those whose lower-cased title, number or summary includes the lower-cased query, each kept as often as it occurs |
| OrderList.FilterOrders | src/App.tsx:62-71 | a query that is blank after trimming keeps every order; otherwise exactly the matching orders are kept, in order and with their multiplicity |
| OrderList.QueryMatchedUntrimmed | src/App.tsx:63-70 | only the blank test trims: "tariffs" finds an order titled "Tariffs" but " tariffs" does not |
| OrderList.TotalPages | src/App.tsx:73 | the page count is the least number of ten-order pages that hold the list, and is 0 only for an empty list |
| OrderList.JsSlice | src/App.tsx:76 | `slice` within bounds is the plain subsequence, and never longer than the array |
| OrderList.PageOf | src/App.tsx:74-77 | page p (from 1) holds orders 10(p-1) to 10p of the filtered list, clamped to its end, so at most ten |
| OrderList.PagesUpToPrefix | src/App.tsx:73-77 | pages 1 to k laid end to end are the first 10k filtered orders |
| OrderList.PagesCoverFiltered | src/App.tsx:73-77 | pages 1 to `totalPages` laid end to end are the filtered list: each order is on exactly one page, in order |
| OrderList.ViewStatus | src/App.tsx:111 | `verified` is shown as `active` and only it; every other status passes through unchanged |
| OrderList.FromDbRow | src/App.tsx:102-115 | a database row becomes an order whose summary and category fall back to their defaults when missing or empty, whose status is never `verified`, whose URL is the White House URL, else the Federal Register URL, else empty, and whose id, number and title are copied |
| OrderList.SetQuery | src/App.tsx:150-152 | a changed query sends the list back to page 1; an unchanged one changes nothing |
| OrderList.NewQueryShowsFirstPage | src/App.tsx:62-77 | after a new query the screen shows the first ten (or fewer) matches |
| Pagination.Pages | src/components/Pagination.tsx:11 | the page buttons are 1, 2, ..., `totalPages` in order |
| Pagination.VisiblePages | src/components/Pagination.tsx:14-26 | at most seven pages are all shown; beyond that the strip is the first five pages and the last, the first page and the last five, or the first, the current with its neighbours, and the last, with ellipses over the gaps, by where the current page lies |
| Pagination.LongStripShape | src/components/Pagination.tsx:14-26 | for more than seven pages the strip has seven entries, starts with page 1, ends with the last page, and shows only real pages in rising order |
| Pagination.StripShowsCurrent | src/components/Pagination.tsx:14-26 | the strip always includes the current page and its numbers rise from left to right |
| Pagination.Step | src/components/Pagination.tsx:31-70 | Previous and Next move one page unless disabled, and from a page in range never leave the range |
| AssessmentView.TestLoop | src/components/AssessmentView.tsx:67-108 | providers are tried in order as a prefix of the list, all of them unless an error is marked; only a marked error asks for a refresh; an error is marked exactly when some provider's outcome is not benign (a failed result other than DeepSeek's "disabled", or a thrown error naming a lost connection or an HTML reply) |
| AssessmentView.FirstFailure | src/components/AssessmentView.tsx:78-100 | the position of the first provider whose outcome is not benign: every earlier one is benign and the one there is not |
| AssessmentView.StopsAtFirstFailure | src/components/AssessmentView.tsx:78-107 | the loop tries exactly the providers up to and including the first whose outcome is not benign, marks an error exactly when there is one, and asks for a refresh exactly when that outcome was a thrown error |
| AssessmentView.ShownResults | src/components/AssessmentView.tsx:70-76 | the results shown after the loop are what was shown before, with the returned result of every provider tried put in; every tried provider whose test returned is shown with its result |
| AssessmentView.HandleTestAI | src/components/AssessmentView.tsx:39-127 | a click while testing does nothing; without a connection only Latimer's connection-lost result is shown and a refresh is asked for; otherwise the time is recorded and the refresh flag cleared exactly when the loop marked no error; after an error the flag is set by a fatal throw and otherwise left as it was; the shown results are exactly the returned results of the providers tried |
| AssessmentView.SuccessRecordedIffNoFailure | src/components/AssessmentView.tsx:110-113 | the time of the last successful test is recorded exactly when every provider passed, was excused, or threw a non-fatal error |
| AssessmentView.DisabledDeepSeekIsNoFailure | src/components/AssessmentView.tsx:79-83 | a disabled DeepSeek does not spoil a run in which Latimer and Perplexity pass |
| AiConfig.GetEnvVar | src/services/ai/config.ts:28-35 | in the browser a non-empty `window.__env` value wins, else `import.meta.env` is read; under Node `process.env` is read |
| AiConfig.MissingVars | src/services/ai/config.ts:37-45 | API_KEY, then BASE_URL, are listed exactly when their variable is unset or empty |
| AiConfig.ValidateEnvVars | src/services/ai/config.ts:37-52 | validation passes exactly when both variables are set and non-empty, and otherwise names the provider in upper case and the missing keys joined by ", " |
| AiConfig.BothMissingReported | src/services/ai/config.ts:47-51 | with neither variable set the message ends "API_KEY, BASE_URL" |
| AiConfig.TrimTrailingSlash | src/services/ai/config.ts:67 | exactly one trailing slash is removed when there is one, and nothing else changes |
| AiConfig.GetProviderConfig | src/services/ai/config.ts:54-79 | a configuration is produced exactly when validation passes, and then holds the API key, the base URL without its trailing slash, 3 retries, a 30 s timeout and DeepSeek disabled; otherwise the validation message is the error |
| AiConfig.SecondCheckUnreachable | src/services/ai/config.ts:62-64 | the "Missing configuration" error can never be raised: every failure is the validation message |
| BaseService.ConfigError | src/services/ai/base.ts:18-36 | a configuration is accepted exactly when the key and base URL are non-empty, the URL parses and both limits are non-negative; each failure has the message of the first failing check |
| BaseService.ZeroLimitsAccepted | src/services/ai/base.ts:30-35 | zero retries and a zero timeout are accepted |
| BaseService.Initialize | src/services/ai/base.ts:9-16 | initialisation succeeds exactly for an accepted configuration, which is then stored; otherwise the validation message is raised |
| BaseService.InitializedOnlyByValidConfig | src/services/ai/base.ts:9-16 | a fresh service becomes initialised exactly through an accepted configuration |
| BaseService.RetryDelay | src/services/ai/base.ts:79 | the k-th wait is 1000·2^k ms for k < 5 and 16 s after that |
| BaseService.ImmediateError | src/services/ai/base.ts:45-53 | `TypeError('Failed to fetch')` becomes the unreachable-API message and an error mentioning CORS the CORS message |
| BaseService.GiveUpError | src/services/ai/base.ts:60-76 | when giving up, a message containing 401, 403, 429 or 500 (first in that order) is replaced by its explanation, any other `Error` is rethrown, and a non-`Error` becomes "An unexpected error occurred" |
| BaseService.Settle | src/services/ai/base.ts:42-77 | the caller sees a value exactly when the last call returned one, and then that value |
| BaseService.RetryWithBackoff | src/services/ai/base.ts:38-84 | the operation runs at least once and at most `maxRetries - retryCount + 1` times; every call but the last threw a retryable error (not a network or CORS error, with a configuration, under the retry limit, matching a retry keyword); the i-th wait is `RetryDelay(retryCount + i)` |
| BaseService.RetryOutcome | src/services/ai/base.ts:42-83 | the loop ends at the first call that is not retried, and reports that call's outcome |
| BaseService.RetryDone | src/services/ai/base.ts:43 | a value returned by the loop is the value of its last call |
| BaseService.RetryStopsAtFirstFinal | src/services/ai/base.ts:42-83 | if calls 0 to j-1 are retried and call j is not, the loop makes exactly j+1 calls and reports call j's outcome |
| BaseService.NoConfigNoRetry | src/services/ai/base.ts:55-56 | without a stored configuration the operation runs once |
| BaseService.AtMostMaxRetriesPlusOne | src/services/ai/base.ts:57 | with `maxRetries` retries there are at most `maxRetries + 1` calls |
| BaseService.NetworkErrorsNotRetried | src/services/ai/base.ts:45-53 | a failed fetch or a CORS error ends the loop at once with a network message |
| Rating.ExplicitRating | src/services/ai/deepseek.ts:88-100 | "rating: positive" or "rating:positive" in the lower-cased text gives positive, else the negative marker gives negative, else the neutral marker gives neutral, and there is no explicit rating exactly when none of the six markers occurs |
| Rating.ScoreTerms | src/services/ai/deepseek.ts:106-117 | the `forEach` accumulation adds up the global-match counts of every listed term |
| Rating.AnalyzeResponse | src/services/ai/deepseek.ts:85-122 | an explicit marker decides; otherwise the rating is positive, negative or neutral exactly as the positive term count is above, below or equal to the negative one |
| Rating.LatimerClassifiesLikeDeepSeek | src/services/ai/latimer.ts:69-106 | Latimer rates every text as DeepSeek does |
| Rating.OnlyTrailingMarker | src/services/ai/deepseek.ts:88-100 | a text with no colon before a closing "rating: w" shows the marker for w and no other |
| Rating.TrailingMarkerDecides | src/services/ai/deepseek.ts:88-100 | such a text is rated by its closing word whatever the keyword counts |
| Rating.CountIsPositions | src/services/ai/deepseek.ts:110-111 | for a term whose first letter does not recur in it, the global match count is the number of occurrences |
| Rating.AlignCountSplits | src/services/ai/perplexity.ts:94-107 | every "misalign" is also counted as an "align": the "align" count is the "misalign" count plus the standalone "align"s |
| Rating.MisalignNeverDecides | src/services/ai/perplexity.ts:94-112 | Perplexity's fallback compares standalone "align"s plus its other positive terms against its negative terms without "misalign": each "misalign" adds one to both scores |
| Rating.Confidence | src/services/ai/deepseek.ts:124-140 | the confidence is 0.7, plus 0.1 per section heading present, minus 0.05 per distinct uncertainty word present; it always lies in [0.45, 1.0], so the clamp to [0.1, 1.0] never binds |
| Rating.CalculateConfidence | src/services/ai/deepseek.ts:124-140 | the statement-by-statement accumulation and clamp compute `Confidence` |
| Rating.ConfidenceDependsOnPresence | src/services/ai/deepseek.ts:133-136 | confidence depends only on which headings and uncertainty words occur, not on how often |
| Text.CountPositiveIffContains | src/services/ai/deepseek.ts:110-111 | a non-empty term has a match exactly when the text includes it |
| Providers.RealOr | src/services/ai/deepseek.ts:44 | `temperature \|\| fallback`: an absent or zero value gives the fallback |
| Providers.IntOr | src/services/ai/deepseek.ts:45 | `maxTokens \|\| fallback`: an absent or zero value gives the fallback |
| Providers.DeepSeekParams | src/services/ai/deepseek.ts:21-47 | DeepSeek asks for `deepseek-chat` with temperature 0.3 and 1000 tokens unless the request sets non-zero values, and sends no `top_p` |
| Providers.CompletionAssessment | src/services/ai/deepseek.ts:50-70 | a reply yields an assessment exactly when `choices[0].message.content` is a non-empty string; its text is that content, its rating and confidence come from the heuristics; a falsy content raises the provider's invalid-format error and a truthy non-string one a `TypeError` |
| Providers.AuthRewrite | src/services/ai/deepseek.ts:71-80 | an error mentioning "Authentication Fails" becomes "Authentication failed: Invalid API key"; any other error is rethrown unchanged |
| Providers.DeepSeekCall | src/services/ai/deepseek.ts:12-81 | one DeepSeek attempt succeeds exactly when the call and the reply are good; a failed call is rethrown through the authentication rewrite; a reply without content raises "Invalid response format from DeepSeek API" |
| Providers.DeepSeekAssess | src/services/ai/deepseek.ts:6-83 | before initialisation it throws "DeepSeek service not initialized" without calling; otherwise the attempts stay within the retry bound, every attempt before the last was retried and the last was not, and the outcome is the last call settled: its rated content on success, its error otherwise |
| Providers.DeepSeekRunDone | src/services/ai/deepseek.ts:11-70 | an assessment the retry loop returns was read from its last call's reply, with the DeepSeek rating and the confidence of its text |
| Providers.PerplexityParams | src/services/ai/perplexity.ts:20-47 | Perplexity asks for `sonar` with `top_p` 0.9, temperature 0.1 and 500 tokens unless the request sets non-zero values |
| Providers.PerplexityZeroMeansDefault | src/services/ai/perplexity.ts:43-44 | a zero temperature or token limit is replaced by the default |
| Providers.PerplexityCall | src/services/ai/perplexity.ts:12-72 | a failed call is rethrown unchanged; a reply is turned into an assessment with Perplexity's terms or "Invalid response format from API" |
| Providers.PerplexityAssess | src/services/ai/perplexity.ts:6-74 | before initialisation it throws "Perplexity service not initialized" without calling; otherwise the attempts stay within the retry bound, every attempt before the last was retried and the last was not, and the outcome is the last call settled: its rated content on success, its error otherwise |
| Providers.PerplexityRunDone | src/services/ai/perplexity.ts:11-68 | an assessment the retry loop returns was read from its last call's reply, with the Perplexity rating and the confidence of its text |
| Providers.PerplexityTrailingNeutral | src/services/ai/perplexity.ts:76-91 | a completion ending "Rating: neutral" with no colon before it is rated neutral |
| Providers.LatimerText | src/services/ai/latimer.ts:45 | the text is the first truthy of `message.content`, `text`, `completion`, `response`, and is truthy exactly when one of them is |
| Providers.LatimerCall | src/services/ai/latimer.ts:12-65 | a failed call is rethrown; a reply that is not a truthy object raises "Invalid response format"; a missing or non-string text raises "No assessment text in response"; the call succeeds exactly when the reply is a truthy object with a truthy string text, and the assessment carries that text, Latimer's rating and confidence 0.8 |
| Providers.LatimerAssess | src/services/ai/latimer.ts:6-67 | before initialisation it throws "Latimer service not initialized" without calling; otherwise the attempts stay within the retry bound, every attempt before the last was retried and the last was not, the outcome is the last call settled, and an assessment carries the text of the last reply with confidence 0.8 and Latimer's rating |
| Providers.LatimerTrailingPositive | src/services/ai/latimer.ts:44-60 | a reply whose `message.content` ends "Rating: positive", with no colon before it, is rated positive with confidence 0.8 |
| Providers.LatimerFallsBackToText | src/services/ai/latimer.ts:45 | without `message.content` the `text` field is used before `completion` |
| Proxy.CleanEndpoint | src/services/ai/proxy.ts:9 | at most one leading slash is removed, and only when present |
| Proxy.ProxyUrl | src/services/ai/proxy.ts:12 | the URL is `/api/<provider>/` followed by the cleaned endpoint |
| Proxy.NoDoubleSlash | src/services/ai/proxy.ts:8-12 | an endpoint with a leading slash gives the same URL as without it |
| Proxy.ErrorBodyMessage | src/services/ai/proxy.ts:59-80 | for a failed JSON reply the message is a string body, else a non-empty `message` field; an unreadable or null body gives "`<provider>` API error: `<status>`"; a text body is the message unless it is an HTML page, which means the connection was lost |
| Proxy.NestedErrorObjectIsOpaque | src/services/ai/proxy.ts:66-68 | a JSON body `{error: {...}}` is reported as "[object Object]" |
| Proxy.AttemptOnce | src/services/ai/proxy.ts:27-85 | from the second attempt on a failed health check means the connection was lost; a failed fetch is rethrown; an HTML reply is an error; an attempt returns the response exactly when the health check (if any) passed, the fetch succeeded, the status is OK and the reply is not HTML |
| Proxy.AsError | src/services/ai/proxy.ts:87 | what the loop keeps is always an `Error`, the thrown one when it was one |
| Proxy.ProxyDelay | src/services/ai/proxy.ts:23 | the wait before retry k+1 is 1000·(k+1) ms |
| Proxy.LoopFrom | src/services/ai/proxy.ts:26-107 | from attempt k the loop makes between 1 and 3-k attempts; every attempt but the last threw a retryable message before the last attempt, and the i-th wait is 1000·(k+i+1) ms; the last attempt is not retried and its outcome is returned |
| Proxy.FinalError | src/services/ai/proxy.ts:110-123 | messages mentioning "Failed to fetch", "socket", "network" or "CORS" become the unreachable-server message; other errors pass through; non-errors become "An unexpected error occurred" |
| Proxy.ProxyRequest | src/services/ai/proxy.ts:3-124 | at most three attempts, waiting 1 s then 2 s; every attempt but the last was retried and the last was not; the call ends with the last attempt's response, or with the outer `catch`'s rewrite of its error; a returned response is OK; every failure is an `Error` |
| Proxy.NonRetryableStops | src/services/ai/proxy.ts:89-105 | if attempts 0 to j-1 were retried and attempt j is not, exactly j+1 attempts are made |
| Proxy.FirstHealthCheckIgnored | src/services/ai/proxy.ts:29-38 | the health check is not made before the first attempt, so its outcome there cannot matter |
| Proxy.HtmlIsAnError | src/services/ai/proxy.ts:53-57 | an HTML page is an error even with an OK status |
| Factory.CreateService | src/services/ai/factory.ts:28-39 | each provider gets a fresh, uninitialised instance of its own class |
| Factory.GetAIService | src/services/ai/factory.ts:8-26 | DeepSeek without `enableDeepseek` fails with "DeepSeek integration is currently disabled" and touches nothing; otherwise the provider's instance is cached (created if absent) with every other entry unchanged; an initialised cached instance is returned as it is; on a first call the lookup succeeds exactly when the configuration passes validation, and then returns an instance of that provider holding that configuration; a failed initialisation leaves an uninitialised instance cached and reports the validation message |
| Factory.SecondCallReturnsSameInstance | src/services/ai/factory.ts:14-25 | after a successful call, a later call returns the same instance whatever configuration it passes, and changes nothing |
| Factory.FailedInitRetried | src/services/ai/factory.ts:16-23 | after a failed initialisation, the next call with a valid configuration initialises the cached instance with that configuration |
| Factory.DeepSeekAlwaysDisabled | src/services/ai/factory.ts:10-12 | with the configuration `getProviderConfig` builds, asking for DeepSeek always fails and leaves the cache untouched |
| ProviderTest.Classify | src/services/ai/test.ts:45-60 | an error whose message mentions "Failed to fetch", "Network error" or "connection lost" is rethrown as the refresh message; any other error becomes a failed result carrying its message ("Unknown error" for a non-`Error`) |
| ProviderTest.TestAIService | src/services/ai/test.ts:12-61 | a configuration error is classified like any other error; DeepSeek with its default configuration reports "DeepSeek integration is currently disabled" without touching the cache; otherwise the cache is the lookup's, a failed lookup is classified by its message, and a looked-up instance passes with its assessment or has its thrown error classified; a passed result comes from the initialised, cached instance of an enabled provider with a valid configuration |
| ProviderTest.OnlyConnectionErrorsThrow | src/services/ai/test.ts:49-59 | the only error the test throws is the refresh message |
| AssessmentService.RequestFor | src/services/assessmentService.ts:174-180 | the service is asked with "Title: ... Summary: ..." of the order, the policy's content, temperature 0.3, and 4000 tokens with `sonar` in development or 8000 with `sonar-pro` otherwise |
| AssessmentService.AssessLoop | src/services/assessmentService.ts:169-216 | `assess` is called at most twice, stopping at the first success, whose reply is returned; every earlier call threw; failing twice throws the last error; the wait after failure i is 1000·(i+1) ms and none follows the last attempt |
| AssessmentService.TwoFailuresThrowLast | src/services/assessmentService.ts:201-216 | after two failures the second call's error is thrown, after a single 1 s wait |
| AssessmentService.AssessWith | src/services/assessmentService.ts:157-216 | a configuration or service-lookup failure throws its message with progress 10, 30 and no call; a ready service is asked exactly as `AskService` asks it; progress is reported as 10, 30, then 50 once the service is ready, then 100 exactly on success; a result carries the last call's text, rating and confidence and its token count or 0; tokens are logged only when the count is truthy; a run that reached the service and failed made two calls with one 1 s wait |
| AssessmentService.AskService | src/services/assessmentService.ts:165-215 | the cache is left as it is; one or two calls are made; the run succeeds exactly when the first or the second call does, with progress 10, 30, 50 and then 100 on success; a result carries the successful call's text, rating, confidence and token count or 0; the token count is logged exactly when the successful reply carries a truthy one; every call before it threw; a success on the second call waited 1 s once, and one on the first did not wait; a failed run made both calls, waited 1 s once and throws the second error, or "Assessment failed" when that is not an `Error` |
| AssessmentService.Prepare | src/services/assessmentService.ts:101-147 | an empty id or type, a failed or empty order query, and a failed or empty policy query each give their message in that order; otherwise the request is built from the order and the newest policy document |
| AssessmentService.PerformAssessment | src/services/assessmentService.ts:95-221 | a failed check throws its message without calling the service or touching the cache, with progress 10 only once the arguments were accepted; once every check passed the run is exactly `AssessWith` on the prepared request; the service is called at most twice and only after every check passed; success is exactly progress reaching 100 and carries the last call's token count or 0 |
| AssessmentService.AssessError | src/services/assessmentService.ts:80-92 | a message mentioning "timed out" is replaced by the longer-than-expected message; other `Error`s pass through; anything else becomes "Assessment failed unexpectedly" |
| AssessmentService.TimeoutRewritten | src/services/assessmentService.ts:66-87 | the timeout's own message is the one rewritten |
| Queue.QueueAssessment | src/services/queueService.ts:17-58 | both inserts are issued; the table gains a pending row with 0 attempts for each provider whose insert succeeded, Latimer before Perplexity, with the signing time as priority or 0 without a signing date; the call succeeds exactly when both inserts do, and otherwise throws an insert's error, the first to settle when both fail |
| Queue.KeepEligible | src/services/queueService.ts:65-66 | exactly the pending or failed rows with fewer than 3 attempts are kept |
| Queue.Insert | src/services/queueService.ts:67-68 | inserting into a batch in priority-then-age order keeps it ordered and adds exactly the one row |
| Queue.InsertBehind | src/services/queueService.ts:67-68 | a row placed after the head keeps the head in front of the rest |
| Queue.Sort | src/services/queueService.ts:67-68 | the rows come out as a permutation ordered by priority descending, then creation time ascending |
| Queue.SelectBatch | src/services/queueService.ts:62-69 | the batch is the first min(5, eligible) eligible rows in that order, each drawn from the table |
| Queue.LeftOutComesLater | src/services/queueService.ts:67-69 | an eligible row left out of the batch comes no earlier than any selected row |
| Queue.NewerOrderFirst | src/services/queueService.ts:28-31 | a freshly queued row whose priority (signing time) exceeds that of every eligible row already queued heads the next batch |
| Queue.Write | src/services/queueService.ts:126-142 | a status write sets the status, adds one attempt, and replaces the error only when one is given |
| Queue.Recover | src/services/queueService.ts:116-123 | a failure is recorded as `failed` with its message ("Unknown error" for a non-`Error`), unless that write fails too, which then propagates |
| Queue.FirstFailing | src/services/queueService.ts:81-116 | the error the `catch` receives is that of the first step of the `try`, in source order, that fails; there is none exactly when no step fails |
| Queue.ProcessItem | src/services/queueService.ts:81-124 | a row ends `completed` exactly when no step fails, after two writes, and nothing escapes; when a step fails the recovery write's error escapes exactly when that write fails; the attempts added are the status writes that succeeded before the failing step (none before the first, one before the middle steps, two before the impact update), plus one for a successful recovery write; a successful recovery leaves the row `failed` with the first failing step's message, or "Unknown error" for a non-`Error` |
| Queue.CompletedNotEligible | src/services/queueService.ts:108 | a completed row is never selected again |
| Queue.AtMostTwoRounds | src/services/queueService.ts:126-142 | a row queued with 0 attempts is processed at most twice when its status writes succeed |
| Queue.RunBatch | src/services/queueService.ts:74-78 | rows are processed in batch order with a pause after each; an error escaping an item ends the loop there, and it is that item's failed recovery write |
| Queue.ProcessQueue | src/services/queueService.ts:60-79 | a failed selection query throws; otherwise the selected batch is run by the loop, so an empty batch returns at once and at most five rows are processed, in batch order |
| Aggregate.RatingScore | src/services/queueService.ts:237-241 | a rating scores 1 exactly when positive, −1 exactly when negative, 0 otherwise |
| Aggregate.Threshold | src/services/queueService.ts:253-256 | the final rating is positive iff the average score is strictly above 0.3 and negative iff strictly below −0.3 |
| Aggregate.BoundaryIsNeutral | src/services/queueService.ts:253-256 | an average of exactly ±0.3 is neutral |
| Aggregate.FinalAssessment | src/services/queueService.ts:235-262 | the final confidence times the number of assessments is their confidence sum; the rating is the threshold of the mean confidence-weighted score |
| Aggregate.ConfidenceSumBetween | src/services/queueService.ts:247-249 | the confidence sum of n assessments lies between n·lo and n·hi when each confidence does |
| Aggregate.MeanConfidenceBetween | src/services/queueService.ts:247-249 | the final confidence lies between the smallest and the largest stored confidence |
| Aggregate.ScoreSumBounded | src/services/queueService.ts:243-245 | with confidences in [0, 1] the summed score of n assessments lies in [−n, n] |
| Aggregate.UnanimousPositive | src/services/queueService.ts:235-262 | assessments that are all positive with confidence above 0.3 give a positive final rating |
| Aggregate.UnanimousSum | src/services/queueService.ts:243-245 | all-positive assessments with confidence above 0.3 sum to more than 0.3 per assessment |
| Aggregate.QueueImpact | src/services/queueService.ts:204-233 | nothing is written for an order without stored assessments; otherwise the written pair is the plain-average final assessment |
| Aggregate.Weight | src/test_assessment.ts:106 | each queued provider's weight lies strictly between 0 and 1 |
| Aggregate.TotalWeight | src/test_assessment.ts:113-120 | the total weight is positive exactly when there is at least one assessment, so the weighted average is defined then |
| Aggregate.WeightedImpact | src/test_assessment.ts:91-148 | nothing is written for an empty list; otherwise the rating is the threshold of the weight-normalised score and the confidence is the unweighted mean, the same as the plain rule's |
| Aggregate.WeightedSumBounded | src/test_assessment.ts:113-120 | with confidences in [0, 1] the weighted score sum lies within ± the total weight |
| Aggregate.WeightedScoreInRange | src/test_assessment.ts:122 | with confidences in [0, 1] the weighted average score lies in [−1, 1] |
| Aggregate.SingleProviderSums | src/test_assessment.ts:113-120 | when one provider wrote every assessment, the weighted sums are that provider's weight times the plain sums |
| Aggregate.SingleProviderRulesAgree | src/test_assessment.ts:106-129 | when one provider wrote every assessment, the weighted rule and the plain-average rule write the same final assessment |
| FederalRegister.Normalise | src/api/federalRegister.ts:52-56 | a falsy `count`, `total_pages` or `results` becomes 0, 1 or `[]`; a truthy one is kept; the page count and results of a response are always truthy |
| FederalRegister.FetchExecutiveOrders | src/api/federalRegister.ts:3-61 | the search succeeds exactly when the request succeeds with an OK status and a readable non-null body, and then gives its normalised form; every failure becomes the one generic error |
| FederalRegister.AtLeastOnePage | src/api/federalRegister.ts:54 | a successful search always reports a truthy page count |
| FederalRegister.NotesStatus | src/api/federalRegister.ts:74-83 | no notes means active; string notes are revoked iff they mention `revoked` in any case, superseded iff they mention `superseded` and not `revoked`; truthy non-string notes throw a TypeError |
| FederalRegister.StatusIgnoresCase | src/api/federalRegister.ts:77 | upper-casing the notes does not change the status |
| FederalRegister.Category | src/api/federalRegister.ts:85-98 | the category is one of the five group names or `Uncategorized` |
| FederalRegister.CategoryIsFirstMatch | src/api/federalRegister.ts:88-98 | the category is the name of the first keyword group, in table order, that the text mentions |
| FederalRegister.UncategorizedIffNoKeyword | src/api/federalRegister.ts:86-98 | a text is uncategorized exactly when it mentions no keyword of any group |
| FederalRegister.HealthcareTermRedundant | src/api/federalRegister.ts:92 | a text mentioning `healthcare` also mentions `health`, so that term never decides the category |
| FederalRegister.CategoryIgnoresCase | src/api/federalRegister.ts:87 | upper-casing the title and abstract does not change the category |
| FederalRegister.FieldOr | src/api/federalRegister.ts:101-108 | a truthy string field is kept and a falsy one gets its fallback |
| FederalRegister.Optional | src/api/federalRegister.ts:109-114 | an optional field is copied as it is, absent or null giving nothing |
| FederalRegister.Transform | src/api/federalRegister.ts:63-116 | a falsy or non-object record throws `Invalid data format`; otherwise the transform fails only when the notes do; the order carries the notes' status, the first-match category and type PRESDOCU; id, number, title, summary and url are the record's field when truthy and the documented default (`''`, `N/A`, `Untitled`, `No summary available`, `''`) otherwise; the date is the signing date, else the publication date, else the current time; the optional fields are copied as they are, absent or `null` as none |
| FederalRegister.TransformedNumberNonEmpty | src/api/federalRegister.ts:102 | a transformed order's number is never empty unless the record held an array there |
| OrderSync.MapStatus | src/services/orderSync.ts:5-16 | `active` is stored as verified, `superseded` and `revoked` as themselves, anything else as pending |
| OrderSync.StatusRoundTrip | src/services/orderSync.ts:5-16 | storing a status and reading it back through the list view gives the same status exactly for active, superseded, revoked and pending |
| OrderSync.ViewThenMapIsIdentity | src/services/orderSync.ts:5-16 | mapping a stored status's list-view name back gives the stored status |
| OrderSync.FindMatch | src/services/orderSync.ts:50-52 | a match is found exactly when the order has a document number and some White House row carries it as its Federal Register id, and the match found is such a row |
| OrderSync.FindMatchIsFirst | src/services/orderSync.ts:50-52 | the match found is the first row with that id |
| OrderSync.TextOf | src/services/orderSync.ts:66-68 | a White House field is copied when there is a match and the field is non-empty, and is null otherwise |
| OrderSync.OrderDataOf | src/services/orderSync.ts:54-69 | the written row keeps the order's number, title and summary, maps its status, falls back from the signing date to the publication date, and has no White House fields without a match |
| OrderSync.PendingData | src/services/orderSync.ts:118-127 | an unmatched White House entry is written as a pending row numbered `PENDING-…` with its URL and title and the fixed summary |
| OrderSync.Failures | src/services/orderSync.ts:96-102 | no more writes fail than were attempted |
| OrderSync.Numbered | src/services/orderSync.ts:44-47 | no more orders are written than were fetched |
| OrderSync.NumberedOrders | src/services/orderSync.ts:43-47 | the orders the first loop writes are as many as `Numbered` counts, each with a number |
| OrderSync.NumberedOrdersMembers | src/services/orderSync.ts:43-47 | an order is written by the first loop exactly when it was fetched and has a number |
| OrderSync.FederalWrite | src/services/orderSync.ts:71-94 | the write for an order carries its row with its White House match, and is an update exactly when the lookup found a row |
| OrderSync.SyncFederal | src/services/orderSync.ts:43-103 | one write per numbered order; each write counts as one success or one error, errors being the failed writes |
| OrderSync.FederalStep | src/services/orderSync.ts:43-47 | an order without a number is skipped; a numbered one is written before the orders after it |
| OrderSync.FederalWrites | src/services/orderSync.ts:43-103 | the `i`-th write is the row of the `i`-th numbered order with its White House match, an update exactly when the `i`-th lookup found a row and an insert otherwise |
| OrderSync.FederalWritesFromOrders | src/services/orderSync.ts:43-103 | every row the first loop writes is the row of a numbered fetched order |
| OrderSync.SyncWhiteHouse | src/services/orderSync.ts:105-142 | at most one pending insert per White House entry; each insert counts as one success or, when it fails, one error |
| OrderSync.WhiteStep | src/services/orderSync.ts:107-135 | an entry with a Federal Register id, or whose URL lookup returns a row, is skipped; any other entry gets its pending insert, and a successful insert adds its URL to the rows later lookups see |
| OrderSync.WhiteWrites | src/services/orderSync.ts:105-142 | the entries given pending rows come in table order, and each write is the pending row of its entry |
| OrderSync.NoEarlierEntry | src/services/orderSync.ts:107 | the loop never inserts for an entry it has already passed |
| OrderSync.GetsPendingStep | src/services/orderSync.ts:111-135 | passing one entry, and adding its URL when its insert succeeds, leaves unchanged whether a later entry gets a pending row |
| OrderSync.PendingAtStart | src/services/orderSync.ts:108-117 | the current entry gets a pending row exactly when it has no Federal Register id and the lookup by its URL finds no single row |
| OrderSync.EntryAfterStart | src/services/orderSync.ts:107-135 | whether a later entry gets a pending row is decided by the rest of the loop, with the current entry's successful insert seen by later lookups |
| OrderSync.PendingEntries | src/services/orderSync.ts:105-142 | from any point of the loop, an entry gets a pending row exactly when it has no Federal Register id and its URL is held by two or more rows, or by none with every earlier insert of that URL failed |
| OrderSync.PendingExactly | src/services/orderSync.ts:105-142 | over the whole table, an entry gets a pending row exactly when it has no Federal Register id and its URL is held by two or more stored rows, or by none with every earlier insert of that URL failed |
| OrderSync.UrlStoredOnce | src/services/orderSync.ts:111-135 | a URL one row holds gets no pending row; of two entries with a URL no row holds that both get pending rows, the earlier insert failed, so the URL is stored at most once |
| OrderSync.RepeatedUrlInsertedOnce | src/services/orderSync.ts:111-135 | two entries sharing a new URL give one insert: the lookup for the second finds the row the first inserted |
| OrderSync.TransformAll | src/services/orderSync.ts:24 | the transform of all results succeeds exactly when every record transforms, giving their orders in order; otherwise it throws the error of the first record that throws |
| Js.MapAll | src/services/orderSync.ts:24 | mapping a throwing function over a list succeeds exactly when every call does, giving the results in order; otherwise it throws the error of the first call that throws |
| OrderSync.SyncOrders | src/services/orderSync.ts:18-165 | a failed fetch reports the generic fetch error; a non-array result list reports the `map` TypeError; a record that fails to transform reports its error's message; the sync completes exactly when the fetch succeeds with an array every record of which transforms; a completed sync reports the fetched results plus the White House rows as its total, and its writes are the first loop's followed by the second loop's, split into successes and failures |
| OrderSync.FailuresAppend | src/services/orderSync.ts:95-138 | the failures of two write sequences add up |
| OrderSync.CountsWithinTotal | src/services/orderSync.ts:144-157 | the reported successes plus errors never exceed the reported total |
| OrderSync.NoneSkipped | src/services/orderSync.ts:44-47 | since a transformed order always has a number, every transformed result is written once |
| Scraper.DigitRun | src/api/whiteHouseScraper.ts:44 | the greedy `\d+` takes the maximal run of digits at a position |
| Scraper.DigitRunIs | src/api/whiteHouseScraper.ts:44 | a digit run not followed by a digit is the run the pattern takes |
| Scraper.MatchAt | src/api/whiteHouseScraper.ts:44 | a match at a position starts with `executive order ` and captures a non-empty run of digits, preferring the `number ` form |
| Scraper.FirstMatchIsLeftmost | src/api/whiteHouseScraper.ts:44 | the regular expression finds the leftmost match, and none exactly when no position matches |
| Scraper.FirstMatchAt | src/api/whiteHouseScraper.ts:44 | a match with no match before it is the one found |
| Scraper.NumberIsDigits | src/api/whiteHouseScraper.ts:44-45 | the extracted number consists of digits only |
| Scraper.NumberIffMatch | src/api/whiteHouseScraper.ts:44-45 | the number is empty exactly when the pattern matches nowhere in the lower-cased title |
| Scraper.NumberPassesFilter | src/api/whiteHouseScraper.ts:37-45 | a title with a number always passes the `executive order` title filter |
| Scraper.LowerKeepsDigits | src/api/whiteHouseScraper.ts:44 | lower-casing leaves digits as they are and makes no new digits |
| Scraper.MatchOfPhrase | src/api/whiteHouseScraper.ts:44 | where the lower-cased phrase is followed by a digit run, the match there captures that run |
| Scraper.NumberOfTitle | src/api/whiteHouseScraper.ts:44-45 | `… Executive Order 14148 …` and `… Executive Order Number 14148 …`, in any letter case, yield `14148` |
| Scraper.NumberAt | src/api/whiteHouseScraper.ts:44-45 | the number of a title is the capture of its leftmost match |
| Scraper.Visit | src/api/whiteHouseScraper.ts:33-64 | an article failing the title filter is skipped; one passing it throws exactly when its date text is present and unparsable; a pushed order is active, digit-numbered, carries the trimmed title, the link (or `''`), the parsed date (or the current time when no date text), and the trimmed summary, falling back to the title when that is blank |
| Scraper.VisitPushesIff | src/api/whiteHouseScraper.ts:36-61 | an article yields an order exactly when its title passes the filter, its date is not bad and its title carries a number |
| Scraper.Collect | src/api/whiteHouseScraper.ts:33-64 | a selector's loop pushes at most one order per article |
| Scraper.CollectIsHits | src/api/whiteHouseScraper.ts:33-64 | a selector's loop that runs to the end pushes, in article order, exactly the orders its visits yield |
| Scraper.CollectMembers | src/api/whiteHouseScraper.ts:33-64 | an order is in a completed selector loop's result iff some article's visit yields it |
| Scraper.HitsMember | src/api/whiteHouseScraper.ts:53-62 | an order is among the pushes of a run of visits iff one of the visits yields it |
| Scraper.CollectKept | src/api/whiteHouseScraper.ts:53-62 | every order a selector's loop pushes is active, digit-numbered, passes the filter and has a non-empty summary |
| Scraper.CollectThrowsIff | src/api/whiteHouseScraper.ts:39-41 | a selector's loop aborts exactly when one of its filtered articles has an unparsable date |
| Scraper.CollectStep | src/api/whiteHouseScraper.ts:33-64 | a selector's loop aborts on its first article or on the rest |
| Scraper.Outcomes | src/api/whiteHouseScraper.ts:25-32 | there is one outcome per selector, in the order the selectors are tried |
| Scraper.FirstSelectorWins | src/api/whiteHouseScraper.ts:32-68 | when every earlier selector yields nothing, the first selector yielding orders gives the result and later selectors do not matter |
| Scraper.NothingFound | src/api/whiteHouseScraper.ts:32-68 | when no selector yields an order and none aborts, the result is empty |
| Scraper.ResultFromOneSelector | src/api/whiteHouseScraper.ts:32-68 | any non-empty result or error is one selector's own outcome after only empty ones; an empty result means every selector was empty |
| Scraper.Scrape | src/api/whiteHouseScraper.ts:4-76 | an HTTP error, a failed request or an aborted loop gives no orders; otherwise the result is that of the selector loop |
| Scraper.ScrapedAreKept | src/api/whiteHouseScraper.ts:4-76 | every scraped order is active, digit-numbered, passes the title filter and has a non-empty summary |
| Scraper.ScrapeTakesFirstYield | src/api/whiteHouseScraper.ts:66-67 | the result is the orders of the first selector yielding any, when no earlier selector aborted |
| Scraper.InvalidDateEmptiesResult | src/api/whiteHouseScraper.ts:41 | an unparsable date on a filtered article of the first selector empties the whole result |
| SupabaseClient.LoadClient | src/lib/supabase.ts:12-14 | loading the client succeeds exactly when both variables are non-empty, and otherwise throws the missing-variables error |
| SupabaseClient.Issue | src/lib/supabase.ts:124-134 | a variable has at most one issue, and none exactly when it is set and starts with its required prefix; an empty one is reported missing and a malformed one as having an invalid format |
| SupabaseClient.ValidateConfig | src/lib/supabase.ts:121-140 | the configuration is valid iff there are no issues iff the URL starts with `https://` and the key with `eyJ`; the URL's issue comes first and the key's last, missing and malformed being told apart |
| SupabaseClient.OneIssuePerVariable | src/lib/supabase.ts:124-134 | no variable is reported both missing and malformed |
| SupabaseClient.LoadedNeverMissing | src/lib/supabase.ts:12-14 | once the client has loaded, validation never reports a variable missing |
| SupabaseClient.CheckEnvironment | src/lib/supabase.ts:109-118 | each variable is reported `Set` exactly when non-empty and `Missing` otherwise |
| SupabaseClient.EnvironmentReportTruthy | src/App.tsx:40-46 | both environment reports are non-empty, so the screen's missing-configuration branch never fires |
| SupabaseClient.Backoff | src/lib/supabase.ts:53 | the wait after a health error lies between 1 and 5 seconds |
| SupabaseClient.BackoffSchedule | src/lib/supabase.ts:53 | the waits are 1, 2 and 4 seconds, then 5 seconds from the fourth attempt on |
| SupabaseClient.Verdict | src/lib/supabase.ts:59-98 | on the last attempt a caught value always ends the test; a not-found message always does; before the last attempt only not-found and permission errors end it |
| SupabaseClient.Step | src/lib/supabase.ts:37-99 | an attempt succeeds exactly when its query is healthy; the last attempt always decides; an earlier one ends the test only with the not-found or permission message |
| SupabaseClient.TestFrom | src/lib/supabase.ts:36-100 | the loop from an attempt on makes at most the remaining number of attempts, succeeds exactly when its last attempt is healthy, waits the backoff only after health errors, and went on at every attempt before its last |
| SupabaseClient.TestConnection | src/lib/supabase.ts:33-106 | at most `retries` attempts, ending at the first healthy or deciding one, with the backoff waited only after health errors; with no attempt at all it gives up with the multiple-attempts message |
| SupabaseClient.NotFoundEndsTest | src/lib/supabase.ts:66-71 | a thrown not-found error ends the test on the attempt it happens on, with the tables-not-found message |
| SupabaseClient.HealthErrorsRetried | src/lib/supabase.ts:47-55 | health errors before the last attempt are retried after their backoff, so a healthy last attempt still succeeds |
| SupabaseClient.Keywords | src/lib/supabase.ts:149-163 | a message is in no keyword group exactly when it mentions none of the six keywords |
| SupabaseClient.HandleSupabaseError | src/lib/supabase.ts:143-169 | a falsy error gives the unknown-error message and a non-Error the unexpected-error message; an Error gets the message of the first keyword group its lower-cased message mentions, or keeps its own message |
| SupabaseClient.CheckConnection | src/App.tsx:27-60 | an invalid configuration shows `Invalid configuration: ` and the issues joined by commas; the screen is connected exactly when the configuration is valid and a three-attempt connection test succeeds; a valid configuration whose test fails shows the test's error, or the fixed "Failed to connect to database" message when it has none; a failure always shows a non-empty message |

## Left out

- Rendering, styling and the React state plumbing of the components are not modelled; only the decisions they make are.
- Console logging is left out everywhere. This includes the development-mode configuration dump in `src/services/ai/config.ts` (lines 81-105), which decides nothing.
- `getPolicyDocuments` and `getPolicyDocumentContent` (`src/services/documentService.ts`, lines 87-106) are single queries that return rows unchanged. They have no logic to model.
- `makeRequest` in `src/services/ai/base.ts` (lines 103-136) is not modelled: every provider sends its requests through `proxyRequest` instead.
- The Federal Register query string (`src/api/federalRegister.ts`, lines 5-31) is a constant URL, so it is not modelled.
- The `createClient` options of `src/lib/supabase.ts` (lines 16-30) are not modelled; they are constants passed to a library.
- `performAIAssessment` in `src/services/queueService.ts` (lines 167-178) is a placeholder. The queue model treats its outcome as a step that succeeds or fails.
- The `testAssessment` driver of `src/test_assessment.ts` (lines 6-89) is a script that loops over orders and providers and swallows their errors. Only its aggregation rule is modelled.
- The document-type select and the error-dismiss button of `src/components/DocumentUpload.tsx` are not modelled.
- `src/services/ai/__tests__/deepseek.test.ts` lines 38-42 expect an empty API key to be accepted by `initialize` and then rejected by the vendor. That contradicts the validation in `base.ts`, which the model follows.
- Timers and waits are recorded as numbers of milliseconds or ticks; nothing waits.
- The `Promise.race` timeout of `assessExecutiveOrder` (`src/services/assessmentService.ts`, lines 66-79) is not modelled as a race. A timeout is an error the caller receives, and only its rewriting is modelled.
- `logTokenUsage` is a side effect; the model records only the token count it is given.
- Rating.Confidence: confidences are exact reals, so IEEE double rounding is not modelled. For example, JavaScript computes 0.7 + 0.1 + 0.1 + 0.1 as 0.9999999999999999, where the model gives 1.0.
- Aggregate.FinalAssessment: averages are exact reals, without double rounding.
- Text.ToLower: `toLowerCase` and `toUpperCase` are modelled on ASCII letters only. Other characters are left as they are.
- AssessmentView.HandleTestAI: the outer `catch` (`src/components/AssessmentView.tsx`, lines 115-123) is not modelled. The connection check is a boolean argument that cannot throw.
- OrderSync.FindMatch: in the TypeScript, an order whose `document_number` is literally `null` would match a White House row whose `federal_register_id` is `null`. The model reads a missing number as matching nothing.
- OrderSync.SyncFederal: the first loop's lookup by Federal Register id or number reads the live table, rows this loop wrote earlier included. The model takes the answer to each lookup as the parameter `found` rather than rebuilding that table.
- OrderSync.SyncWhiteHouse: the table is described only by the number of rows holding each White House URL when the second loop starts (the parameter `whRows`), plus the URLs the loop inserts. A failed insert is taken to write nothing, and writers other than this loop are not modelled.
- OrderSync.NoneSkipped: it covers records whose `executive_order_number` is not an array. An array value would be truthy but could stringify to the empty string.
- Queue.QueueAssessment: `new Date(d).getTime()` is the integer parameter `timeOf`, so an unparsable signing date, which gives `NaN`, is not modelled.
- Queue.AtMostTwoRounds: it assumes the row's status writes succeed, as its precondition states.
- Scraper.Scrape: cheerio's CSS selection is abstracted as the list of articles each selector picks out. `new Date(text).toISOString()` is the parameter `isoOf`.
- BaseService.ConfigError: whether `new URL(baseUrl)` parses is the parameter `urlParses`.
- Proxy.ErrorBodyMessage: `JSON.stringify` is the parameter `stringify`.

=== FILE: aggregate.dfy ===
/** The two rules that combine the stored per-provider assessments of an
    order into its final impact assessment: the plain average of
    `calculateFinalAssessment` (`src/services/queueService.ts`) and the
    provider-weighted average of `updateImpactAssessment`
    (`src/test_assessment.ts`). Arithmetic is on exact reals. */
module Aggregate {
  import opened Wrappers
  import opened Rating
  import opened AiTypes

  /** The providers the queue schedules. */
  type QueuedProvider = p: Provider | p != DeepSeek witness Latimer

  /** A row of `ai_assessments`. */
  datatype Stored = Stored(provider: QueuedProvider, rating: Rating, confidence: real)

  /** The final rating and confidence written to `impact_assessments`. */
  datatype Final = Final(rating: Rating, confidence: real)

  /** `ratingScores` / `scores`: positive 1, neutral 0, negative −1. */
  function RatingScore(r: Rating): (s: int)
    ensures -1 <= s <= 1
    ensures s == 1 <==> r == Positive
    ensures s == -1 <==> r == Negative
  {
    match r
    case Positive => 1
    case Neutral => 0
    case Negative => -1
  }

  /** The strict ±0.3 thresholds shared by both rules. */
  function Threshold(avgScore: real): (r: Rating)
    ensures r == Positive <==> avgScore > 0.3
    ensures r == Negative <==> avgScore < -0.3
  {
    if avgScore > 0.3 then Positive
    else if avgScore < -0.3 then Negative
    else Neutral
  }

  /** Exactly ±0.3 is neutral. */
  lemma BoundaryIsNeutral()
    ensures Threshold(0.3) == Neutral && Threshold(-0.3) == Neutral
  {
  }

  /** Σ score·confidence. */
  function ScoreSum(a: seq<Stored>): real {
    if a == [] then 0.0 else ScoreSum(a[..|a| - 1]) + RatingScore(a[|a| - 1].rating) as real * a[|a| - 1].confidence
  }

  /** Σ confidence. */
  function ConfidenceSum(a: seq<Stored>): real {
    if a == [] then 0.0 else ConfidenceSum(a[..|a| - 1]) + a[|a| - 1].confidence
  }

  /** Every confidence lies in [0, 1]. */
  predicate UnitConfidences(a: seq<Stored>) {
    forall i | 0 <= i < |a| :: 0.0 <= a[i].confidence <= 1.0
  }

  /** `calculateFinalAssessment(assessments)`; its one caller has already
      returned on an empty list. */
  function FinalAssessment(a: seq<Stored>): (r: Final)
    requires |a| > 0
    ensures r.confidence * |a| as real == ConfidenceSum(a)
    ensures r.rating == Threshold(ScoreSum(a) / |a| as real)
  {
    Final(Threshold(ScoreSum(a) / |a| as real), ConfidenceSum(a) / |a| as real)
  }

  /** The confidence sum lies between |a|·min and |a|·max. */
  lemma {:induction false} ConfidenceSumBetween(a: seq<Stored>, lo: real, hi: real)
    requires forall i | 0 <= i < |a| :: lo <= a[i].confidence <= hi
    ensures |a| as real * lo <= ConfidenceSum(a) <= |a| as real * hi
    decreases |a|
  {
    if a != [] {
      ConfidenceSumBetween(a[..|a| - 1], lo, hi);
    }
  }

  /** The final confidence is the mean, so it lies between the smallest and
      the largest input confidence. */
  lemma MeanConfidenceBetween(a: seq<Stored>, lo: real, hi: real)
    requires |a| > 0
    requires forall i | 0 <= i < |a| :: lo <= a[i].confidence <= hi
    ensures lo <= FinalAssessment(a).confidence <= hi
  {
    ConfidenceSumBetween(a, lo, hi);
  }

  /** |Σ score·confidence| ≤ Σ confidence for confidences in [0, 1]. */
  lemma {:induction false} ScoreSumBounded(a: seq<Stored>)
    requires UnitConfidences(a)
    ensures -(|a| as real) <= ScoreSum(a) <= |a| as real
    decreases |a|
  {
    if a != [] {
      ScoreSumBounded(a[..|a| - 1]);
    }
  }

  /** When every assessment is positive with confidence above 0.3, the plain
      average is positive. */
  lemma {:induction false} UnanimousPositive(a: seq<Stored>)
    requires |a| > 0
    requires forall i | 0 <= i < |a| :: a[i].rating == Positive && a[i].confidence > 0.3
    ensures FinalAssessment(a).rating == Positive
  {
    UnanimousSum(a);
    MeanAbove(ScoreSum(a), |a| as real, 0.3);
  }

  /** A sum above t·n averages above t. */
  lemma MeanAbove(x: real, n: real, t: real)
    requires n > 0.0 && x > t * n
    ensures x / n > t
  {
    assert x / n - t == (x - t * n) / n;
  }

  lemma {:induction false} UnanimousSum(a: seq<Stored>)
    requires forall i | 0 <= i < |a| :: a[i].rating == Positive && a[i].confidence > 0.3
    ensures ScoreSum(a) >= 0.3 * |a| as real
    ensures |a| > 0 ==> ScoreSum(a) > 0.3 * |a| as real
    decreases |a|
  {
    if a != [] {
      UnanimousSum(a[..|a| - 1]);
    }
  }

  /** The queue's `updateImpactAssessment`: nothing is written for an empty
      list. */
  function QueueImpact(a: seq<Stored>): (r: Option<Final>)
    ensures r.None? <==> a == []
    ensures r.Some? ==> r.value == FinalAssessment(a)
  {
    if a == [] then None else Some(FinalAssessment(a))
  }

  /** `weights`: latimer 0.6, perplexity 0.4. */
  function Weight(p: QueuedProvider): (w: real)
    ensures 0.0 < w < 1.0
  {
    if p == Latimer then 0.6 else 0.4
  }

  /** Σ score·weight·confidence. */
  function WeightedScoreSum(a: seq<Stored>): real {
    if a == [] then 0.0
    else WeightedScoreSum(a[..|a| - 1])
         + RatingScore(a[|a| - 1].rating) as real * Weight(a[|a| - 1].provider) * a[|a| - 1].confidence
  }

  /** Σ weight. */
  function TotalWeight(a: seq<Stored>): (w: real)
    ensures a != [] ==> w > 0.0
    ensures a == [] ==> w == 0.0
  {
    if a == [] then 0.0 else TotalWeight(a[..|a| - 1]) + Weight(a[|a| - 1].provider)
  }

  /** The weighted average score. */
  function WeightedScore(a: seq<Stored>): real
    requires |a| > 0
  {
    WeightedScoreSum(a) / TotalWeight(a)
  }

  /** `updateImpactAssessment` of the test script: weighted score, but the
      unweighted mean confidence; nothing is written for an empty list. */
  function WeightedImpact(a: seq<Stored>): (r: Option<Final>)
    ensures r.None? <==> a == []
    ensures r.Some? ==> r.value.rating == Threshold(WeightedScore(a))
    ensures r.Some? ==> r.value.confidence == FinalAssessment(a).confidence
  {
    if a == [] then None
    else Some(Final(Threshold(WeightedScoreSum(a) / TotalWeight(a)), ConfidenceSum(a) / |a| as real))
  }

  /** |Σ score·weight·confidence| ≤ Σ weight for confidences in [0, 1]. */
  lemma {:induction false} WeightedSumBounded(a: seq<Stored>)
    requires UnitConfidences(a)
    ensures -TotalWeight(a) <= WeightedScoreSum(a) <= TotalWeight(a)
    decreases |a|
  {
    if a != [] {
      var init := a[..|a| - 1];
      var last := a[|a| - 1];
      WeightedSumBounded(init);
      var w := Weight(last.provider);
      var s := RatingScore(last.rating) as real;
      assert -w <= s * w * last.confidence <= w by {
        assert 0.0 <= w * last.confidence <= w;
      }
    }
  }

  /** With confidences in [0, 1] the weighted average score lies in [−1, 1]. */
  lemma WeightedScoreInRange(a: seq<Stored>)
    requires |a| > 0 && UnitConfidences(a)
    ensures -1.0 <= WeightedScore(a) <= 1.0
  {
    WeightedSumBounded(a);
    RatioWithin(WeightedScoreSum(a), TotalWeight(a));
  }

  /** A value between −t and t, divided by t, lies in [−1, 1]. */
  lemma RatioWithin(s: real, t: real)
    requires t > 0.0 && -t <= s <= t
    ensures -1.0 <= s / t <= 1.0
  {
    var q := s / t;
    assert q * t == s;
    assert (1.0 - q) * t >= 0.0;
    assert (1.0 + q) * t >= 0.0;
  }

  /** When every assessment comes from one provider its weight cancels. */
  lemma {:induction false} SingleProviderSums(a: seq<Stored>, p: QueuedProvider)
    requires forall i | 0 <= i < |a| :: a[i].provider == p
    ensures WeightedScoreSum(a) == Weight(p) * ScoreSum(a)
    ensures TotalWeight(a) == Weight(p) * |a| as real
    decreases |a|
  {
    if a != [] {
      SingleProviderSums(a[..|a| - 1], p);
    }
  }

  /** So with a single provider both rules agree on the rating. */
  lemma SingleProviderRulesAgree(a: seq<Stored>, p: QueuedProvider)
    requires |a| > 0
    requires forall i | 0 <= i < |a| :: a[i].provider == p
    ensures WeightedImpact(a) == QueueImpact(a)
  {
    SingleProviderSums(a, p);
    var w := Weight(p);
    var n := |a| as real;
    assert WeightedScoreSum(a) / TotalWeight(a) == (w * ScoreSum(a)) / (w * n);
    assert (w * ScoreSum(a)) / (w * n) == ScoreSum(a) / n;
  }
}

=== FILE: ai_config.dfy ===
/** Provider configuration from environment variables
    (`src/services/ai/config.ts`). */
module AiConfig {
  import opened Wrappers
  import opened Js
  import opened Text
  import opened AiTypes
  import opened BaseService

  /** Where variables are read: in the browser `window.__env` first, then
      `import.meta.env`; under Node, `process.env`. */
  datatype Env =
    | Browser(windowEnv: map<string, string>, metaEnv: map<string, string>)
    | Node(processEnv: map<string, string>)

  /** `getEnvVar(name)`; `None` is `undefined`. In the browser an empty
      `window.__env` value falls through to `import.meta.env` (`||`). */
  function GetEnvVar(env: Env, name: string): (r: Option<string>)
    ensures env.Browser? && name in env.windowEnv && env.windowEnv[name] != "" ==> r == Some(env.windowEnv[name])
    ensures env.Browser? && !(name in env.windowEnv && env.windowEnv[name] != "")
            ==> r == (if name in env.metaEnv then Some(env.metaEnv[name]) else None)
    ensures env.Node? ==> r == (if name in env.processEnv then Some(env.processEnv[name]) else None)
  {
    match env
    case Browser(w, m) =>
      if name in w && w[name] != "" then Some(w[name])
      else if name in m then Some(m[name])
      else None
    case Node(pe) => if name in pe then Some(pe[name]) else None
  }

  const DefaultMaxRetries := 3
  const DefaultTimeout := 30000

  /** `ENV_VARS[P].API_KEY` and `ENV_VARS[P].BASE_URL`. */
  function ApiKeyVar(p: Provider): string { "VITE_" + p.Upper() + "_API_KEY" }
  function BaseUrlVar(p: Provider): string { "VITE_" + p.Upper() + "_BASE_URL" }

  /** The keys of the provider's variables that are unset or empty, in the
      order API_KEY, BASE_URL. */
  function MissingVars(env: Env, p: Provider): (r: seq<string>)
    ensures "API_KEY" in r <==> !StrTruthy(GetEnvVar(env, ApiKeyVar(p)))
    ensures "BASE_URL" in r <==> !StrTruthy(GetEnvVar(env, BaseUrlVar(p)))
    ensures |r| <= 2 && (|r| == 2 ==> r == ["API_KEY", "BASE_URL"])
  {
    (if StrTruthy(GetEnvVar(env, ApiKeyVar(p))) then [] else ["API_KEY"])
    + (if StrTruthy(GetEnvVar(env, BaseUrlVar(p))) then [] else ["BASE_URL"])
  }

  /** `validateEnvVars(P)`: `None` when both variables are set. */
  function ValidateEnvVars(env: Env, p: Provider): (r: Option<string>)
    ensures r == None <==> StrTruthy(GetEnvVar(env, ApiKeyVar(p))) && StrTruthy(GetEnvVar(env, BaseUrlVar(p)))
    ensures r.Some? ==> r.value == "Missing required environment variables for " + p.Upper() + ": "
                                  + Join(MissingVars(env, p), ", ")
  {
    var missing := MissingVars(env, p);
    if |missing| > 0 then Some("Missing required environment variables for " + p.Upper() + ": " + Join(missing, ", "))
    else None
  }

  /** With neither variable set, both are reported, API_KEY first. */
  lemma BothMissingReported(env: Env, p: Provider)
    requires !StrTruthy(GetEnvVar(env, ApiKeyVar(p))) && !StrTruthy(GetEnvVar(env, BaseUrlVar(p)))
    ensures ValidateEnvVars(env, p)
            == Some("Missing required environment variables for " + p.Upper() + ": API_KEY, BASE_URL")
  {
    assert MissingVars(env, p) == ["API_KEY", "BASE_URL"];
    MessageOfBoth("Missing required environment variables for " + p.Upper());
  }

  lemma MessageOfBoth(head: string)
    ensures head + ": " + Join(["API_KEY", "BASE_URL"], ", ") == head + ": API_KEY, BASE_URL"
  {
    assert ["API_KEY", "BASE_URL"][1..] == ["BASE_URL"];
    assert Join(["API_KEY", "BASE_URL"], ", ") == "API_KEY, BASE_URL";
  }

  /** `baseUrl.replace(/\/$/, '')`: one trailing slash removed. */
  function TrimTrailingSlash(url: string): (r: string)
    ensures r == url || r + "/" == url
    ensures |url| > 0 && url[|url| - 1] == '/' ==> r + "/" == url
    ensures |url| == 0 || url[|url| - 1] != '/' ==> r == url
  {
    if |url| > 0 && url[|url| - 1] == '/' then url[..|url| - 1] else url
  }

  /** `getProviderConfig(provider)`. */
  function GetProviderConfig(env: Env, p: Provider): (r: Result<Config>)
    ensures r.Ok? <==> ValidateEnvVars(env, p) == None
    ensures r.Fail? ==> Some(r.error) == ValidateEnvVars(env, p)
    ensures r.Ok? ==> r.value.apiKey == GetEnvVar(env, ApiKeyVar(p)).value && r.value.apiKey != ""
    ensures r.Ok? ==> r.value.baseUrl == TrimTrailingSlash(GetEnvVar(env, BaseUrlVar(p)).value)
    ensures r.Ok? ==> (r.value.baseUrl != "" <==> GetEnvVar(env, BaseUrlVar(p)).value != "/")
    ensures r.Ok? ==> r.value.maxRetries == 3 && r.value.timeout == 30000
    ensures r.Ok? ==> r.value.enableDeepseek == Some(false)
  {
    match ValidateEnvVars(env, p)
    case Some(message) => Fail(message)
    case None =>
      var baseUrl := GetEnvVar(env, BaseUrlVar(p));
      var apiKey := GetEnvVar(env, ApiKeyVar(p));
      if !StrTruthy(apiKey) || !StrTruthy(baseUrl) then Fail("Missing configuration for " + p.Name())
      else Ok(Config(apiKey.value, TrimTrailingSlash(baseUrl.value), DefaultMaxRetries, DefaultTimeout, Some(false)))
  }

  /** The "Missing configuration" check after validation can never fail. */
  lemma SecondCheckUnreachable(env: Env, p: Provider)
    ensures GetProviderConfig(env, p).Fail? ==> GetProviderConfig(env, p) == Fail(ValidateEnvVars(env, p).value)
  {
  }
}

=== FILE: ai_types.dfy ===
/** The provider names shared by the AI services (`AIProvider` in
    `src/services/ai/types.ts`). */
module AiTypes {
  import opened Text

  datatype Provider = Latimer | Perplexity | DeepSeek {

    /** The lower-case name used in URLs and in the application. */
    function Name(): (r: string)
      ensures |r| > 0
    {
      match this
      case Latimer => "latimer"
      case Perplexity => "perplexity"
      case DeepSeek => "deepseek"
    }

    /** The key of the environment-variable table, `provider.toUpperCase()`. */
    function Upper(): (r: string)
      ensures r == ToUpper(Name())
    {
      match this
      case Latimer => "LATIMER"
      case Perplexity => "PERPLEXITY"
      case DeepSeek => "DEEPSEEK"
    }
  }
}

=== FILE: assessment_service.dfy ===
/** `assessExecutiveOrder` and `performAssessment`
    (`src/services/assessmentService.ts`): look up the order and the newest
    policy document of the requested type, get the Perplexity service, and
    ask it for an assessment at most twice.

    The two database queries, the environment and the outcome of each
    `assess` call are parameters. */
module AssessmentService {
  import opened Wrappers
  import opened Js
  import opened Text
  import opened Rating
  import opened AiTypes
  import opened BaseService
  import opened AiConfig
  import opened Factory

  /** A Supabase query: it failed, or it returned `data` (possibly `null`). */
  datatype Query<T> = QueryFailed | Rows(data: Option<T>)

  /** The selected columns of `executive_orders`. */
  datatype OrderRow = OrderRow(title: Value, summary: Value)

  /** The selected column of `policy_documents` that the request uses. */
  datatype PolicyRow = PolicyRow(content: string)

  /** What `assess` is called with (the service ignores `model`). */
  datatype ServiceRequest = ServiceRequest(
    executiveOrderText: string,
    policyDocumentText: string,
    maxTokens: int,
    temperature: real,
    model: string)

  /** What `assess` resolves to: the assessment and `metadata?.usage?.total_tokens`. */
  datatype Reply = Reply(text: string, rating: Rating, confidence: real, totalTokens: Value)

  /** `AssessmentResult`. */
  datatype AssessmentResult = AssessmentResult(text: string, rating: Rating, confidence: real, tokenUsage: Value)

  const RetryAttempts := 2

  /** The request parameters: smaller and cheaper in development. */
  function RequestFor(order: OrderRow, policy: PolicyRow, isDevelopment: bool): (r: ServiceRequest)
    ensures isDevelopment ==> r.maxTokens == 4000 && r.model == "sonar"
    ensures !isDevelopment ==> r.maxTokens == 8000 && r.model == "sonar-pro"
    ensures r.temperature == 0.3 && r.policyDocumentText == policy.content
    ensures r.executiveOrderText == "Title: " + ToString(order.title) + "\n\nSummary: " + ToString(order.summary)
  {
    ServiceRequest(
      "Title: " + ToString(order.title) + "\n\nSummary: " + ToString(order.summary),
      policy.content,
      if isDevelopment then 4000 else 8000,
      0.3,
      if isDevelopment then "sonar" else "sonar-pro")
  }

  /** Everything a call of `performAssessment` shows from outside. */
  datatype Performed = Performed(
    outcome: Attempt<AssessmentResult>,
    progress: seq<int>,      // values passed to `onProgress`, in order
    calls: nat,              // invocations of `assess`
    delays: seq<nat>,        // waits between them
    logged: Option<Value>,   // token count passed to `logTokenUsage`
    cache: Cache)            // the service cache afterwards

  /** The retry loop: `assess` at most `RetryAttempts` times, stopping at the
      first success; `attempts` calls have already failed with `lastError`. */
  function AssessLoop(req: ServiceRequest, assess: (ServiceRequest, nat) -> Attempt<Reply>, attempts: nat,
                      lastError: Thrown): (r: (Attempt<Reply>, nat, seq<nat>))
    requires attempts <= RetryAttempts
    ensures attempts + r.1 <= RetryAttempts
    ensures r.0.Done? ==> r.1 >= 1 && r.0 == assess(req, attempts + r.1 - 1)
    ensures forall i | attempts <= i < attempts + r.1 - (if r.0.Done? then 1 else 0) :: assess(req, i).Threw?
    ensures r.0.Threw? ==> attempts + r.1 == RetryAttempts
    ensures |r.2| == (if r.0.Done? then r.1 - 1 else if r.1 > 0 then r.1 - 1 else 0)
    ensures forall i | 0 <= i < |r.2| :: r.2[i] == 1000 * (attempts + i + 1)
    decreases RetryAttempts - attempts
  {
    if attempts >= RetryAttempts then (Threw(lastError), 0, [])
    else match assess(req, attempts)
      case Done(reply) => (Done(reply), 1, [])
      case Threw(e) =>
        var err := if e.IsError() then e else Error("Assessment failed");
        var rest := AssessLoop(req, assess, attempts + 1, err);
        var pause := if attempts + 1 < RetryAttempts then [1000 * (attempts + 1)] else [];
        (rest.0, rest.1 + 1, pause + rest.2)
  }

  /** After two failures the error thrown is the second call's. */
  lemma TwoFailuresThrowLast(req: ServiceRequest, assess: (ServiceRequest, nat) -> Attempt<Reply>, lastError: Thrown)
    requires assess(req, 0).Threw? && assess(req, 1).Threw? && assess(req, 1).error.IsError()
    ensures AssessLoop(req, assess, 0, lastError).0 == Threw(assess(req, 1).error)
    ensures AssessLoop(req, assess, 0, lastError).2 == [1000]
  {
  }

  /** The part of `performAssessment` once the service is in hand: ask it
      at most twice, log the token count of a reply that carries one, and
      report progress 50, then 100 on success. */
  function AskService(req: ServiceRequest, cache: Cache, assess: (ServiceRequest, nat) -> Attempt<Reply>): (r: Performed)
    ensures r.cache == cache
    ensures 1 <= r.calls <= RetryAttempts
    ensures r.progress == (if r.outcome.Done? then [10, 30, 50, 100] else [10, 30, 50])
    ensures r.outcome.Done? <==> assess(req, 0).Done? || assess(req, 1).Done?
    ensures r.outcome.Done? ==>
              var reply := assess(req, r.calls - 1);
              && reply.Done?
              && r.outcome.value == AssessmentResult(reply.value.text, reply.value.rating, reply.value.confidence,
                                                     OrElse(reply.value.totalTokens, Num(0)))
    ensures r.logged.Some? ==> (r.outcome.Done? && Truthy(r.logged.value)
              && r.logged.value == r.outcome.value.tokenUsage)
    ensures r.outcome.Done? && Truthy(assess(req, r.calls - 1).value.totalTokens)
            ==> r.logged == Some(assess(req, r.calls - 1).value.totalTokens)
    ensures r.outcome.Done? ==> r.delays == (if r.calls == 2 then [1000] else [])
    ensures forall i | 0 <= i < r.calls - (if r.outcome.Done? then 1 else 0) :: assess(req, i).Threw?
    ensures r.outcome.Threw? ==>
              && r.calls == RetryAttempts && r.delays == [1000]
              && r.outcome.error == (if assess(req, 1).error.IsError() then assess(req, 1).error else Error("Assessment failed"))
  {
    var loop := AssessLoop(req, assess, 0, Error("Assessment failed after retries"));
    match loop.0
    case Threw(e) => Performed(Threw(e), [10, 30, 50], loop.1, loop.2, None, cache)
    case Done(reply) =>
      var usage := OrElse(reply.totalTokens, Num(0));
      var logged := if Truthy(reply.totalTokens) then Some(reply.totalTokens) else None;
      Performed(Done(AssessmentResult(reply.text, reply.rating, reply.confidence, usage)),
                [10, 30, 50, 100], loop.1, loop.2, logged, cache)
  }

  /** The part of `performAssessment` after both lookups: get the Perplexity
      service and run the retry loop on `req`. */
  function AssessWith(req: ServiceRequest, env: Env, cache: Cache, urlParses: string -> bool,
                      assess: (ServiceRequest, nat) -> Attempt<Reply>): (r: Performed)
    requires WellFormed(cache)
    ensures WellFormed(r.cache)
    ensures r.calls <= RetryAttempts
    ensures r.progress in {[10, 30], [10, 30, 50], [10, 30, 50, 100]}
    ensures r.outcome.Done? <==> r.progress == [10, 30, 50, 100]
    ensures r.calls > 0 <==> 50 in r.progress
    ensures r.outcome.Done? ==> (r.calls >= 1 && assess(req, r.calls - 1).Done?
              && r.outcome.value.tokenUsage == OrElse(assess(req, r.calls - 1).value.totalTokens, Num(0))
              && r.outcome.value.text == assess(req, r.calls - 1).value.text
              && r.outcome.value.rating == assess(req, r.calls - 1).value.rating
              && r.outcome.value.confidence == assess(req, r.calls - 1).value.confidence)
    ensures r.logged.Some? ==> (r.outcome.Done? && Truthy(r.logged.value)
              && r.logged.value == r.outcome.value.tokenUsage)
    ensures r.outcome.Done? && Truthy(assess(req, r.calls - 1).value.totalTokens)
            ==> r.logged == Some(assess(req, r.calls - 1).value.totalTokens)
    ensures r.outcome.Done? ==> r.delays == (if r.calls == 2 then [1000] else [])
    ensures forall i | 0 <= i < r.calls - (if r.outcome.Done? then 1 else 0) :: assess(req, i).Threw?
    ensures r.outcome.Threw? && r.calls > 0 ==> r.calls == RetryAttempts && r.delays == [1000]
    ensures GetProviderConfig(env, Perplexity).Fail? ==>
              r == Performed(Threw(Error(GetProviderConfig(env, Perplexity).error)), [10, 30], 0, [], None, cache)
    ensures GetProviderConfig(env, Perplexity).Ok? ==>
              var lookup := GetAIService(cache, Perplexity, GetProviderConfig(env, Perplexity).value, urlParses);
              && (lookup.result.Fail? ==>
                    r == Performed(Threw(Error(lookup.result.error)), [10, 30], 0, [], None, lookup.cache))
              && (lookup.result.Ok? ==> r == AskService(req, lookup.cache, assess))
  {
    match GetProviderConfig(env, Perplexity)
    case Fail(message) => Performed(Threw(Error(message)), [10, 30], 0, [], None, cache)
    case Ok(config) =>
      var lookup := GetAIService(cache, Perplexity, config, urlParses);
      if lookup.result.Fail? then Performed(Threw(Error(lookup.result.error)), [10, 30], 0, [], None, lookup.cache)
      else AskService(req, lookup.cache, assess)
  }

  /** The checks and lookups of `performAssessment` before the service is
      asked: the request to send, or the error thrown. */
  function Prepare(orderId: string, policyType: string, isDevelopment: bool,
                   orderQuery: Query<OrderRow>, policyQuery: Query<seq<PolicyRow>>): (r: Result<ServiceRequest>)
    ensures orderId == "" ==> r == Fail("Order ID is required")
    ensures orderId != "" && policyType == "" ==> r == Fail("Policy type is required")
    ensures orderId != "" && policyType != "" && orderQuery.QueryFailed?
            ==> r == Fail("Failed to fetch executive order")
    ensures orderId != "" && policyType != "" && orderQuery == Rows(None)
            ==> r == Fail("Executive order not found")
    ensures (orderId != "" && policyType != "" && orderQuery.Rows? && orderQuery.data.Some?
             && policyQuery.QueryFailed?)
            ==> r == Fail("Failed to fetch policy document")
    ensures (orderId != "" && policyType != "" && orderQuery.Rows? && orderQuery.data.Some?
             && policyQuery.Rows? && (policyQuery.data.None? || policyQuery.data.value == []))
            ==> r == Fail("No policy document found for type: " + policyType)
    ensures r.Ok? <==> (orderId != "" && policyType != "" && orderQuery.Rows? && orderQuery.data.Some?
                        && policyQuery.Rows? && policyQuery.data.Some? && |policyQuery.data.value| > 0)
    ensures r.Ok? ==> r.value == RequestFor(orderQuery.data.value, policyQuery.data.value[0], isDevelopment)
  {
    if orderId == "" then Fail("Order ID is required")
    else if policyType == "" then Fail("Policy type is required")
    else match orderQuery
      case QueryFailed => Fail("Failed to fetch executive order")
      case Rows(None) => Fail("Executive order not found")
      case Rows(Some(order)) =>
        match policyQuery
        case QueryFailed => Fail("Failed to fetch policy document")
        case Rows(policies) =>
          if policies.None? || policies.value == [] then Fail("No policy document found for type: " + policyType)
          else Ok(RequestFor(order, policies.value[0], isDevelopment))
  }

  /** `performAssessment(orderId, policyType, isDevelopment, progress)`:
      progress reaches 10 once the arguments are accepted. */
  function PerformAssessment(orderId: string, policyType: string, isDevelopment: bool,
                             orderQuery: Query<OrderRow>, policyQuery: Query<seq<PolicyRow>>,
                             env: Env, cache: Cache, urlParses: string -> bool,
                             assess: (ServiceRequest, nat) -> Attempt<Reply>): (r: Performed)
    requires WellFormed(cache)
    ensures WellFormed(r.cache)
    ensures Prepare(orderId, policyType, isDevelopment, orderQuery, policyQuery).Fail? ==>
              && r.outcome == Threw(Error(Prepare(orderId, policyType, isDevelopment, orderQuery, policyQuery).error))
              && r.calls == 0 && r.cache == cache
              && r.progress == (if orderId == "" || policyType == "" then [] else [10])
    ensures r.calls <= RetryAttempts
    ensures r.outcome.Done? <==> r.progress == [10, 30, 50, 100]
    ensures r.calls > 0 ==> Prepare(orderId, policyType, isDevelopment, orderQuery, policyQuery).Ok?
    ensures r.outcome.Done? ==>
              (var req := Prepare(orderId, policyType, isDevelopment, orderQuery, policyQuery);
               req.Ok? && r.calls > 0 && assess(req.value, r.calls - 1).Done?
               && r.outcome.value.tokenUsage == OrElse(assess(req.value, r.calls - 1).value.totalTokens, Num(0)))
    ensures Prepare(orderId, policyType, isDevelopment, orderQuery, policyQuery).Ok? ==>
              r == AssessWith(Prepare(orderId, policyType, isDevelopment, orderQuery, policyQuery).value,
                              env, cache, urlParses, assess)
  {
    var prepared := Prepare(orderId, policyType, isDevelopment, orderQuery, policyQuery);
    if prepared.Fail? then
      var progress := if orderId == "" || policyType == "" then [] else [10];
      Performed(Threw(Error(prepared.error)), progress, 0, [], None, cache)
    else
      AssessWith(prepared.value, env, cache, urlParses, assess)
  }

  /** `assessExecutiveOrder`'s `catch`: a timeout is reported in friendlier
      words, other `Error`s pass through, anything else becomes a generic error. */
  function AssessError(e: Thrown): (r: Thrown)
    ensures e.IsError() && Contains(e.message, "timed out")
            ==> r == Error("The assessment is taking longer than expected. Please try again.")
    ensures e.IsError() && !Contains(e.message, "timed out") ==> r == e
    ensures !e.IsError() ==> r == Error("Assessment failed unexpectedly")
  {
    if !e.IsError() then Error("Assessment failed unexpectedly")
    else if Contains(e.message, "timed out") then Error("The assessment is taking longer than expected. Please try again.")
    else e
  }

  /** The timeout's own message is the one rewritten. */
  lemma TimeoutRewritten()
    ensures AssessError(Error("Assessment timed out. Please try again."))
            == Error("The assessment is taking longer than expected. Please try again.")
  {
    var m := "Assessment " + "timed out" + ". Please try again.";
    assert m == "Assessment timed out. Please try again.";
    assert m[11..20] == "timed out";
    ContainsAt(m, "timed out", 11);
  }
}

=== FILE: assessment_view.dfy ===
/** The "Test AI" button of `AssessmentView` (`handleTestAI` in
    `src/components/AssessmentView.tsx`): a health check, then the providers
    tested one after another, stopping at the first real failure.

    How the health check and each provider's test end are parameters; the
    clock reading is `now`. */
module AssessmentView {
  import opened Wrappers
  import opened Js
  import opened Text
  import opened AiTypes
  import opened ProviderTest

  /** The component state the handler reads and writes. */
  datatype ViewState = ViewState(
    testing: bool,
    results: map<Provider, TestResult>,
    needsRefresh: bool,
    lastSuccessfulTest: Option<int>)

  /** The fixed testing order. */
  const Order := [Latimer, Perplexity, DeepSeek]

  /** What the loop leaves behind: the results shown, the providers tried in
      order, whether a failure was marked, whether a refresh is needed, and
      the pauses taken between providers. */
  datatype LoopEnd = LoopEnd(
    results: map<Provider, TestResult>,
    tried: seq<Provider>,
    hasError: bool,
    refresh: bool,
    pauses: nat)

  /** A failed result that the loop does not count as an error: DeepSeek
      reporting that it is disabled. */
  predicate ExcusedFailure(p: Provider, r: TestResult) {
    r.Failed? && p == DeepSeek && Contains(r.message, "disabled")
  }

  /** A thrown error that ends the loop and asks for a refresh. */
  predicate Fatal(e: Thrown) {
    var m := e.MessageOr("Test failed unexpectedly");
    Contains(m, "Server connection lost") || Contains(m, "Server returned HTML")
  }

  /** An outcome the loop carries on after: a pass, an excused failure, or
      a thrown error that is not fatal. */
  predicate Benign(p: Provider, o: Attempt<TestResult>) {
    match o
    case Done(result) => result.Passed? || ExcusedFailure(p, result)
    case Threw(e) => !Fatal(e)
  }

  /** The position of the first provider whose outcome is not benign, or
      `|ps|` when there is none. */
  function FirstFailure(ps: seq<Provider>, outcomes: Provider -> Attempt<TestResult>): (k: nat)
    ensures k <= |ps|
    ensures forall i | 0 <= i < k :: Benign(ps[i], outcomes(ps[i]))
    ensures k < |ps| ==> !Benign(ps[k], outcomes(ps[k]))
  {
    if ps == [] then 0
    else if !Benign(ps[0], outcomes(ps[0])) then 0
    else 1 + FirstFailure(ps[1..], outcomes)
  }

  /** The `for` loop over `ps`, with the results shown so far. */
  function TestLoop(ps: seq<Provider>, shown: map<Provider, TestResult>,
                    outcomes: Provider -> Attempt<TestResult>): (r: LoopEnd)
    ensures r.tried <= ps && (|r.tried| < |ps| ==> r.hasError)
    ensures r.refresh ==> r.hasError
    ensures !r.hasError <==> forall i | 0 <= i < |ps| :: Benign(ps[i], outcomes(ps[i]))
    decreases |ps|
  {
    if ps == [] then LoopEnd(shown, [], false, false, 0)
    else
      var p := ps[0];
      match outcomes(p)
      case Done(result) =>
        var shown' := shown[p := result];
        if result.Failed? && !ExcusedFailure(p, result) then LoopEnd(shown', [p], true, false, 0)
        else
          var rest := TestLoop(ps[1..], shown', outcomes);
          var pause := if result.Passed? && p != DeepSeek then 1 else 0;
          LoopEnd(rest.results, [p] + rest.tried, rest.hasError, rest.refresh, rest.pauses + pause)
      case Threw(e) =>
        if Fatal(e) then LoopEnd(shown, [p], true, true, 0)
        else
          var rest := TestLoop(ps[1..], shown, outcomes);
          LoopEnd(rest.results, [p] + rest.tried, rest.hasError, rest.refresh, rest.pauses)
  }

  /** The loop stops at the first outcome that is not benign, having tried
      that provider last; a refresh is asked for exactly when that outcome
      was a thrown error. */
  lemma {:induction false} StopsAtFirstFailure(ps: seq<Provider>, shown: map<Provider, TestResult>,
                                               outcomes: Provider -> Attempt<TestResult>)
    ensures var r := TestLoop(ps, shown, outcomes);
            var k := FirstFailure(ps, outcomes);
      && |r.tried| == (if k < |ps| then k + 1 else |ps|)
      && (r.hasError <==> k < |ps|)
      && (r.refresh <==> k < |ps| && outcomes(ps[k]).Threw?)
    decreases |ps|
  {
    if ps != [] {
      var p := ps[0];
      match outcomes(p)
      case Done(result) =>
        if !(result.Failed? && !ExcusedFailure(p, result)) {
          StopsAtFirstFailure(ps[1..], shown[p := result], outcomes);
        }
      case Threw(e) =>
        if !Fatal(e) {
          StopsAtFirstFailure(ps[1..], shown, outcomes);
        }
    }
  }

  /** The results shown after the loop: what was shown before, overwritten
      by the returned result of every provider tried. */
  lemma {:induction false} ShownResults(ps: seq<Provider>, shown: map<Provider, TestResult>,
                                        outcomes: Provider -> Attempt<TestResult>)
    ensures var r := TestLoop(ps, shown, outcomes);
      && shown.Keys <= r.results.Keys
      && (forall p | p in r.results ::
            || (p in shown && r.results[p] == shown[p])
            || (p in r.tried && outcomes(p).Done? && r.results[p] == outcomes(p).value))
      && (forall p | p in r.tried && outcomes(p).Done? :: p in r.results && r.results[p] == outcomes(p).value)
    decreases |ps|
  {
    if ps != [] {
      var p := ps[0];
      match outcomes(p)
      case Done(result) =>
        if !(result.Failed? && !ExcusedFailure(p, result)) {
          ShownResults(ps[1..], shown[p := result], outcomes);
        }
      case Threw(e) =>
        if !Fatal(e) {
          ShownResults(ps[1..], shown, outcomes);
        }
    }
  }

  /** `handleTestAI`. */
  function HandleTestAI(s: ViewState, connected: bool, outcomes: Provider -> Attempt<TestResult>, now: int): (r: ViewState)
    ensures s.testing ==> r == s
    ensures !s.testing && !connected
            ==> r == ViewState(false, map[Latimer := Failed(ConnectionLost)], true, s.lastSuccessfulTest)
    ensures !s.testing ==> !r.testing
    ensures !s.testing && connected && !TestLoop(Order, map[], outcomes).hasError
            ==> r.lastSuccessfulTest == Some(now) && !r.needsRefresh
    ensures !s.testing && connected && TestLoop(Order, map[], outcomes).hasError
            ==> r.lastSuccessfulTest == s.lastSuccessfulTest
                && r.needsRefresh == (s.needsRefresh || TestLoop(Order, map[], outcomes).refresh)
    ensures !s.testing && connected ==> forall p | p in r.results :: outcomes(p).Done? && r.results[p] == outcomes(p).value
    ensures !s.testing && connected ==> forall p | p in TestLoop(Order, map[], outcomes).tried && outcomes(p).Done? ::
              p in r.results && r.results[p] == outcomes(p).value
  {
    if s.testing then s
    else if !connected then ViewState(false, map[Latimer := Failed(ConnectionLost)], true, s.lastSuccessfulTest)
    else
      var loop := TestLoop(Order, map[], outcomes);
      ShownResults(Order, map[], outcomes);
      if !loop.hasError then ViewState(false, loop.results, false, Some(now))
      else ViewState(false, loop.results, s.needsRefresh || loop.refresh, s.lastSuccessfulTest)
  }

  /** The time of the last successful test is recorded exactly when every
      provider passed, was excused, or threw a non-fatal error. */
  lemma SuccessRecordedIffNoFailure(s: ViewState, outcomes: Provider -> Attempt<TestResult>, now: int)
    requires !s.testing && s.lastSuccessfulTest != Some(now)
    ensures HandleTestAI(s, true, outcomes, now).lastSuccessfulTest == Some(now)
            <==> forall i | 0 <= i < |Order| :: Benign(Order[i], outcomes(Order[i]))
  {
  }

  /** A disabled DeepSeek does not spoil a run in which the other two pass. */
  lemma DisabledDeepSeekIsNoFailure(s: ViewState, a1: TestResult, a2: TestResult, message: string, now: int)
    requires !s.testing && a1.Passed? && a2.Passed? && Contains(message, "disabled")
    ensures var outcomes := (p: Provider) =>
        if p == Latimer then Done(a1) else if p == Perplexity then Done(a2) else Done(Failed(message));
      HandleTestAI(s, true, outcomes, now).lastSuccessfulTest == Some(now)
  {
    var outcomes := (p: Provider) =>
      if p == Latimer then Done(a1) else if p == Perplexity then Done(a2) else Done(Failed(message));
    assert Order[1..][1..] == [DeepSeek];
  }
}

=== FILE: base64.dfy ===
/** Base64 as the document service uses it (`src/services/documentService.ts`):
    the encoding of section 4 of RFC 4648 (the `FileReader` data URL), the
    forgiving decoder behind `atob`, `cleanBase64String`, `isValidBase64`
    and the `data:` URL prefix strip of RFC 2397. */
module Base64 {
  import opened Wrappers
  import opened Text

  type byte = x: int | 0 <= x < 256
  type sextet = x: int | 0 <= x < 64

  // ---------------------------------------------------------------------
  // The alphabet (RFC 4648, section 4, table 1)

  predicate IsAlphabet(c: char) {
    ('A' <= c <= 'Z') || ('a' <= c <= 'z') || ('0' <= c <= '9') || c == '+' || c == '/'
  }

  predicate AllAlphabet(s: string) {
    forall i | 0 <= i < |s| :: IsAlphabet(s[i])
  }

  /** The character encoding the 6-bit value `v`. */
  function CharOf(v: sextet): (c: char)
    ensures IsAlphabet(c)
  {
    if v < 26 then ('A' as int + v) as char
    else if v < 52 then ('a' as int + (v - 26)) as char
    else if v < 62 then ('0' as int + (v - 52)) as char
    else if v == 62 then '+'
    else '/'
  }

  /** The 6-bit value an alphabet character encodes; inverse of `CharOf`. */
  function ValueOf(c: char): (v: sextet)
    requires IsAlphabet(c)
    ensures CharOf(v) == c
  {
    if 'A' <= c <= 'Z' then c as int - 'A' as int
    else if 'a' <= c <= 'z' then c as int - 'a' as int + 26
    else if '0' <= c <= '9' then c as int - '0' as int + 52
    else if c == '+' then 62
    else 63
  }

  lemma ValueOfCharOf(v: sextet)
    ensures ValueOf(CharOf(v)) == v
  {
  }

  // ---------------------------------------------------------------------
  // Encoding

  /** Three bytes as four characters. */
  function EncodeGroup(a: byte, b: byte, c: byte): (r: string)
    ensures |r| == 4 && AllAlphabet(r)
  {
    [CharOf(a / 4), CharOf((a % 4) * 16 + b / 16), CharOf((b % 16) * 4 + c / 64), CharOf(c % 64)]
  }

  /** The encoding without its padding: 4 characters per full group, then
      2 characters for one remaining byte or 3 for two. */
  function Unpadded(bs: seq<byte>): (r: string)
    ensures AllAlphabet(r)
    ensures |r| == (|bs| / 3) * 4 + (if |bs| % 3 == 0 then 0 else |bs| % 3 + 1)
    decreases |bs|
  {
    if |bs| >= 3 then EncodeGroup(bs[0], bs[1], bs[2]) + Unpadded(bs[3..])
    else if |bs| == 2 then [CharOf(bs[0] / 4), CharOf((bs[0] % 4) * 16 + bs[1] / 16), CharOf((bs[1] % 16) * 4)]
    else if |bs| == 1 then [CharOf(bs[0] / 4), CharOf((bs[0] % 4) * 16)]
    else ""
  }

  /** The '=' characters that complete the last group. */
  function Padding(n: nat): (r: string)
    ensures |r| <= 2 && forall i | 0 <= i < |r| :: r[i] == '='
  {
    if n % 3 == 1 then "==" else if n % 3 == 2 then "=" else ""
  }

  /** RFC 4648 base64 with padding. */
  function Encode(bs: seq<byte>): (r: string)
    ensures |r| % 4 == 0
    ensures |r| == 0 <==> |bs| == 0
  {
    Unpadded(bs) + Padding(|bs|)
  }

  // ---------------------------------------------------------------------
  // Decoding (the forgiving decoder of `atob`)

  function DecodeGroup(s: string): (r: seq<byte>)
    requires |s| == 4 && AllAlphabet(s)
    ensures |r| == 3
  {
    var v0, v1, v2, v3 := ValueOf(s[0]), ValueOf(s[1]), ValueOf(s[2]), ValueOf(s[3]);
    [v0 * 4 + v1 / 16, (v1 % 16) * 16 + v2 / 4, (v2 % 4) * 64 + v3]
  }

  /** Alphabet characters to bytes: 3 bytes per 4 characters, then 1 byte
      for 2 characters or 2 for 3; the left-over bits are dropped. */
  function DecodeChars(s: string): (r: seq<byte>)
    requires AllAlphabet(s) && |s| % 4 != 1
    ensures |r| == (|s| * 6) / 8
    decreases |s|
  {
    if |s| >= 4 then DecodeGroup(s[..4]) + DecodeChars(s[4..])
    else if |s| == 3 then
      var v0, v1, v2 := ValueOf(s[0]), ValueOf(s[1]), ValueOf(s[2]);
      [v0 * 4 + v1 / 16, (v1 % 16) * 16 + v2 / 4]
    else if |s| == 2 then [ValueOf(s[0]) * 4 + ValueOf(s[1]) / 16]
    else []
  }

  /** The ASCII white space `atob` skips. */
  predicate IsAsciiSpace(c: char) {
    c == '\t' || c == '\n' || c == '\U{000C}' || c == '\r' || c == ' '
  }

  predicate NotAsciiSpace(c: char) {
    !IsAsciiSpace(c)
  }

  predicate NotSpace(c: char) {
    !IsSpace(c)
  }

  /** The characters of `s` that satisfy `keep`, in order. */
  function KeepIf(s: string, keep: char -> bool): (r: string)
    ensures |r| <= |s|
    ensures forall i | 0 <= i < |r| :: keep(r[i])
    ensures (forall i | 0 <= i < |s| :: keep(s[i])) ==> r == s
  {
    if s == [] then [] else (if keep(s[0]) then [s[0]] else []) + KeepIf(s[1..], keep)
  }

  /** `s` without one or two trailing '=' when its length is a multiple of 4. */
  function StripPadding(s: string): (r: string)
    ensures |r| <= |s| && r == s[..|r|]
  {
    if |s| % 4 == 0 && |s| >= 2 && s[|s| - 2..] == "==" then s[..|s| - 2]
    else if |s| % 4 == 0 && |s| >= 1 && s[|s| - 1] == '=' then s[..|s| - 1]
    else s
  }

  /** `atob(s)` as bytes; `None` where it throws. */
  function Atob(s: string): (r: Option<seq<byte>>)
    ensures r.Some? ==> |r.value| == (|StripPadding(KeepIf(s, NotAsciiSpace))| * 6) / 8
  {
    var data := StripPadding(KeepIf(s, NotAsciiSpace));
    if |data| % 4 == 1 || !AllAlphabet(data) then None
    else Some(DecodeChars(data))
  }

  /** `(16x + y) / 16 == x` and `(16x + y) % 16 == y` for `0 <= y < 16`. */
  lemma DivMod16(x: int, y: int)
    requires 0 <= y < 16
    ensures (x * 16 + y) / 16 == x && (x * 16 + y) % 16 == y
  {
  }

  /** `(4x + y) / 4 == x` and `(4x + y) % 4 == y` for `0 <= y < 4`. */
  lemma DivMod4(x: int, y: int)
    requires 0 <= y < 4
    ensures (x * 4 + y) / 4 == x && (x * 4 + y) % 4 == y
  {
  }

  /** The bit arithmetic of one group: the four 6-bit values recombine into
      the three bytes. */
  lemma GroupArith(a: byte, b: byte, c: byte)
    ensures a / 4 * 4 + ((a % 4) * 16 + b / 16) / 16 == a
    ensures ((a % 4) * 16 + b / 16) % 16 * 16 + ((b % 16) * 4 + c / 64) / 4 == b
    ensures ((b % 16) * 4 + c / 64) % 4 * 64 + c % 64 == c
  {
    DivMod16(a % 4, b / 16);
    DivMod4(b % 16, c / 64);
  }

  lemma GroupRoundTrip(a: byte, b: byte, c: byte)
    ensures DecodeGroup(EncodeGroup(a, b, c)) == [a, b, c]
  {
    var v0, v1, v2, v3 := a / 4, (a % 4) * 16 + b / 16, (b % 16) * 4 + c / 64, c % 64;
    var g := EncodeGroup(a, b, c);
    assert g == [CharOf(v0), CharOf(v1), CharOf(v2), CharOf(v3)];
    ValueOfCharOf(v0);
    ValueOfCharOf(v1);
    ValueOfCharOf(v2);
    ValueOfCharOf(v3);
    GroupArith(a, b, c);
  }

  lemma TwoByteTail(a: byte, b: byte)
    ensures DecodeChars(Unpadded([a, b])) == [a, b]
  {
    var v0, v1, v2 := a / 4, (a % 4) * 16 + b / 16, (b % 16) * 4;
    var u := Unpadded([a, b]);
    assert u == [CharOf(v0), CharOf(v1), CharOf(v2)];
    ValueOfCharOf(v0);
    ValueOfCharOf(v1);
    ValueOfCharOf(v2);
    GroupArith(a, b, 0);
    assert DecodeChars(u) == [ValueOf(u[0]) * 4 + ValueOf(u[1]) / 16, (ValueOf(u[1]) % 16) * 16 + ValueOf(u[2]) / 4];
  }

  lemma OneByteTail(a: byte)
    ensures DecodeChars(Unpadded([a])) == [a]
  {
    var u := Unpadded([a]);
    assert u == [CharOf(a / 4), CharOf((a % 4) * 16)];
    ValueOfCharOf(a / 4);
    ValueOfCharOf((a % 4) * 16);
    GroupArith(a, 0, 0);
    assert DecodeChars(u) == [ValueOf(u[0]) * 4 + ValueOf(u[1]) / 16];
  }

  /** Decoding peels off one leading group. */
  lemma DecodeCons(g: string, rest: string)
    requires |g| == 4 && AllAlphabet(g) && AllAlphabet(rest) && |rest| % 4 != 1
    ensures AllAlphabet(g + rest) && |g + rest| % 4 != 1
    ensures DecodeChars(g + rest) == DecodeGroup(g) + DecodeChars(rest)
  {
    assert (g + rest)[..4] == g;
    assert (g + rest)[4..] == rest;
  }

  /** Encoding emits one group ahead of the rest. */
  lemma UnpaddedCons(bs: seq<byte>)
    requires |bs| >= 3
    ensures Unpadded(bs) == EncodeGroup(bs[0], bs[1], bs[2]) + Unpadded(bs[3..])
  {
  }

  lemma {:induction false} UnpaddedRoundTrip(bs: seq<byte>)
    ensures |Unpadded(bs)| % 4 != 1
    ensures DecodeChars(Unpadded(bs)) == bs
    decreases |bs|
  {
    if |bs| >= 3 {
      UnpaddedRoundTrip(bs[3..]);
      GroupStep(bs);
    } else if |bs| == 2 {
      assert bs == [bs[0], bs[1]];
      TwoByteTail(bs[0], bs[1]);
    } else if |bs| == 1 {
      assert bs == [bs[0]];
      OneByteTail(bs[0]);
    }
  }

  lemma GroupOfThree(t: seq<byte>)
    requires |t| == 3
    ensures DecodeGroup(EncodeGroup(t[0], t[1], t[2])) == t
  {
    GroupRoundTrip(t[0], t[1], t[2]);
    assert t == [t[0], t[1], t[2]];
  }

  /** One group more: if the bytes after the first three round-trip, so do
      all of them. */
  lemma GroupStep(bs: seq<byte>)
    requires |bs| >= 3
    requires |Unpadded(bs[3..])| % 4 != 1 && DecodeChars(Unpadded(bs[3..])) == bs[3..]
    ensures |Unpadded(bs)| % 4 != 1 && DecodeChars(Unpadded(bs)) == bs
  {
    var g := EncodeGroup(bs[0], bs[1], bs[2]);
    var rest := Unpadded(bs[3..]);
    assert Unpadded(bs) == g + rest by { UnpaddedCons(bs); }
    assert DecodeChars(g + rest) == DecodeGroup(g) + DecodeChars(rest) && |g + rest| % 4 != 1 by {
      DecodeCons(g, rest);
    }
    GroupOfThree(bs[..3]);
    assert bs == bs[..3] + bs[3..];
  }

  /** An encoding is its unpadded part followed by at most two '='. */
  lemma EncodingChars(bs: seq<byte>)
    ensures var e := Encode(bs);
      forall i | 0 <= i < |e| :: IsAlphabet(e[i]) || e[i] == '='
  {
    var e := Encode(bs);
    var u := Unpadded(bs);
    forall i | 0 <= i < |e| ensures IsAlphabet(e[i]) || e[i] == '=' {
      if i < |u| { assert e[i] == u[i]; } else { assert e[i] == Padding(|bs|)[i - |u|]; }
    }
  }

  /** `atob`'s padding strip removes exactly the padding of an encoding. */
  lemma StripEncoding(bs: seq<byte>)
    ensures StripPadding(Encode(bs)) == Unpadded(bs)
  {
    var u := Unpadded(bs);
    var e := Encode(bs);
    if |bs| % 3 == 1 {
      assert e == u + "==";
      assert e[|e| - 2..] == "==";
    } else if |bs| % 3 == 2 {
      assert e == u + "=";
      assert e[|e| - 1] == '=';
      assert e[|e| - 2] == u[|u| - 1];
      assert !(e[|e| - 2..] == "==") by { assert e[|e| - 2..][0] == e[|e| - 2]; }
    } else {
      assert e == u;
      if |u| > 0 { assert e[|e| - 1] == u[|u| - 1]; }
    }
  }

  /** Decoding an encoding gives back the bytes (RFC 4648, section 4). */
  lemma RoundTrip(bs: seq<byte>)
    ensures Atob(Encode(bs)) == Some(bs)
  {
    var e := Encode(bs);
    EncodingChars(bs);
    assert KeepIf(e, NotAsciiSpace) == e;
    StripEncoding(bs);
    UnpaddedRoundTrip(bs);
  }

  // ---------------------------------------------------------------------
  // cleanBase64String

  /** `\w`, '+', '/', '=': what `/[^\w+/=]/g` keeps. */
  predicate IsKept(c: char) {
    ('A' <= c <= 'Z') || ('a' <= c <= 'z') || ('0' <= c <= '9') || c == '_' || c == '+' || c == '/' || c == '='
  }

  /** `cleanBase64String(str)`: white space removed, then every character
      outside `[A-Za-z0-9_+/=]` removed; the last `replace` puts back what it
      matched. */
  function Clean(s: string): (r: string)
    ensures forall i | 0 <= i < |r| :: IsKept(r[i])
  {
    KeepIf(KeepIf(s, NotSpace), IsKept)
  }

  lemma {:induction false} KeepIfCompose(s: string)
    ensures KeepIf(KeepIf(s, NotSpace), IsKept) == KeepIf(s, IsKept)
    decreases |s|
  {
    if s != [] {
      KeepIfCompose(s[1..]);
      var t1 := KeepIf(s[1..], NotSpace);
      if IsSpace(s[0]) {
        assert !IsKept(s[0]);
        assert KeepIf(s, NotSpace) == t1;
        assert KeepIf(s, IsKept) == KeepIf(s[1..], IsKept);
      } else {
        var t := KeepIf(s, NotSpace);
        assert t == [s[0]] + t1;
        assert t != [] && t[0] == s[0] && t[1..] == t1;
        assert KeepIf(t, IsKept) == (if IsKept(s[0]) then [s[0]] else []) + KeepIf(t1, IsKept);
      }
    }
  }

  /** The white-space pass is subsumed by the second: cleaning keeps exactly
      the characters of `[A-Za-z0-9_+/=]`. */
  lemma CleanKeepsWordChars(s: string)
    ensures Clean(s) == KeepIf(s, IsKept)
  {
    KeepIfCompose(s);
  }

  /** Cleaning is idempotent. */
  lemma CleanIdempotent(s: string)
    ensures Clean(Clean(s)) == Clean(s)
  {
    CleanKeepsWordChars(Clean(s));
  }

  /** A base64 encoding is left unchanged by cleaning. */
  lemma CleanKeepsEncoding(bs: seq<byte>)
    ensures Clean(Encode(bs)) == Encode(bs)
  {
    var e := Encode(bs);
    var u := Unpadded(bs);
    assert forall i | 0 <= i < |e| :: IsKept(e[i]) by {
      forall i | 0 <= i < |e| ensures IsKept(e[i]) {
        if i < |u| { assert e[i] == u[i]; } else { assert e[i] == Padding(|bs|)[i - |u|]; }
      }
    }
    CleanKeepsWordChars(e);
  }

  // ---------------------------------------------------------------------
  // isValidBase64

  /** The number of trailing '=' characters. */
  function TrailingEquals(s: string): (n: nat)
    ensures n <= |s|
    ensures forall i | |s| - n <= i < |s| :: s[i] == '='
    ensures n < |s| ==> s[|s| - n - 1] != '='
  {
    if |s| > 0 && s[|s| - 1] == '=' then TrailingEquals(s[..|s| - 1]) + 1 else 0
  }

  /** `/^[A-Za-z0-9+/]*={0,2}$/`. */
  predicate PatternOk(s: string) {
    TrailingEquals(s) <= 2 && AllAlphabet(s[..|s| - TrailingEquals(s)])
  }

  /** `isValidBase64(str)`: non-empty, and once cleaned it matches the
      pattern, has a length divisible by 4, and its first 100 characters
      decode to at least one byte. */
  function IsValidBase64(str: string): (r: bool)
    ensures r ==> str != "" && PatternOk(Clean(str)) && |Clean(str)| % 4 == 0
  {
    if str == "" then false
    else
      var c := Clean(str);
      if !PatternOk(c) || |c| % 4 != 0 then false
      else
        match Atob(c[..if |c| < 100 then |c| else 100])
        case None => false
        case Some(d) => |d| > 0
  }

  /** What a valid string looks like once cleaned: no '_', at most two '=',
      and those at the end. */
  lemma ValidShape(str: string)
    requires IsValidBase64(str)
    ensures var c := Clean(str);
      && (forall i | 0 <= i < |c| :: c[i] != '_')
      && (forall i | 0 <= i < |c| && c[i] == '=' :: i >= |c| - 2)
  {
    var c := Clean(str);
    assert PatternOk(c);
    PatternShape(c);
  }

  /** A string matching the pattern has no '_' and at most two '=', at its
      end. */
  lemma PatternShape(c: string)
    requires PatternOk(c)
    ensures forall i | 0 <= i < |c| :: c[i] != '_'
    ensures forall i | 0 <= i < |c| && c[i] == '=' :: i >= |c| - 2
  {
    var n := TrailingEquals(c);
    forall i | 0 <= i < |c| ensures c[i] != '_' && (c[i] == '=' ==> i >= |c| - 2) {
      if i < |c| - n { assert c[..|c| - n][i] == c[i]; }
    }
  }

  /** On a string matching the pattern whose length is divisible by 4,
      `atob`'s padding strip removes exactly the trailing '='s. */
  lemma StripPattern(c: string)
    requires PatternOk(c) && |c| % 4 == 0
    ensures StripPadding(c) == c[..|c| - TrailingEquals(c)]
  {
    var n := TrailingEquals(c);
    if n == 2 {
      assert c[|c| - 2..] == "==" by { assert c[|c| - 2] == '=' && c[|c| - 1] == '='; }
    } else if n == 1 {
      assert c[|c| - 1] == '=';
      assert c[|c| - 2] != '=';
      assert !(c[|c| - 2..] == "==") by { assert c[|c| - 2..][0] == c[|c| - 2]; }
    } else if |c| > 0 {
      assert c[|c| - 1] != '=';
      assert !(c[|c| - 2..] == "==") by { assert c[|c| - 2..][1] == c[|c| - 1]; }
    }
  }

  /** Atob of a string matching the pattern with a length divisible by 4. */
  lemma AtobOfPattern(c: string)
    requires PatternOk(c) && |c| % 4 == 0 && (forall i | 0 <= i < |c| :: IsKept(c[i]))
    ensures Atob(c).Some?
    ensures |Atob(c).value| == ((|c| - TrailingEquals(c)) * 6) / 8
  {
    var data := c[..|c| - TrailingEquals(c)];
    PatternData(c);
    AtobOfData(c, data);
  }

  /** On such a string `atob` is left with the characters before the '='s,
      all of the alphabet, in a decodable number. */
  lemma PatternData(c: string)
    requires PatternOk(c) && |c| % 4 == 0 && (forall i | 0 <= i < |c| :: IsKept(c[i]))
    ensures var data := c[..|c| - TrailingEquals(c)];
      StripPadding(KeepIf(c, NotAsciiSpace)) == data && AllAlphabet(data) && |data| % 4 != 1
  {
    var n := TrailingEquals(c);
    assert KeepIf(c, NotAsciiSpace) == c by { NoAsciiSpace(c); }
    assert StripPadding(c) == c[..|c| - n] by { StripPattern(c); }
    assert (|c| - n) % 4 != 1 by { PaddedLength(|c|, n); }
  }

  lemma NoAsciiSpace(c: string)
    requires forall i | 0 <= i < |c| :: IsKept(c[i])
    ensures KeepIf(c, NotAsciiSpace) == c
  {
    assert forall i | 0 <= i < |c| :: NotAsciiSpace(c[i]);
  }

  /** Removing at most two characters from a multiple of 4 never leaves
      one more than a multiple of 4. */
  lemma PaddedLength(len: int, n: int)
    requires len % 4 == 0 && 0 <= n <= 2 && n <= len
    ensures (len - n) % 4 != 1
  {
    if n > 0 {
      var q := len / 4;
      assert len == 4 * q && q >= 1;
      assert len - n == (q - 1) * 4 + (4 - n);
      DivMod4(q - 1, 4 - n);
    }
  }

  lemma AtobOfData(c: string, data: string)
    requires StripPadding(KeepIf(c, NotAsciiSpace)) == data && AllAlphabet(data) && |data| % 4 != 1
    ensures Atob(c) == Some(DecodeChars(data))
  {
  }

  /** A cleaned string matching the pattern decodes, to at least one byte
      when it is not empty. */
  lemma PatternDecodes(c: string)
    requires PatternOk(c) && |c| % 4 == 0 && (forall i | 0 <= i < |c| :: IsKept(c[i]))
    ensures Atob(c).Some? && (|Atob(c).value| > 0 <==> c != "")
  {
    AtobOfPattern(c);
    var n := TrailingEquals(c);
    assert |Atob(c).value| == ((|c| - n) * 6) / 8;
    if c != "" {
      AtLeastOneByte(|c|, n);
    }
  }

  lemma AtLeastOneByte(len: int, n: int)
    requires len > 0 && len % 4 == 0 && 0 <= n <= 2
    ensures ((len - n) * 6) / 8 >= 1
  {
    assert len >= 4;
    var k := (len - n) * 6;
    assert k >= 12;
  }

  /** The 100-character probe of a longer string is all alphabet. */
  lemma LongProbe(c: string)
    requires PatternOk(c) && |c| % 4 == 0 && |c| > 100 && (forall i | 0 <= i < |c| :: IsKept(c[i]))
    ensures Atob(c[..100]).Some? && |Atob(c[..100]).value| > 0
  {
    var p := c[..100];
    var n := TrailingEquals(c);
    assert TrailingEquals(p) == 0 by { assert p[99] == c[..|c| - n][99]; }
    assert AllAlphabet(p) by {
      forall i | 0 <= i < 100 ensures IsAlphabet(p[i]) { assert p[i] == c[..|c| - n][i]; }
    }
    assert PatternOk(p) by { assert p[..|p| - 0] == p; }
    AtobOfPattern(p);
  }

  /** The 100-character probe adds nothing: a string is valid exactly when
      its cleaned form is non-empty, matches the pattern and has a length
      divisible by 4. */
  lemma ValidIff(str: string)
    ensures IsValidBase64(str)
            <==> str != "" && Clean(str) != "" && PatternOk(Clean(str)) && |Clean(str)| % 4 == 0
  {
    var c := Clean(str);
    if str != "" && PatternOk(c) && |c| % 4 == 0 {
      if |c| <= 100 {
        assert c[..|c|] == c;
        PatternDecodes(c);
      } else {
        LongProbe(c);
      }
    }
  }

  /** A string that passes `isValidBase64` decodes, once cleaned, to at
      least one byte. */
  lemma ValidDecodes(s: string)
    requires IsValidBase64(s)
    ensures Atob(Clean(s)).Some? && |Atob(Clean(s)).value| > 0
  {
    ValidIff(s);
    PatternDecodes(Clean(s));
  }

  /** Every non-empty encoding is valid. */
  lemma EncodingIsValid(bs: seq<byte>)
    requires |bs| > 0
    ensures IsValidBase64(Encode(bs))
  {
    var e := Encode(bs);
    var u := Unpadded(bs);
    CleanKeepsEncoding(bs);
    assert TrailingEquals(e) == |Padding(|bs|)| by {
      TrailingPadding(u, Padding(|bs|));
    }
    assert e[..|e| - TrailingEquals(e)] == u;
    ValidIff(e);
  }

  lemma {:induction false} TrailingPadding(u: string, pad: string)
    requires |u| > 0 && u[|u| - 1] != '='
    requires forall i | 0 <= i < |pad| :: pad[i] == '='
    ensures TrailingEquals(u + pad) == |pad|
    decreases |pad|
  {
    if pad == [] {
      assert u + pad == u;
    } else {
      var shorter := pad[..|pad| - 1];
      assert (u + pad)[..|u + pad| - 1] == u + shorter;
      TrailingPadding(u, shorter);
    }
  }

  // ---------------------------------------------------------------------
  // The data URL of `FileReader.readAsDataURL` (RFC 2397)

  /** `s.split(d)`. */
  function Split(s: string, d: char): (r: seq<string>)
    ensures |r| >= 1
    decreases |s|
  {
    if s == [] then [""]
    else if s[0] == d then [""] + Split(s[1..], d)
    else
      var rest := Split(s[1..], d);
      [[s[0]] + rest[0]] + rest[1..]
  }

  lemma {:induction false} SplitWithout(s: string, d: char)
    requires d !in s
    ensures Split(s, d) == [s]
    decreases |s|
  {
    if s != [] {
      SplitWithout(s[1..], d);
      assert [s[0]] + s[1..] == s;
    }
  }

  lemma {:induction false} SplitPrefix(p: string, s: string, d: char)
    requires d !in p
    ensures Split(p + s, d) == [p + Split(s, d)[0]] + Split(s, d)[1..]
    decreases |p|
  {
    if p != [] {
      assert (p + s)[0] == p[0] && p[0] != d;
      assert (p + s)[1..] == p[1..] + s;
      SplitPrefix(p[1..], s, d);
      var r := Split(p[1..] + s, d);
      assert Split(p + s, d) == [[p[0]] + r[0]] + r[1..];
      assert r[0] == p[1..] + Split(s, d)[0] && r[1..] == Split(s, d)[1..];
      assert [p[0]] + (p[1..] + Split(s, d)[0]) == p + Split(s, d)[0];
    } else {
      assert p + s == s;
      assert p + Split(s, d)[0] == Split(s, d)[0];
      assert Split(s, d) == [Split(s, d)[0]] + Split(s, d)[1..];
    }
  }

  /** `data:<mime>;base64,<payload>`. */
  function DataUrl(mime: string, payload: string): string {
    "data:" + mime + ";base64," + payload
  }

  /** `result.split(',')[1]` of a data URL is its payload. */
  lemma DataUrlPayload(mime: string, payload: string)
    requires ',' !in mime && ',' !in payload
    ensures |Split(DataUrl(mime, payload), ',')| == 2
    ensures Split(DataUrl(mime, payload), ',')[1] == payload
  {
    var head := "data:" + mime + ";base64";
    assert ',' !in head by {
      assert head == "data:" + mime + ";base64";
      forall i | 0 <= i < |head| ensures head[i] != ',' {
        if i < 5 { assert head[i] == "data:"[i]; }
        else if i < 5 + |mime| { assert head[i] == mime[i - 5]; }
        else { assert head[i] == ";base64"[i - 5 - |mime|]; }
      }
    }
    assert DataUrl(mime, payload) == head + ([','] + payload);
    SplitWithout(payload, ',');
    assert Split([','] + payload, ',') == [""] + Split(payload, ',') by {
      assert ([','] + payload)[1..] == payload;
    }
    SplitPrefix(head, [','] + payload, ',');
  }

  /** An encoding never contains a comma. */
  lemma EncodingHasNoComma(bs: seq<byte>)
    ensures ',' !in Encode(bs)
  {
    var e := Encode(bs);
    var u := Unpadded(bs);
    forall i | 0 <= i < |e| ensures e[i] != ',' {
      if i < |u| { assert e[i] == u[i]; } else { assert e[i] == Padding(|bs|)[i - |u|]; }
    }
  }
}

=== FILE: base_service.dfy ===
/** `BaseAIService` (`src/services/ai/base.ts`): the configuration every
    provider service is initialised with, its validation, and the retry loop
    that wraps each provider call. */
module BaseService {
  import opened Wrappers
  import opened Js
  import opened Text

  /** `AIConfig`. `enableDeepseek` is `features?.enableDeepseek`: `None` when
      `features` or the flag is absent. */
  datatype Config = Config(
    apiKey: string,
    baseUrl: string,
    maxRetries: int,
    timeout: int,
    enableDeepseek: Option<bool>)

  /** The first failing check of `validateConfig`, in the order it makes them, or
      `None` when the configuration is accepted. Whether `new URL(baseUrl)`
      parses is the parameter `urlParses`. */
  function ConfigError(c: Config, urlParses: string -> bool): (r: Option<string>)
    ensures r == None <==> c.apiKey != "" && c.baseUrl != "" && urlParses(c.baseUrl)
                           && c.maxRetries >= 0 && c.timeout >= 0
    ensures c.apiKey == "" ==> r == Some("API key is required")
    ensures c.apiKey != "" && c.baseUrl == "" ==> r == Some("Base URL is required")
    ensures c.apiKey != "" && c.baseUrl != "" && !urlParses(c.baseUrl)
            ==> r == Some("Invalid base URL format")
    ensures r == Some("Max retries must be non-negative")
            <==> c.apiKey != "" && c.baseUrl != "" && urlParses(c.baseUrl) && c.maxRetries < 0
    ensures r == Some("Timeout must be non-negative")
            <==> c.apiKey != "" && c.baseUrl != "" && urlParses(c.baseUrl)
                 && c.maxRetries >= 0 && c.timeout < 0
  {
    if c.apiKey == "" then Some("API key is required")
    else if c.baseUrl == "" then Some("Base URL is required")
    else if !urlParses(c.baseUrl) then Some("Invalid base URL format")
    else if c.maxRetries < 0 then Some("Max retries must be non-negative")
    else if c.timeout < 0 then Some("Timeout must be non-negative")
    else None
  }

  /** Zero retries and a zero timeout are accepted. */
  lemma ZeroLimitsAccepted(apiKey: string, baseUrl: string, urlParses: string -> bool, flag: Option<bool>)
    requires apiKey != "" && baseUrl != "" && urlParses(baseUrl)
    ensures ConfigError(Config(apiKey, baseUrl, 0, 0, flag), urlParses) == None
  {
  }

  /** The state a provider service keeps: its stored configuration, if any. */
  datatype Service = Service(config: Option<Config>)

  const Uninitialized := Service(None)

  /** `isInitialized()`: a configuration has been stored. */
  predicate IsInitialized(s: Service) {
    s.config.Some?
  }

  /** `initialize(config)`: validate, then store. A rejected configuration
      leaves the service as it was and reports the validation message. */
  function Initialize(s: Service, c: Config, urlParses: string -> bool): (r: Result<Service>)
    ensures r.Ok? <==> ConfigError(c, urlParses) == None
    ensures r.Ok? ==> r.value.config == Some(c) && IsInitialized(r.value)
    ensures r.Fail? ==> Some(r.error) == ConfigError(c, urlParses)
  {
    match ConfigError(c, urlParses)
    case Some(message) => Fail(message)
    case None => Ok(Service(Some(c)))
  }

  /** A service becomes initialised only through a configuration that passes
      validation, and then holds exactly that configuration. */
  lemma InitializedOnlyByValidConfig(c: Config, urlParses: string -> bool)
    ensures var r := Initialize(Uninitialized, c, urlParses);
      (r.Ok? && IsInitialized(r.value)) <==> ConfigError(c, urlParses) == None
  {
  }

  // ---------------------------------------------------------------------
  // Retry with backoff

  /** Lower-case fragments that make an error worth retrying. */
  const RetryKeywords := ["rate limit", "timeout", "too many requests", "server error",
                          "503", "429", "network", "failed to fetch"]

  /** `shouldRetry(error)`: an `Error` whose lower-cased message contains one
      of the keywords. Values that are not `Error`s are never retried. */
  predicate ShouldRetry(e: Thrown) {
    e.IsError() && exists k | 0 <= k < |RetryKeywords| :: Contains(ToLower(e.message), RetryKeywords[k])
  }

  /** The message `retryWithBackoff` throws for a `TypeError('Failed to fetch')`. */
  const ApiUnreachable := "Network error: Unable to reach the API. Please check your internet connection."

  /** The message it throws for any error mentioning CORS. */
  const CorsBlocked := "Network error: CORS policy prevented the request. Please check API configuration."

  /** The backoff table `retryDelays`. */
  const RetryDelays: seq<nat> := [1000, 2000, 4000, 8000, 16000]

  /** `retryDelays[k] || retryDelays[retryDelays.length - 1]`. */
  function RetryDelay(k: nat): (d: nat)
    ensures k < 5 ==> d == 1000 * Pow2(k)
    ensures k >= 5 ==> d == 16000
    ensures 1000 <= d <= 16000
  {
    assert Pow2(1) == 2 && Pow2(2) == 4 && Pow2(3) == 8 && Pow2(4) == 16;
    if k < |RetryDelays| then RetryDelays[k] else RetryDelays[|RetryDelays| - 1]
  }

  /** Whether a thrown error is turned into a network message at once:
      neither case is ever retried. */
  predicate Immediate(e: Thrown) {
    (e.TypeError? && e.message == "Failed to fetch") || (e.IsError() && Contains(e.message, "CORS"))
  }

  /** The error for one of the immediate cases. */
  function ImmediateError(e: Thrown): (r: Thrown)
    requires Immediate(e)
    ensures e.TypeError? && e.message == "Failed to fetch" ==> r == Error(ApiUnreachable)
    ensures !(e.TypeError? && e.message == "Failed to fetch") ==> r == Error(CorsBlocked)
  {
    if e.TypeError? && e.message == "Failed to fetch" then Error(ApiUnreachable) else Error(CorsBlocked)
  }

  /** The error thrown when giving up: messages mentioning 401, 403, 429 or
      500 are replaced (first match in that order), other `Error`s are
      rethrown as they are, and anything else becomes a generic error. */
  function GiveUpError(e: Thrown): (r: Thrown)
    ensures r.Error? || r == e
    ensures !e.IsError() ==> r == Error("An unexpected error occurred")
    ensures e.IsError() && Contains(e.message, "401")
            ==> r == Error("Authentication failed: Please check your API key.")
    ensures e.IsError() && !Contains(e.message, "401") && Contains(e.message, "403")
            ==> r == Error("Access denied: Please verify your API permissions.")
    ensures (e.IsError() && !Contains(e.message, "401") && !Contains(e.message, "403")
             && Contains(e.message, "429"))
            ==> r == Error("Rate limit exceeded: Please try again in a few moments.")
    ensures (e.IsError() && !Contains(e.message, "401") && !Contains(e.message, "403")
             && !Contains(e.message, "429") && Contains(e.message, "500"))
            ==> r == Error("Server error: The API service is experiencing issues. Please try again later.")
    ensures (e.IsError() && !Contains(e.message, "401") && !Contains(e.message, "403")
             && !Contains(e.message, "429") && !Contains(e.message, "500")) ==> r == e
  {
    if !e.IsError() then Error("An unexpected error occurred")
    else if Contains(e.message, "401") then Error("Authentication failed: Please check your API key.")
    else if Contains(e.message, "403") then Error("Access denied: Please verify your API permissions.")
    else if Contains(e.message, "429") then Error("Rate limit exceeded: Please try again in a few moments.")
    else if Contains(e.message, "500") then Error("Server error: The API service is experiencing issues. Please try again later.")
    else e
  }

  /** Whether the call numbered `retryCount` failing with `e` is retried. */
  predicate Retries(config: Option<Config>, retryCount: nat, e: Thrown) {
    !Immediate(e) && config.Some? && retryCount < config.value.maxRetries && ShouldRetry(e)
  }

  /** The `i`-th invocation of `op` failed and the loop retries it. */
  predicate Retried<T>(config: Option<Config>, op: nat -> Attempt<T>, i: nat) {
    op(i).Threw? && Retries(config, i, op(i).error)
  }

  /** What the caller of `retryWithBackoff` finally sees for the outcome of
      the last call it made. */
  function Settle<T>(outcome: Attempt<T>): (r: Attempt<T>)
    ensures outcome.Done? <==> r.Done?
    ensures outcome.Done? ==> r == outcome
  {
    match outcome
    case Done(v) => Done(v)
    case Threw(e) => if Immediate(e) then Threw(ImmediateError(e)) else Threw(GiveUpError(e))
  }

  /** A run of the retry loop: the final outcome, how many times the
      operation was invoked, and the delays waited between invocations. */
  datatype Run<+T> = Run(outcome: Attempt<T>, calls: nat, delays: seq<nat>)

  /** Most invocations `retryWithBackoff` can make from `retryCount` on. */
  function MaxCalls(config: Option<Config>, retryCount: nat): nat {
    if config.Some? && config.value.maxRetries > retryCount then config.value.maxRetries - retryCount + 1 else 1
  }

  /** `retryWithBackoff(operation, retryCount)`, where `op(k)` is how the
      `k`-th invocation of the operation ends (counting from 0). */
  function RetryWithBackoff<T>(config: Option<Config>, op: nat -> Attempt<T>, retryCount: nat): (r: Run<T>)
    ensures 1 <= r.calls <= MaxCalls(config, retryCount)
    ensures |r.delays| == r.calls - 1
    ensures forall i | 0 <= i < |r.delays| :: r.delays[i] == RetryDelay(retryCount + i)
    ensures forall i | retryCount <= i < retryCount + r.calls - 1 :: Retried(config, op, i)
    decreases if config.Some? && config.value.maxRetries > retryCount then config.value.maxRetries - retryCount else 0
  {
    if Retried(config, op, retryCount) then
      var rest := RetryWithBackoff(config, op, retryCount + 1);
      Run(rest.outcome, rest.calls + 1, [RetryDelay(retryCount)] + rest.delays)
    else
      Run(Settle(op(retryCount)), 1, [])
  }

  /** The loop ends at a call that is not retried, and reports that call's
      outcome through `Settle`. */
  lemma {:induction false} RetryOutcome<T>(config: Option<Config>, op: nat -> Attempt<T>, retryCount: nat)
    ensures var r := RetryWithBackoff(config, op, retryCount);
      r.outcome == Settle(op(retryCount + r.calls - 1)) && !Retried(config, op, retryCount + r.calls - 1)
    decreases if config.Some? && config.value.maxRetries > retryCount then config.value.maxRetries - retryCount else 0
  {
    if Retried(config, op, retryCount) {
      RetryOutcome(config, op, retryCount + 1);
      var rest := RetryWithBackoff(config, op, retryCount + 1);
      assert RetryWithBackoff(config, op, retryCount).calls == rest.calls + 1;
    }
  }

  /** A run that ends with a value ends with the value of its last call. */
  lemma RetryDone<T>(config: Option<Config>, op: nat -> Attempt<T>, retryCount: nat)
    ensures var r := RetryWithBackoff(config, op, retryCount);
      r.outcome.Done? ==> r.outcome == op(retryCount + r.calls - 1)
  {
    RetryOutcome(config, op, retryCount);
  }

  /** A call that succeeds ends the loop with its value, and a call whose
      error is not retried ends it with that error rewritten. */
  lemma {:induction false} RetryStopsAtFirstFinal<T>(config: Option<Config>, op: nat -> Attempt<T>, j: nat)
    requires forall i | 0 <= i < j :: Retried(config, op, i)
    requires !Retried(config, op, j)
    ensures RetryWithBackoff(config, op, 0).calls == j + 1
    ensures RetryWithBackoff(config, op, 0).outcome == Settle(op(j))
  {
    RetryOutcome(config, op, 0);
    var r := RetryWithBackoff(config, op, 0);
  }

  /** Without a stored configuration the operation runs exactly once. */
  lemma NoConfigNoRetry<T>(op: nat -> Attempt<T>)
    ensures RetryWithBackoff(None, op, 0).calls == 1
  {
  }

  /** With `maxRetries` retries the operation is invoked at most
      `maxRetries + 1` times. */
  lemma AtMostMaxRetriesPlusOne<T>(c: Config, op: nat -> Attempt<T>)
    requires c.maxRetries >= 0
    ensures RetryWithBackoff(Some(c), op, 0).calls <= c.maxRetries + 1
  {
  }

  /** A `TypeError('Failed to fetch')` or a CORS error is never retried. */
  lemma NetworkErrorsNotRetried<T>(config: Option<Config>, op: nat -> Attempt<T>)
    requires op(0).Threw? && Immediate(op(0).error)
    ensures RetryWithBackoff(config, op, 0).calls == 1
    ensures RetryWithBackoff(config, op, 0).outcome.Threw?
    ensures RetryWithBackoff(config, op, 0).outcome.error.message in {ApiUnreachable, CorsBlocked}
  {
  }
}

=== FILE: documents.dfy ===
/** Policy documents (`src/services/documentService.ts`): the checks of
    `uploadPolicyDocument` and of `getPolicyDocumentPDF`, each reporting the
    first that fails, with the PDF stored as base64. Text extraction, the
    `FileReader` and the database are parameters. */
module Documents {
  import opened Wrappers
  import opened Js
  import opened Text
  import opened Base64

  const MaxPdfSize := 10 * 1024 * 1024
  const MinPdfSize := 100
  const PdfType := "application/pdf"

  /** The five bytes of "%PDF-". */
  const PdfMagic: seq<byte> := [0x25, 0x50, 0x44, 0x46, 0x2D]

  /** `new TextDecoder().decode(bytes.slice(0, 5)).startsWith('%PDF-')`:
      a byte outside ASCII never decodes to an ASCII character, so this is
      a test on the raw bytes. */
  predicate HasPdfHeader(bs: seq<byte>) {
    |bs| >= 5 && bs[..5] == PdfMagic
  }

  /** A `File`: its MIME type and contents (`size` is their length). */
  datatype File = File(mimeType: string, bytes: seq<byte>)

  // ---------------------------------------------------------------------
  // uploadPolicyDocument

  /** `arrayBufferToBase64(buffer)`: read the bytes as a data URL, keep what
      follows the comma, clean it and check it. */
  function BufferToBase64(bs: seq<byte>, readerFails: bool): (r: Attempt<string>)
    ensures readerFails ==> r == Threw(Error("Failed to convert PDF to base64"))
    ensures !readerFails && |bs| > 0 ==> r == Done(Encode(bs))
    ensures !readerFails && |bs| == 0 ==> r == Threw(Error("Generated invalid base64 data"))
    ensures r.Done? ==> IsValidBase64(r.value)
  {
    if readerFails then Threw(Error("Failed to convert PDF to base64"))
    else
      var e := Encode(bs);
      EncodingHasNoComma(bs);
      assert ',' !in PdfType;
      DataUrlPayload(PdfType, e);
      var payload := Clean(Split(DataUrl(PdfType, e), ',')[1]);
      CleanKeepsEncoding(bs);
      assert payload == e;
      assert |bs| > 0 ==> IsValidBase64(e) by {
        if |bs| > 0 { EncodingIsValid(bs); }
      }
      if !IsValidBase64(payload) then Threw(Error("Generated invalid base64 data"))
      else Done(payload)
  }

  /** The row `uploadPolicyDocument` inserts. */
  datatype PolicyDocument = PolicyDocument(title: string, documentType: string, content: string, pdfData: string)

  /** `{ success, error }`, and the row inserted on success. */
  datatype Upload = Upload(success: bool, error: Option<string>, stored: Option<PolicyDocument>)

  function Reject(message: string): Upload {
    Upload(false, Some(message), None)
  }

  /** The checks before any reading, in order. */
  function FileCheck(f: File): (r: Option<string>)
    ensures r.None? <==> f.mimeType == PdfType && MinPdfSize <= |f.bytes| <= MaxPdfSize
    ensures f.mimeType != PdfType ==> r == Some("Invalid file type. Please upload a PDF file.")
    ensures f.mimeType == PdfType && |f.bytes| > MaxPdfSize ==> r == Some("File size must be less than 10MB")
    ensures f.mimeType == PdfType && |f.bytes| < MinPdfSize ==> r == Some("File appears to be empty or corrupted")
  {
    if f.mimeType != PdfType then Some("Invalid file type. Please upload a PDF file.")
    else if |f.bytes| > MaxPdfSize then Some("File size must be less than 10MB")
    else if |f.bytes| < MinPdfSize then Some("File appears to be empty or corrupted")
    else None
  }

  /** `uploadPolicyDocument(file, title, documentType)`. `extracted` is how
      `extractTextFromPDF` ends, `readerFails` whether the `FileReader`
      errs, `insertError` the insert's error. Every failure, thrown or not,
      comes back as `{ success: false, error }`. */
  function UploadPolicyDocument(f: File, title: string, documentType: string, extracted: Attempt<string>,
                                readerFails: bool, insertError: Option<Thrown>): (r: Upload)
    ensures r.success <==> r.error.None?
    ensures r.stored.Some? <==> r.success
    ensures FileCheck(f).Some? ==> r == Reject(FileCheck(f).value)
    ensures FileCheck(f).None? && !HasPdfHeader(f.bytes)
            ==> r == Reject("Invalid PDF format. File does not appear to be a valid PDF.")
    ensures r.success ==> (FileCheck(f).None? && HasPdfHeader(f.bytes) && extracted.Done?
              && !Blank(extracted.value) && Utf16Length(extracted.value) >= 10
              && !readerFails && insertError.None?
              && r.stored == Some(PolicyDocument(title, documentType, extracted.value, Encode(f.bytes))))
    ensures (FileCheck(f).None? && HasPdfHeader(f.bytes) && extracted.Done?
             && !Blank(extracted.value) && Utf16Length(extracted.value) >= 10 && !readerFails)
            ==> (r.success <==> insertError.None?)
  {
    match FileCheck(f)
    case Some(message) => Reject(message)
    case None =>
      if !HasPdfHeader(f.bytes) then Reject("Invalid PDF format. File does not appear to be a valid PDF.")
      else Extract(f.bytes, title, documentType, extracted, readerFails, insertError)
  }

  /** The steps from text extraction on: the text must be non-blank and at
      least 10 UTF-16 code units long. */
  function Extract(bs: seq<byte>, title: string, documentType: string, extracted: Attempt<string>,
                   readerFails: bool, insertError: Option<Thrown>): (r: Upload)
    requires |bs| > 0
    ensures r.success <==> r.error.None?
    ensures r.stored.Some? <==> r.success
    ensures r.success <==> extracted.Done? && !Blank(extracted.value) && Utf16Length(extracted.value) >= 10
                           && !readerFails && insertError.None?
    ensures r.success ==> r.stored == Some(PolicyDocument(title, documentType, extracted.value, Encode(bs)))
    ensures extracted.Done? && Blank(extracted.value)
            ==> r == Reject("Could not extract text from PDF. The file might be empty, corrupted, or contain only images.")
    ensures extracted.Done? && !Blank(extracted.value) && Utf16Length(extracted.value) < 10
            ==> r == Reject("PDF appears to contain no meaningful text content")
  {
    match extracted
    case Threw(e) => Reject(e.MessageOr("Unknown error occurred"))
    case Done(text) =>
      if Trim(text) == "" then
        Reject("Could not extract text from PDF. The file might be empty, corrupted, or contain only images.")
      else if Utf16Length(text) < 10 then Reject("PDF appears to contain no meaningful text content")
      else Store(bs, title, documentType, text, readerFails, insertError)
  }

  /** The minimum counts UTF-16 code units: five mathematical bold letters
      (each beyond U+FFFF) make a text of length 10, which is accepted. */
  lemma AstralTextLongEnough(bs: seq<byte>, title: string, documentType: string)
    requires |bs| > 0
    ensures var text := "\U{1D400}\U{1D401}\U{1D402}\U{1D403}\U{1D404}";
      |text| == 5 && Extract(bs, title, documentType, Done(text), false, None).success
  {
    var text := "\U{1D400}\U{1D401}\U{1D402}\U{1D403}\U{1D404}";
    assert !IsSpace(text[0]);
    assert Utf16Length(text) == 10;
  }

  /** The steps after the text is extracted: encode the bytes, check the
      encoding, insert the row. */
  function Store(bs: seq<byte>, title: string, documentType: string, text: string,
                 readerFails: bool, insertError: Option<Thrown>): (r: Upload)
    requires |bs| > 0
    ensures r.success <==> r.error.None?
    ensures r.stored.Some? <==> r.success
    ensures r.success <==> !readerFails && insertError.None?
    ensures r.success ==> r.stored == Some(PolicyDocument(title, documentType, text, Encode(bs)))
  {
    match BufferToBase64(bs, readerFails)
    case Threw(e) => Reject(e.MessageOr("Unknown error occurred"))
    case Done(data) =>
      if !IsValidBase64(data) then Reject("Failed to convert PDF to valid base64 format")
      else if insertError.Some? then Reject(insertError.value.MessageOr("Unknown error occurred"))
      else Upload(true, None, Some(PolicyDocument(title, documentType, text, data)))
  }

  /** Sizes of exactly 100 bytes and exactly 10 MiB pass the size checks. */
  lemma SizeBoundsInclusive(bs: seq<byte>)
    requires |bs| == MinPdfSize || |bs| == MaxPdfSize
    ensures FileCheck(File(PdfType, bs)).None?
  {
  }

  // ---------------------------------------------------------------------
  // getPolicyDocumentPDF

  /** The `pdf_data` column of the row, when there is one. */
  datatype PdfQuery = DbError | Row(data: Option<Option<string>>)

  /** `base64ToUint8Array(base64)`. */
  function Base64ToBytes(s: string): (r: Attempt<seq<byte>>)
    ensures r.Done? ==> Atob(Clean(s)) == Some(r.value)
    ensures r.Threw? <==> Atob(Clean(s)).None?
    ensures r.Threw? ==> r == Threw(Error("Failed to convert base64 to binary data"))
  {
    match Atob(Clean(s))
    case None => Threw(Error("Failed to convert base64 to binary data"))
    case Some(bs) => Done(bs)
  }

  /** Stored text that cleans to valid base64 decoding to an in-range PDF. */
  predicate Decodable(data: string) {
    var clean := Clean(data);
    IsValidBase64(clean) && Atob(clean).Some?
    && MinPdfSize <= |Atob(clean).value| <= MaxPdfSize && HasPdfHeader(Atob(clean).value)
  }

  /** `getPolicyDocumentPDF(id)`: the PDF's bytes, or the first failing
      check's message. */
  function GetPolicyDocumentPdf(id: string, query: PdfQuery): (r: Attempt<seq<byte>>)
    ensures r.Threw? ==> r.error.Error?
    ensures id == "" ==> r == Threw(Error("Invalid document ID"))
    ensures id != "" && query.DbError? ==> r == Threw(Error("Failed to retrieve PDF data from database"))
    ensures id != "" && query.Row? && !StrTruthy(if query.data.Some? then query.data.value else None)
            ==> r == Threw(Error("PDF data not found"))
    ensures id != "" && query.Row? && query.data.Some? && StrTruthy(query.data.value)
            ==> r == DecodeStored(query.data.value.value)
    ensures r.Done? <==> id != "" && query.Row? && query.data.Some? && query.data.value.Some?
                         && Decodable(query.data.value.value)
    ensures r.Done? ==> (MinPdfSize <= |r.value| <= MaxPdfSize && HasPdfHeader(r.value)
              && query.Row? && query.data.Some? && query.data.value.Some?
              && IsValidBase64(Clean(query.data.value.value))
              && Atob(Clean(query.data.value.value)) == Some(r.value))
  {
    if id == "" then Threw(Error("Invalid document ID"))
    else match query
      case DbError => Threw(Error("Failed to retrieve PDF data from database"))
      case Row(data) =>
        if data.None? || !StrTruthy(data.value) then
          assert data.Some? && data.value.Some? ==> !Decodable(data.value.value) by {
            if data.Some? && data.value.Some? {
              assert data.value.value == "";
              assert Clean("") == "";
            }
          }
          Threw(Error("PDF data not found"))
        else DecodeStored(data.value.value)
  }

  /** The checks on the stored text: it must pass `isValidBase64` once
      cleaned, decode, and decode to an in-range PDF. */
  function DecodeStored(data: string): (r: Attempt<seq<byte>>)
    ensures r.Threw? ==> r.error.Error?
    ensures r.Done? <==> Decodable(data)
    ensures r.Done? ==> (MinPdfSize <= |r.value| <= MaxPdfSize && HasPdfHeader(r.value)
              && IsValidBase64(Clean(data)) && Atob(Clean(data)) == Some(r.value))
    ensures !IsValidBase64(Clean(data)) ==> r == Threw(Error("Invalid base64 data format"))
    ensures IsValidBase64(Clean(data)) && Atob(Clean(data)).Some? && |Atob(Clean(data)).value| < MinPdfSize
            ==> r == Threw(Error("PDF data appears to be truncated"))
    ensures IsValidBase64(Clean(data)) && Atob(Clean(data)).Some? && |Atob(Clean(data)).value| > MaxPdfSize
            ==> r == Threw(Error("PDF data exceeds maximum allowed size"))
    ensures IsValidBase64(Clean(data)) && Atob(Clean(data)).Some?
            && MinPdfSize <= |Atob(Clean(data)).value| <= MaxPdfSize && !HasPdfHeader(Atob(Clean(data)).value)
            ==> r == Threw(Error("Invalid PDF format"))
  {
    var clean := Clean(data);
    if !IsValidBase64(clean) then Threw(Error("Invalid base64 data format"))
    else
      DecodeChecksNeverFire(data);
      CleanIdempotent(data);
      match Base64ToBytes(clean)
      case Threw(e) => Threw(e)
      case Done(bs) =>
        if |bs| == 0 then Threw(Error("PDF data is empty"))
        else if |bs| < MinPdfSize then Threw(Error("PDF data appears to be truncated"))
        else if |bs| > MaxPdfSize then Threw(Error("PDF data exceeds maximum allowed size"))
        else if !HasPdfHeader(bs) then Threw(Error("Invalid PDF format"))
        else Done(bs)
  }

  /** Once the stored data passes `isValidBase64`, decoding cannot fail and
      cannot come out empty: those two checks never fire. */
  lemma DecodeChecksNeverFire(data: string)
    requires IsValidBase64(Clean(data))
    ensures Base64ToBytes(Clean(data)).Done? && |Base64ToBytes(Clean(data)).value| > 0
  {
    ValidDecodes(Clean(data));
  }

  /** `base64ToUint8Array` inverts the encoding. */
  lemma EncodingToBytes(bs: seq<byte>)
    ensures Base64ToBytes(Encode(bs)) == Done(bs)
  {
    CleanKeepsEncoding(bs);
    RoundTrip(bs);
  }

  /** The encoding of an in-range PDF is retrieved as those bytes. */
  lemma DownloadOfEncoding(bs: seq<byte>, id: string)
    requires MinPdfSize <= |bs| <= MaxPdfSize && HasPdfHeader(bs) && id != ""
    ensures GetPolicyDocumentPdf(id, Row(Some(Some(Encode(bs))))) == Done(bs)
  {
    var e := Encode(bs);
    CleanKeepsEncoding(bs);
    EncodingIsValid(bs);
    EncodingToBytes(bs);
    assert e != "";
    DownloadOfValid(e, bs, id);
  }

  /** Stored data that cleans to itself, passes the check and decodes to an
      in-range PDF is returned as those bytes. */
  lemma DownloadOfValid(e: string, bs: seq<byte>, id: string)
    requires e != "" && id != "" && Clean(e) == e && IsValidBase64(e) && Base64ToBytes(e) == Done(bs)
    requires MinPdfSize <= |bs| <= MaxPdfSize && HasPdfHeader(bs)
    ensures GetPolicyDocumentPdf(id, Row(Some(Some(e)))) == Done(bs)
  {
    assert StrTruthy(Some(e));
    assert DecodeStored(e) == Done(bs);
  }

  /** A stored upload comes back byte for byte. */
  lemma UploadThenDownload(f: File, title: string, documentType: string, extracted: Attempt<string>,
                           readerFails: bool, insertError: Option<Thrown>, id: string)
    requires UploadPolicyDocument(f, title, documentType, extracted, readerFails, insertError).success
    requires id != ""
    ensures var stored := UploadPolicyDocument(f, title, documentType, extracted, readerFails, insertError).stored.value;
      GetPolicyDocumentPdf(id, Row(Some(Some(stored.pdfData)))) == Done(f.bytes)
  {
    DownloadOfEncoding(f.bytes, id);
  }
}

=== FILE: factory.dfy ===
/** `getAIService` (`src/services/ai/factory.ts`): one cached service
    instance per provider, initialised on demand. The module-level `Map` is
    the explicit `Cache` threaded through calls. */
module Factory {
  import opened Wrappers
  import opened AiTypes
  import opened BaseService
  import opened AiConfig

  /** A service instance: which service class it is, and its state. */
  datatype Instance = Instance(kind: Provider, state: Service)

  type Cache = map<Provider, Instance>

  /** The cache only ever holds, under each provider, an instance of that
      provider's class: the map is private to the module and filled only by
      `createService`. */
  predicate WellFormed(cache: Cache) {
    forall q | q in cache :: cache[q].kind == q
  }

  /** `createService(provider)`: a fresh, uninitialised instance of the
      provider's class (latimer → Latimer, perplexity → Perplexity,
      deepseek → DeepSeek). */
  function CreateService(p: Provider): (r: Instance)
    ensures r.kind == p && !IsInitialized(r.state)
  {
    Instance(p, Uninitialized)
  }

  const DeepSeekDisabled := "DeepSeek integration is currently disabled"

  /** `!config.features?.enableDeepseek`. */
  predicate DeepSeekOff(c: Config) {
    c.enableDeepseek != Some(true)
  }

  /** The outcome of a call: the cache afterwards and the instance returned. */
  datatype Lookup = Lookup(cache: Cache, result: Result<Instance>)

  /** `getAIService(provider, config)`. */
  function GetAIService(cache: Cache, p: Provider, c: Config, urlParses: string -> bool): (r: Lookup)
    requires WellFormed(cache)
    ensures WellFormed(r.cache)
    ensures p == DeepSeek && DeepSeekOff(c) ==> r == Lookup(cache, Fail(DeepSeekDisabled))
    ensures !(p == DeepSeek && DeepSeekOff(c)) ==>
      && p in r.cache && r.cache[p].kind == p
      && r.cache.Keys == cache.Keys + {p}
      && (forall q | q in cache && q != p :: r.cache[q] == cache[q])
    ensures r.result.Ok? ==> p in r.cache && r.result.value == r.cache[p] && IsInitialized(r.result.value.state)
    ensures p in cache && IsInitialized(cache[p].state) && !(p == DeepSeek && DeepSeekOff(c))
            ==> r == Lookup(cache, Ok(cache[p]))
    ensures !(p == DeepSeek && DeepSeekOff(c)) && !(p in cache && IsInitialized(cache[p].state))
            ==> && (r.result.Ok? <==> ConfigError(c, urlParses) == None)
                && (r.result.Ok? ==> r.result.value.kind == p && r.result.value.state.config == Some(c))
    ensures r.result.Fail? && !(p == DeepSeek && DeepSeekOff(c))
            ==> r.cache[p].kind == p && !IsInitialized(r.cache[p].state)
                && Some(r.result.error) == ConfigError(c, urlParses)
  {
    if p == DeepSeek && DeepSeekOff(c) then Lookup(cache, Fail(DeepSeekDisabled))
    else
      var service := if p in cache then cache[p] else CreateService(p);
      var cache1 := cache[p := service];
      if !IsInitialized(service.state) then
        match Initialize(service.state, c, urlParses)
        case Fail(message) => Lookup(cache1, Fail(message))
        case Ok(s) =>
          var ready := Instance(service.kind, s);
          Lookup(cache[p := ready], Ok(ready))
      else Lookup(cache1, Ok(service))
  }

  /** Once a call succeeds, later calls return the same instance whatever
      configuration they pass, and change nothing. */
  lemma SecondCallReturnsSameInstance(cache: Cache, p: Provider, c1: Config, c2: Config, urlParses: string -> bool)
    requires WellFormed(cache)
    requires GetAIService(cache, p, c1, urlParses).result.Ok?
    requires !(p == DeepSeek && DeepSeekOff(c2))
    ensures var first := GetAIService(cache, p, c1, urlParses);
      GetAIService(first.cache, p, c2, urlParses) == Lookup(first.cache, first.result)
  {
  }

  /** A failed initialisation leaves the uninitialised instance cached, so
      the next call initialises that same instance with its own configuration. */
  lemma FailedInitRetried(cache: Cache, p: Provider, c1: Config, c2: Config, urlParses: string -> bool)
    requires WellFormed(cache)
    requires !(p == DeepSeek && DeepSeekOff(c1)) && !(p == DeepSeek && DeepSeekOff(c2))
    requires GetAIService(cache, p, c1, urlParses).result.Fail?
    requires ConfigError(c2, urlParses) == None
    ensures var first := GetAIService(cache, p, c1, urlParses);
      var second := GetAIService(first.cache, p, c2, urlParses);
      second.result.Ok? && second.result.value.state.config == Some(c2) && second.result.value.kind == p
  {
  }

  /** With the configuration `getProviderConfig` builds, asking for DeepSeek
      always fails and leaves the cache untouched. */
  lemma DeepSeekAlwaysDisabled(cache: Cache, env: Env, urlParses: string -> bool)
    requires WellFormed(cache)
    requires GetProviderConfig(env, DeepSeek).Ok?
    ensures GetAIService(cache, DeepSeek, GetProviderConfig(env, DeepSeek).value, urlParses)
            == Lookup(cache, Fail(DeepSeekDisabled))
  {
  }
}

=== FILE: federal_register.dfy ===
/** The Federal Register client (`src/api/federalRegister.ts`): the
    normalisation of a search response, and the transform of one search
    result into an `ExecutiveOrder` — status from the disposition notes,
    category from the first matching keyword group, and field defaults.
    A result is a JSON value; the HTTP request is a parameter. */
module FederalRegister {
  import opened Wrappers
  import opened Js
  import opened Text
  import opened Orders

  // ---------------------------------------------------------------------
  // fetchExecutiveOrders

  /** `FederalRegisterResponse`. */
  datatype SearchResponse = SearchResponse(count: Value, totalPages: Value, results: Value)

  /** What `fetch` gave: the status flag and how reading the JSON body ended. */
  datatype HttpReply = HttpReply(ok: bool, status: int, body: Attempt<Value>)

  const FetchFailed := "Failed to fetch executive orders. Please try again later."

  /** The response with `count`, `total_pages` and `results` defaulted to
      0, 1 and `[]` when falsy. */
  function Normalise(data: Value): (r: SearchResponse)
    ensures Truthy(Get(data, "count")) ==> r.count == Get(data, "count")
    ensures !Truthy(Get(data, "count")) ==> r.count == Num(0)
    ensures Truthy(Get(data, "total_pages")) ==> r.totalPages == Get(data, "total_pages")
    ensures !Truthy(Get(data, "total_pages")) ==> r.totalPages == Num(1)
    ensures Truthy(Get(data, "results")) ==> r.results == Get(data, "results")
    ensures !Truthy(Get(data, "results")) ==> r.results == Arr([])
    ensures Truthy(r.totalPages) && Truthy(r.results)
  {
    SearchResponse(
      OrElse(Get(data, "count"), Num(0)),
      OrElse(Get(data, "total_pages"), Num(1)),
      OrElse(Get(data, "results"), Arr([])))
  }

  /** `fetchExecutiveOrders(page)`: every failure — the request, a non-OK
      status, an unreadable body, or a `null` body whose `count` cannot be
      read — becomes the one generic error. */
  function FetchExecutiveOrders(reply: Attempt<HttpReply>): (r: Attempt<SearchResponse>)
    ensures r.Threw? ==> r.error == Error(FetchFailed)
    ensures r.Done? <==> (reply.Done? && reply.value.ok && reply.value.body.Done?
                          && !reply.value.body.value.Null? && !reply.value.body.value.Undefined?)
    ensures r.Done? ==> r.value == Normalise(reply.value.body.value)
  {
    match reply
    case Threw(_) => Threw(Error(FetchFailed))
    case Done(http) =>
      if !http.ok then Threw(Error(FetchFailed))
      else match http.body
        case Threw(_) => Threw(Error(FetchFailed))
        case Done(data) =>
          if data.Null? || data.Undefined? then Threw(Error(FetchFailed))
          else Done(Normalise(data))
  }

  /** A search always yields at least one page. */
  lemma AtLeastOnePage(reply: Attempt<HttpReply>)
    requires FetchExecutiveOrders(reply).Done?
    ensures Truthy(FetchExecutiveOrders(reply).value.totalPages)
  {
  }

  // ---------------------------------------------------------------------
  // Status

  /** The message V8 gives when `toLowerCase` is called on a non-string. */
  const NotesNotString := "data.disposition_notes.toLowerCase is not a function"

  /** The status the disposition notes give: none means `active`; otherwise
      a case-insensitive `revoked` wins over `superseded`. Truthy notes that
      are not a string make `toLowerCase` throw. */
  function NotesStatus(notes: Value): (r: Attempt<string>)
    ensures !Truthy(notes) ==> r == Done("active")
    ensures Truthy(notes) && !notes.Str? ==> r == Threw(TypeError(NotesNotString))
    ensures r.Done? ==> r.value in {"active", "revoked", "superseded"}
    ensures notes.Str? ==> (r == Done("revoked") <==> Contains(ToLower(notes.s), "revoked"))
    ensures notes.Str? ==> (r == Done("superseded")
                            <==> !Contains(ToLower(notes.s), "revoked") && Contains(ToLower(notes.s), "superseded"))
  {
    if !Truthy(notes) then Done("active")
    else if !notes.Str? then Threw(TypeError(NotesNotString))
    else
      var lower := ToLower(notes.s);
      if Contains(lower, "revoked") then Done("revoked")
      else if Contains(lower, "superseded") then Done("superseded")
      else Done("active")
  }

  lemma LowerOfUpper(s: string)
    ensures ToLower(ToUpper(s)) == ToLower(s)
  {
    assert forall i | 0 <= i < |s| :: LowerChar(UpperChar(s[i])) == LowerChar(s[i]);
  }

  /** The notes are read case-insensitively: upper-casing them changes nothing. */
  lemma StatusIgnoresCase(notes: string)
    ensures NotesStatus(Str(ToUpper(notes))) == NotesStatus(Str(notes))
  {
    LowerOfUpper(notes);
  }

  // ---------------------------------------------------------------------
  // Category

  /** A category and the keywords that select it. */
  datatype Group = Group(name: string, terms: seq<string>)

  const Uncategorized := "Uncategorized"

  /** The keyword groups, in the order they are tried. */
  const Groups: seq<Group> := [
    Group("Military & Defense", ["military", "defense", "veteran"]),
    Group("Economy", ["economy", "economic", "financial"]),
    Group("Healthcare", ["health", "medical", "healthcare"]),
    Group("Education", ["education", "school"]),
    Group("Environment", ["environment", "climate"])]

  /** `text` includes one of `terms`. */
  predicate Mentions(text: string, terms: seq<string>) {
    exists i | 0 <= i < |terms| :: Contains(text, terms[i])
  }

  /** The name of the first group `text` mentions, else `Uncategorized`: a
      table-driven reading of the category rule. */
  function FirstGroup(groups: seq<Group>, text: string): string
    decreases |groups|
  {
    if groups == [] then Uncategorized
    else if Mentions(text, groups[0].terms) then groups[0].name
    else FirstGroup(groups[1..], text)
  }

  /** The chain of `includes` tests over the lower-cased title and abstract. */
  function Category(text: string): (r: string)
    ensures r in {"Military & Defense", "Economy", "Healthcare", "Education", "Environment", Uncategorized}
  {
    if Contains(text, "military") || Contains(text, "defense") || Contains(text, "veteran") then "Military & Defense"
    else if Contains(text, "economy") || Contains(text, "economic") || Contains(text, "financial") then "Economy"
    else if Contains(text, "health") || Contains(text, "medical") || Contains(text, "healthcare") then "Healthcare"
    else if Contains(text, "education") || Contains(text, "school") then "Education"
    else if Contains(text, "environment") || Contains(text, "climate") then "Environment"
    else Uncategorized
  }

  lemma MentionsThree(text: string, a: string, b: string, c: string)
    ensures Mentions(text, [a, b, c]) <==> Contains(text, a) || Contains(text, b) || Contains(text, c)
  {
    var terms := [a, b, c];
    if Contains(text, a) { assert Contains(text, terms[0]); }
    if Contains(text, b) { assert Contains(text, terms[1]); }
    if Contains(text, c) { assert Contains(text, terms[2]); }
  }

  lemma MentionsTwo(text: string, a: string, b: string)
    ensures Mentions(text, [a, b]) <==> Contains(text, a) || Contains(text, b)
  {
    var terms := [a, b];
    if Contains(text, a) { assert Contains(text, terms[0]); }
    if Contains(text, b) { assert Contains(text, terms[1]); }
  }

  /** The `if`/`else if` chain is the first match over the group table. */
  lemma CategoryIsFirstMatch(text: string)
    ensures Category(text) == FirstGroup(Groups, text)
  {
    MentionsThree(text, "military", "defense", "veteran");
    MentionsThree(text, "economy", "economic", "financial");
    MentionsThree(text, "health", "medical", "healthcare");
    MentionsTwo(text, "education", "school");
    MentionsTwo(text, "environment", "climate");
    assert Groups[1..][1..][1..][1..][1..] == [];
  }

  /** A text is uncategorized exactly when it mentions no keyword of any group. */
  lemma UncategorizedIffNoKeyword(text: string)
    ensures Category(text) == Uncategorized <==> forall g | 0 <= g < |Groups| :: !Mentions(text, Groups[g].terms)
  {
    CategoryIsFirstMatch(text);
    assert Groups[1..][1..][1..][1..][1..] == [];
    if Category(text) != Uncategorized {
      var g :| 0 <= g < |Groups| && Groups[g].name == Category(text);
      assert Mentions(text, Groups[g].terms) by {
        MentionsThree(text, "military", "defense", "veteran");
        MentionsThree(text, "economy", "economic", "financial");
        MentionsThree(text, "health", "medical", "healthcare");
        MentionsTwo(text, "education", "school");
        MentionsTwo(text, "environment", "climate");
      }
    }
  }

  /** 'healthcare' never decides anything: 'health' is part of it. */
  lemma HealthcareTermRedundant(text: string)
    requires Contains(text, "healthcare")
    ensures Contains(text, "health")
  {
    var i :| 0 <= i <= |text| - 10 && OccursAt(text, "healthcare", i);
    assert text[i..i + 6] == text[i..i + 10][..6];
    ContainsAt(text, "health", i);
  }

  // ---------------------------------------------------------------------
  // transformFederalRegisterData

  /** `${data.title} ${data.abstract || ''}`, lower-cased. */
  function CategoryText(data: Value): string {
    ToLower(ToString(Get(data, "title")) + " " + ToString(OrElse(Get(data, "abstract"), Str(""))))
  }

  /** `data.key || fallback`, as the string the order holds. */
  function FieldOr(data: Value, key: string, fallback: string): (r: string)
    ensures Truthy(Get(data, key)) && Get(data, key).Str? ==> r == Get(data, key).s
    ensures !Truthy(Get(data, key)) ==> r == fallback
  {
    ToString(OrElse(Get(data, key), Str(fallback)))
  }

  /** An optional field copied as it is: absent and `null` are `None`. */
  function Optional(data: Value, key: string): (r: Option<string>)
    ensures Get(data, key).Str? ==> r == Some(Get(data, key).s)
    ensures Get(data, key).Undefined? || Get(data, key).Null? ==> r.None?
  {
    var v := Get(data, key);
    if v.Undefined? || v.Null? then None else Some(ToString(v))
  }

  /** `transformFederalRegisterData(data)`; `now` stands for
      `new Date().toISOString()`. */
  function Transform(data: Value, now: string): (r: Attempt<ExecutiveOrder>)
    ensures !(Truthy(data) && IsObjectType(data)) ==> r == Threw(Error("Invalid data format"))
    ensures r.Threw? <==> !(Truthy(data) && IsObjectType(data)) || NotesStatus(Get(data, "disposition_notes")).Threw?
    ensures r.Done? ==> (r.value.status == NotesStatus(Get(data, "disposition_notes")).value
              && r.value.category == Category(CategoryText(data))
              && r.value.docType == Some("PRESDOCU"))
    ensures r.Done? && !Truthy(Get(data, "document_number")) ==> r.value.id == ""
    ensures r.Done? && !Truthy(Get(data, "executive_order_number")) ==> r.value.number == "N/A"
    ensures r.Done? && !Truthy(Get(data, "title")) ==> r.value.title == "Untitled"
    ensures r.Done? && !Truthy(Get(data, "abstract")) ==> r.value.summary == "No summary available"
    ensures r.Done? && !Truthy(Get(data, "html_url")) ==> r.value.url == ""
    ensures r.Done? && !Truthy(Get(data, "signing_date")) && !Truthy(Get(data, "publication_date"))
            ==> r.value.date == now
    ensures r.Done? ==> && r.value.id == FieldOr(data, "document_number", "")
                        && r.value.number == FieldOr(data, "executive_order_number", "N/A")
                        && r.value.title == FieldOr(data, "title", "Untitled")
                        && r.value.summary == FieldOr(data, "abstract", "No summary available")
                        && r.value.url == FieldOr(data, "html_url", "")
    ensures r.Done? ==> r.value.date == ToString(OrElse(OrElse(Get(data, "signing_date"), Get(data, "publication_date")), Str(now)))
    ensures r.Done? && Truthy(Get(data, "signing_date")) && Get(data, "signing_date").Str?
            ==> r.value.date == Get(data, "signing_date").s
    ensures r.Done? && !Truthy(Get(data, "signing_date")) && Truthy(Get(data, "publication_date")) && Get(data, "publication_date").Str?
            ==> r.value.date == Get(data, "publication_date").s
    ensures r.Done? ==> && r.value.documentNumber == Optional(data, "document_number")
                        && r.value.pdfUrl == Optional(data, "pdf_url")
                        && r.value.htmlUrl == Optional(data, "html_url")
                        && r.value.signingDate == Optional(data, "signing_date")
                        && r.value.executiveOrderNumber == Optional(data, "executive_order_number")
  {
    if !(Truthy(data) && IsObjectType(data)) then Threw(Error("Invalid data format"))
    else match NotesStatus(Get(data, "disposition_notes"))
      case Threw(e) => Threw(e)
      case Done(status) =>
        Done(ExecutiveOrder(
          FieldOr(data, "document_number", ""),
          FieldOr(data, "executive_order_number", "N/A"),
          FieldOr(data, "title", "Untitled"),
          ToString(OrElse(OrElse(Get(data, "signing_date"), Get(data, "publication_date")), Str(now))),
          FieldOr(data, "abstract", "No summary available"),
          Category(CategoryText(data)),
          status,
          FieldOr(data, "html_url", ""),
          Optional(data, "document_number"),
          Optional(data, "pdf_url"),
          Optional(data, "html_url"),
          Some("PRESDOCU"),
          Optional(data, "signing_date"),
          Optional(data, "executive_order_number")))
  }

  /** Upper-casing the title and abstract leaves the category as it was. */
  lemma CategoryIgnoresCase(title: string, summary: string)
    ensures Category(ToLower(ToUpper(title) + " " + ToUpper(summary))) == Category(ToLower(title + " " + summary))
  {
    var a := ToUpper(title) + " " + ToUpper(summary);
    var b := title + " " + summary;
    assert ToLower(a) == ToLower(b) by {
      assert |a| == |b|;
      forall i | 0 <= i < |a| ensures LowerChar(a[i]) == LowerChar(b[i]) {
        if i < |title| {
          assert a[i] == UpperChar(title[i]) && b[i] == title[i];
        } else if i == |title| {
          assert a[i] == ' ' && b[i] == ' ';
        } else {
          assert a[i] == UpperChar(summary[i - |title| - 1]) && b[i] == summary[i - |title| - 1];
        }
      }
    }
  }

  /** A transformed order always has a number — the number itself, or 'N/A'
      — unless the Federal Register sent an array for it. */
  lemma TransformedNumberNonEmpty(data: Value, now: string)
    requires Transform(data, now).Done?
    requires !Get(data, "executive_order_number").Arr?
    ensures Transform(data, now).value.number != ""
  {
  }
}

=== FILE: js.dfy ===
/** The few JavaScript value semantics the application's decisions depend on:
    truthiness, `||` defaulting, `String(v)`, and what a `catch` block receives. */
module Js {
  import opened Wrappers

  /** A JavaScript value as parsed from a JSON body, as far as the modelled
      code distinguishes them. Numbers are modelled as integers. */
  datatype Value =
    | Undefined
    | Null
    | Bool(b: bool)
    | Num(n: int)
    | Str(s: string)
    | Arr(items: seq<Value>)
    | Obj(fields: map<string, Value>)

  /** `v.key` on a value that is not `null` or `undefined`, and `v?.key` on
      any value: an own field of an object, otherwise `undefined` (the
      modelled code reads no built-in property of arrays or primitives). */
  function Get(v: Value, key: string): (r: Value)
    ensures v.Obj? && key in v.fields ==> r == v.fields[key]
    ensures !(v.Obj? && key in v.fields) ==> r == Undefined
  {
    if v.Obj? && key in v.fields then v.fields[key] else Undefined
  }

  /** `v?.[i]`: an array element, an object's field named by the digits of
      `i`, a one-character string, otherwise `undefined`. */
  function Index(v: Value, i: nat): (r: Value)
    ensures v.Arr? && i < |v.items| ==> r == v.items[i]
    ensures v.Obj? ==> r == Get(v, NatToString(i))
    ensures v.Str? && i < |v.s| ==> r == Str([v.s[i]])
    ensures v.Undefined? || v.Null? || v.Bool? || v.Num? ==> r == Undefined
  {
    match v
    case Arr(items) => if i < |items| then items[i] else Undefined
    case Obj(_) => Get(v, NatToString(i))
    case Str(s) => if i < |s| then Str([s[i]]) else Undefined
    case _ => Undefined
  }

  /** `typeof v === 'object'` (which includes `null` and arrays). */
  predicate IsObjectType(v: Value) {
    v.Null? || v.Arr? || v.Obj?
  }

  /** JavaScript truthiness (`!!v`). */
  predicate Truthy(v: Value) {
    match v
    case Undefined => false
    case Null => false
    case Bool(b) => b
    case Num(n) => n != 0
    case Str(s) => s != ""
    case Arr(_) => true
    case Obj(_) => true
  }

  /** `a || b`: the first operand when it is truthy, the second otherwise. */
  function OrElse(a: Value, b: Value): (r: Value)
    ensures Truthy(a) ==> r == a
    ensures !Truthy(a) ==> r == b
    ensures Truthy(r) <==> Truthy(a) || Truthy(b)
  {
    if Truthy(a) then a else b
  }

  /** An optional string field read with a default: `field || fallback`.
      A missing field and the empty string are both falsy. */
  function StrOr(field: Option<string>, fallback: string): (r: string)
    ensures field.Some? && field.value != "" ==> r == field.value
    ensures field.None? || field.value == "" ==> r == fallback
  {
    if field.Some? && field.value != "" then field.value else fallback
  }

  /** Whether an optional string field is truthy. */
  predicate StrTruthy(field: Option<string>) {
    field.Some? && field.value != ""
  }

  /** `s.length`: the number of UTF-16 code units, so a character beyond
      U+FFFF (a surrogate pair) counts twice. */
  function Utf16Length(s: string): (n: nat)
    ensures |s| <= n <= 2 * |s|
    ensures n == |s| <==> forall i | 0 <= i < |s| :: s[i] as int <= 0xFFFF
    ensures n == 2 * |s| <==> forall i | 0 <= i < |s| :: s[i] as int > 0xFFFF
  {
    if s == [] then 0
    else (if s[0] as int > 0xFFFF then 2 else 1) + Utf16Length(s[1..])
  }

  /** `Math.pow(2, n)` for a natural exponent. */
  function Pow2(n: nat): (r: nat)
    ensures r >= 1
  {
    if n == 0 then 1 else 2 * Pow2(n - 1)
  }

  /** Decimal digits of a natural number, as `String(n)` prints it. */
  function NatToString(n: nat): (r: string)
    ensures |r| > 0
    ensures forall i :: 0 <= i < |r| ==> '0' <= r[i] <= '9'
    decreases n
  {
    var d := (('0' as int) + n % 10) as char;
    if n < 10 then [d] else NatToString(n / 10) + [d]
  }

  /** `String(i)` for an integer. */
  function IntToString(i: int): (r: string)
    ensures |r| > 0
  {
    if i < 0 then "-" + NatToString(-i) else NatToString(i)
  }

  /** Strings joined with a separator, as `Array.prototype.join` does. */
  function Join(parts: seq<string>, sep: string): (r: string)
    ensures parts == [] ==> r == ""
    ensures |parts| == 1 ==> r == parts[0]
  {
    if parts == [] then "" else if |parts| == 1 then parts[0] else parts[0] + sep + Join(parts[1..], sep)
  }

  /** `String(v)`. An array prints its elements joined by commas, with
      `null` and `undefined` elements printed empty. */
  function ToString(v: Value): (r: string)
    ensures v.Obj? ==> r == "[object Object]"
    ensures v.Str? ==> r == v.s
    ensures v.Arr? && v.items == [] ==> r == ""
  {
    match v
    case Undefined => "undefined"
    case Null => "null"
    case Bool(b) => if b then "true" else "false"
    case Num(n) => IntToString(n)
    case Str(s) => s
    case Arr(items) =>
      Join(seq(|items|, i requires 0 <= i < |items| =>
        if items[i].Undefined? || items[i].Null? then "" else ToString(items[i])), ",")
    case Obj(_) => "[object Object]"
  }

  /** The message `new Error(v)` carries: `undefined` gives the empty
      message, anything else its `String(v)`. */
  function ErrorMessage(v: Value): (r: string)
    ensures v.Undefined? ==> r == ""
    ensures v.Str? ==> r == v.s
  {
    if v.Undefined? then "" else ToString(v)
  }

  /** How an awaited call ended: with a value, or by throwing. */
  datatype Attempt<+T> = Done(value: T) | Threw(error: Thrown)

  /** `xs.map(f)` where `f` may throw: the first element that throws ends
      the map with its error. */
  function MapAll<A, B>(f: A -> Attempt<B>, xs: seq<A>): (r: Attempt<seq<B>>)
    ensures r.Done? <==> forall i | 0 <= i < |xs| :: f(xs[i]).Done?
    ensures r.Done? ==> |r.value| == |xs| && forall i | 0 <= i < |xs| :: r.value[i] == f(xs[i]).value
    ensures r.Threw? ==> exists i | 0 <= i < |xs| :: f(xs[i]).Threw? && r.error == f(xs[i]).error
                                                     && forall j | 0 <= j < i :: f(xs[j]).Done?
  {
    if xs == [] then Done([])
    else match f(xs[0])
      case Threw(e) => Threw(e)
      case Done(y) =>
        match MapAll(f, xs[1..])
        case Threw(e) =>
          var i :| 0 <= i < |xs[1..]| && f(xs[1..][i]).Threw? && e == f(xs[1..][i]).error
                   && forall j | 0 <= j < i :: f(xs[1..][j]).Done?;
          assert f(xs[i + 1]).Threw? && e == f(xs[i + 1]).error;
          assert forall j | 0 <= j < i + 1 :: f(xs[j]).Done? by {
            forall j | 0 <= j < i + 1 ensures f(xs[j]).Done? {
              if j > 0 { assert xs[j] == xs[1..][j - 1]; }
            }
          }
          Threw(e)
        case Done(ys) => Done([y] + ys)
  }

  /** What a `catch` block receives: an `Error` (a `TypeError` kept apart, since
      some handlers test for it), or a value that is not an `Error` at all. */
  datatype Thrown = Error(message: string) | TypeError(message: string) | NonError {

    /** `e instanceof Error` (a `TypeError` is an `Error`). */
    predicate IsError() {
      !NonError?
    }

    /** `e instanceof Error ? e.message : fallback`. */
    function MessageOr(fallback: string): (r: string)
      ensures IsError() ==> r == message
      ensures !IsError() ==> r == fallback
    {
      if NonError? then fallback else message
    }
  }
}

=== FILE: order_list.dfy ===
/** The order list of the main screen (`App.tsx`): search filtering, paging,
    the database-row transform, and the page reset when the query changes. */
module OrderList {
  import opened Wrappers
  import opened Js
  import opened Text
  import opened Orders

  /** `ITEMS_PER_PAGE`. */
  const ItemsPerPage: nat := 10

  /** The order matches a (non-blank) query: its lower-cased title, number or
      summary includes the lower-cased query. */
  predicate Matches(o: ExecutiveOrder, query: string) {
    var q := ToLower(query);
    Contains(ToLower(o.title), q) || Contains(ToLower(o.number), q) || Contains(ToLower(o.summary), q)
  }

  /** `a` is `b` with some elements left out, order kept. */
  predicate IsSubsequence<T(==)>(a: seq<T>, b: seq<T>)
    decreases |b|
  {
    a == [] || (|b| > 0 && ((a[0] == b[0] && IsSubsequence(a[1..], b[1..])) || IsSubsequence(a, b[1..])))
  }

  /** `orders.filter(order => Matches(order, query))`. */
  function KeepMatching(orders: seq<ExecutiveOrder>, query: string): (r: seq<ExecutiveOrder>)
    ensures IsSubsequence(r, orders)
    ensures forall o :: o in r <==> o in orders && Matches(o, query)
    ensures forall o :: multiset(r)[o] == (if Matches(o, query) then multiset(orders)[o] else 0)
  {
    if orders == [] then []
    else
      assert orders == [orders[0]] + orders[1..];
      if Matches(orders[0], query) then [orders[0]] + KeepMatching(orders[1..], query)
      else KeepMatching(orders[1..], query)
  }

  /** `filteredOrders`: all orders when the query is blank after trimming,
      otherwise the matching ones (the untrimmed query is matched). */
  function FilterOrders(orders: seq<ExecutiveOrder>, query: string): (r: seq<ExecutiveOrder>)
    ensures Blank(query) ==> r == orders
    ensures !Blank(query) ==> forall o :: o in r <==> o in orders && Matches(o, query)
    ensures !Blank(query) ==> forall o :: multiset(r)[o] == (if Matches(o, query) then multiset(orders)[o] else 0)
    ensures IsSubsequence(r, orders)
  {
    if Trim(query) == "" then
      SubsequenceOfSelf(orders);
      orders
    else KeepMatching(orders, query)
  }

  lemma {:induction false} SubsequenceOfSelf<T>(a: seq<T>)
    ensures IsSubsequence(a, a)
  {
    if a != [] {
      SubsequenceOfSelf(a[1..]);
    }
  }

  /** A non-blank query is not trimmed: a leading space stops an order from
      matching even though the trimmed query would match it. */
  lemma QueryMatchedUntrimmed()
    ensures var o := ExecutiveOrder("1", "14000", "Tariffs", "", "Tariffs", "Economy", "active", "",
                                    None, None, None, None, None, None);
      FilterOrders([o], "tariffs") == [o] && FilterOrders([o], " tariffs") == []
  {
    var o := ExecutiveOrder("1", "14000", "Tariffs", "", "Tariffs", "Economy", "active", "",
                            None, None, None, None, None, None);
    LowerTariffs();
    assert OccursAt(ToLower(o.title), ToLower("tariffs"), 0);
    assert Matches(o, "tariffs");
    assert !Blank("tariffs") by { assert !IsSpace("tariffs"[0]); }
    assert !Blank(" tariffs") by { assert !IsSpace(" tariffs"[1]); }
    assert |ToLower(" tariffs")| > |ToLower(o.title)| && |ToLower(" tariffs")| > |ToLower(o.number)|;
    assert !Matches(o, " tariffs");
  }

  lemma LowerTariffs()
    ensures ToLower("Tariffs") == "tariffs" && ToLower("tariffs") == "tariffs"
  {
    assert LowerChar('T') == 't';
  }

  /** `totalPages = Math.ceil(filtered.length / ITEMS_PER_PAGE)`. */
  function TotalPages(count: nat): (r: nat)
    ensures r * ItemsPerPage >= count
    ensures r > 0 ==> (r - 1) * ItemsPerPage < count
    ensures r == 0 <==> count == 0
  {
    (count + ItemsPerPage - 1) / ItemsPerPage
  }

  /** `Array.prototype.slice(start, end)`: negative positions count from the
      end, and both positions are clamped to the array. */
  function JsSlice<T>(s: seq<T>, start: int, end: int): (r: seq<T>)
    ensures 0 <= start <= end <= |s| ==> r == s[start..end]
    ensures |r| <= |s|
  {
    var len := |s|;
    var from := if start < 0 then (if len + start < 0 then 0 else len + start)
                else (if start > len then len else start);
    var to := if end < 0 then (if len + end < 0 then 0 else len + end)
              else (if end > len then len else end);
    if from >= to then [] else s[from..to]
  }

  function Min(a: int, b: int): int {
    if a <= b then a else b
  }

  /** `paginatedOrders`: the `page`-th run of ten orders. */
  function PageOf<T>(filtered: seq<T>, page: int): (r: seq<T>)
    ensures page >= 1 ==> r == filtered[Min((page - 1) * ItemsPerPage, |filtered|)..Min(page * ItemsPerPage, |filtered|)]
    ensures page >= 1 ==> |r| <= ItemsPerPage
  {
    var start := (page - 1) * ItemsPerPage;
    JsSlice(filtered, start, start + ItemsPerPage)
  }

  /** Pages `1..k` laid end to end. */
  function PagesUpTo<T>(filtered: seq<T>, k: nat): seq<T> {
    if k == 0 then [] else PagesUpTo(filtered, k - 1) + PageOf(filtered, k)
  }

  lemma {:induction false} PagesUpToPrefix<T>(filtered: seq<T>, k: nat)
    ensures PagesUpTo(filtered, k) == filtered[..Min(k * ItemsPerPage, |filtered|)]
  {
    if k > 0 {
      PagesUpToPrefix(filtered, k - 1);
      var a := Min((k - 1) * ItemsPerPage, |filtered|);
      var b := Min(k * ItemsPerPage, |filtered|);
      assert a <= b;
      assert PagesUpTo(filtered, k) == filtered[..a] + PageOf(filtered, k);
      assert PageOf(filtered, k) == filtered[a..b];
      assert filtered[..a] + filtered[a..b] == filtered[..b];
    }
  }

  /** Concatenating pages `1..totalPages` gives back the filtered list: every
      filtered order is on exactly one page, in order. */
  lemma PagesCoverFiltered<T>(filtered: seq<T>)
    ensures PagesUpTo(filtered, TotalPages(|filtered|)) == filtered
  {
    PagesUpToPrefix(filtered, TotalPages(|filtered|));
  }

  /** A row of the `executive_orders` table, as `select('*')` returns it. */
  datatype DbOrderRow = DbOrderRow(
    id: string,
    number: string,
    title: string,
    signingDate: Option<string>,
    publicationDate: Option<string>,
    summary: Option<string>,
    category: Option<string>,
    status: DbStatus,
    whitehouseUrl: Option<string>,
    federalRegisterUrl: Option<string>,
    federalRegisterId: Option<string>,
    pdfUrl: Option<string>)

  /** The list view's status for a database status: `verified` is shown as
      `active`, every other status passes through unchanged. */
  function ViewStatus(s: DbStatus): (r: string)
    ensures r != "verified"
    ensures s != Verified ==> r == DbStatusName(s)
    ensures r == "active" <==> s == Verified
  {
    if s == Verified then "active" else DbStatusName(s)
  }

  /** The transform in `loadExecutiveOrders`; `now` stands for
      `new Date().toISOString()`. */
  function FromDbRow(row: DbOrderRow, now: string): (o: ExecutiveOrder)
    ensures o.summary != "" && o.category != ""
    ensures StrTruthy(row.summary) ==> o.summary == row.summary.value
    ensures !StrTruthy(row.summary) ==> o.summary == "No summary available"
    ensures !StrTruthy(row.category) ==> o.category == "Uncategorized"
    ensures o.status != "verified"
    ensures o.url == "" <==> !StrTruthy(row.whitehouseUrl) && !StrTruthy(row.federalRegisterUrl)
    ensures StrTruthy(row.whitehouseUrl) ==> o.url == row.whitehouseUrl.value
    ensures !StrTruthy(row.whitehouseUrl) && StrTruthy(row.federalRegisterUrl) ==> o.url == row.federalRegisterUrl.value
    ensures o.id == row.id && o.number == row.number && o.title == row.title
  {
    ExecutiveOrder(
      row.id, row.number, row.title,
      StrOr(row.signingDate, StrOr(row.publicationDate, now)),
      StrOr(row.summary, "No summary available"),
      StrOr(row.category, "Uncategorized"),
      ViewStatus(row.status),
      StrOr(row.whitehouseUrl, StrOr(row.federalRegisterUrl, "")),
      row.federalRegisterId, row.pdfUrl, None, None, None, None)
  }

  /** The search query and current page of the list. */
  datatype ListView = ListView(query: string, page: int)

  /** Typing a query: the effect on `searchQuery` sends the list back to page 1
      whenever the query actually changes. */
  function SetQuery(v: ListView, query: string): (r: ListView)
    ensures r.query == query
    ensures query != v.query ==> r.page == 1
    ensures query == v.query ==> r == v
  {
    if query == v.query then v else ListView(query, 1)
  }

  /** The orders on screen. */
  function Shown(orders: seq<ExecutiveOrder>, v: ListView): seq<ExecutiveOrder> {
    PageOf(FilterOrders(orders, v.query), v.page)
  }

  /** After a new query the screen shows the first (at most ten) matches. */
  lemma NewQueryShowsFirstPage(orders: seq<ExecutiveOrder>, v: ListView, query: string)
    requires query != v.query
    ensures var f := FilterOrders(orders, query);
      Shown(orders, SetQuery(v, query)) == f[..Min(ItemsPerPage, |f|)]
  {
  }
}

=== FILE: order_sync.dfy ===
/** Order synchronisation (`src/services/orderSync.ts`): transform the
    Federal Register results, attach the White House match of each, update
    or insert every numbered order, then insert the White House entries that
    have no Federal Register match yet, counting successes and errors.
    Every database lookup and write is a parameter. */
module OrderSync {
  import opened Wrappers
  import opened Js
  import opened Text
  import opened Orders
  import opened OrderList
  import opened FederalRegister

  // ---------------------------------------------------------------------
  // mapStatusToVerificationStatus

  /** The database status for an order's status. */
  function MapStatus(apiStatus: string): (r: DbStatus)
    ensures apiStatus == "active" ==> r == Verified
    ensures apiStatus == "superseded" ==> r == Superseded
    ensures apiStatus == "revoked" ==> r == Revoked
    ensures apiStatus !in {"active", "superseded", "revoked"} ==> r == Pending
  {
    match apiStatus
    case "active" => Verified
    case "superseded" => Superseded
    case "revoked" => Revoked
    case _ => Pending
  }

  /** Writing a status and reading it back through the list view gives the
      same status exactly for the four the two mappings share. */
  lemma StatusRoundTrip(s: string)
    ensures ViewStatus(MapStatus(s)) == s <==> s in {"active", "superseded", "revoked", "pending"}
  {
  }

  /** The other way round the mapping is the identity on every database status. */
  lemma ViewThenMapIsIdentity(d: DbStatus)
    ensures MapStatus(ViewStatus(d)) == d
  {
  }

  // ---------------------------------------------------------------------
  // Rows

  /** A row of `title_matches`. */
  datatype TitleMatch = TitleMatch(whTitle: string, whDate: string, whUrl: string, frId: Option<string>)

  /** The object written to `executive_orders`; `None` is `null` or a
      column the write leaves out. */
  datatype OrderData = OrderData(
    number: string,
    title: string,
    frId: Option<string>,
    frUrl: Option<string>,
    signingDate: Option<string>,
    publicationDate: Option<string>,
    pdfUrl: Option<string>,
    summary: string,
    category: Option<string>,
    status: DbStatus,
    whTitle: Option<string>,
    whDate: Option<string>,
    whUrl: Option<string>)

  /** A write: an update of the row found, or an insert. */
  datatype Write = Update(data: OrderData) | Insert(data: OrderData)

  /** `whMatches?.find(match => match.federal_register_id === order.document_number)`:
      an order without a document number matches nothing, since `null`
      is not `undefined`. */
  function FindMatch(matches: seq<TitleMatch>, documentNumber: Option<string>): (r: Option<TitleMatch>)
    ensures r.Some? ==> r.value in matches && documentNumber.Some? && r.value.frId == documentNumber
    ensures r.None? <==> documentNumber.None? || forall i | 0 <= i < |matches| :: matches[i].frId != documentNumber
  {
    if documentNumber.None? || matches == [] then None
    else if matches[0].frId == documentNumber then Some(matches[0])
    else FindMatch(matches[1..], documentNumber)
  }

  /** The match found is the first one with that id. */
  lemma {:induction false} FindMatchIsFirst(matches: seq<TitleMatch>, documentNumber: Option<string>)
    requires FindMatch(matches, documentNumber).Some?
    ensures exists i | 0 <= i < |matches| :: matches[i] == FindMatch(matches, documentNumber).value
              && forall j | 0 <= j < i :: matches[j].frId != documentNumber
    decreases |matches|
  {
    var r := FindMatch(matches, documentNumber);
    if matches[0].frId == documentNumber {
      assert matches[0] == r.value;
    } else {
      FindMatchIsFirst(matches[1..], documentNumber);
      var i :| 0 <= i < |matches[1..]| && matches[1..][i] == r.value
               && forall j | 0 <= j < i :: matches[1..][j].frId != documentNumber;
      assert matches[i + 1] == r.value;
      forall j | 0 <= j < i + 1 ensures matches[j].frId != documentNumber {
        if j > 0 { assert matches[j] == matches[1..][j - 1]; }
      }
    }
  }

  /** `x?.field || null` for a match's text field. */
  function TextOf(hit: Option<TitleMatch>, field: TitleMatch -> string): (r: Option<string>)
    ensures r.Some? <==> hit.Some? && field(hit.value) != ""
    ensures r.Some? ==> r.value == field(hit.value)
  {
    if hit.Some? && field(hit.value) != "" then Some(field(hit.value)) else None
  }

  function WhTitle(m: TitleMatch): string { m.whTitle }
  function WhDate(m: TitleMatch): string { m.whDate }
  function WhUrl(m: TitleMatch): string { m.whUrl }

  /** The row written for a Federal Register order. */
  function OrderDataOf(o: ExecutiveOrder, hit: Option<TitleMatch>): (r: OrderData)
    ensures r.number == o.number && r.title == o.title && r.summary == o.summary
    ensures r.status == MapStatus(o.status)
    ensures StrTruthy(o.signingDate) ==> r.signingDate == o.signingDate
    ensures !StrTruthy(o.signingDate) ==> r.signingDate == Some(o.date)
    ensures hit.None? ==> r.whTitle.None? && r.whDate.None? && r.whUrl.None?
    ensures hit.Some? && hit.value.whUrl != "" ==> r.whUrl == Some(hit.value.whUrl)
  {
    OrderData(
      o.number, o.title, o.documentNumber, o.htmlUrl,
      Some(StrOr(o.signingDate, o.date)), Some(o.date), o.pdfUrl, o.summary, Some(o.category),
      MapStatus(o.status),
      TextOf(hit, WhTitle), TextOf(hit, WhDate), TextOf(hit, WhUrl))
  }

  /** The row inserted for a White House entry without a Federal Register
      match; `stamp` stands for `Date.now()`. */
  function PendingData(m: TitleMatch, stamp: int): (r: OrderData)
    ensures r.status == Pending && StartsWith(r.number, "PENDING-")
    ensures r.whUrl == Some(m.whUrl) && r.title == m.whTitle && r.frId.None?
    ensures r.summary == "Pending Federal Register match"
  {
    OrderData(
      "PENDING-" + IntToString(stamp), m.whTitle, None, None, Some(m.whDate), None, None,
      "Pending Federal Register match", None, Pending, Some(m.whTitle), Some(m.whDate), Some(m.whUrl))
  }

  // ---------------------------------------------------------------------
  // Counting

  /** The successes, the errors and the writes attempted, in order. */
  datatype Tally = Tally(success: nat, errors: nat, writes: seq<Write>)

  /** The number of writes that fail. */
  function Failures(writes: seq<Write>, fails: Write -> bool): (n: nat)
    ensures n <= |writes|
  {
    if writes == [] then 0 else (if fails(writes[0]) then 1 else 0) + Failures(writes[1..], fails)
  }

  /** The number of orders with a number. */
  function Numbered(orders: seq<ExecutiveOrder>): (n: nat)
    ensures n <= |orders|
  {
    if orders == [] then 0 else (if orders[0].number != "" then 1 else 0) + Numbered(orders[1..])
  }

  /** The orders with a number, in their order: the ones the first loop writes. */
  function NumberedOrders(orders: seq<ExecutiveOrder>): (r: seq<ExecutiveOrder>)
    ensures |r| == Numbered(orders)
    ensures forall i | 0 <= i < |r| :: r[i].number != ""
  {
    if orders == [] then []
    else (if orders[0].number != "" then [orders[0]] else []) + NumberedOrders(orders[1..])
  }

  /** An order is among the numbered ones exactly when it is fetched and has
      a number. */
  lemma {:induction false} NumberedOrdersMembers(orders: seq<ExecutiveOrder>, o: ExecutiveOrder)
    ensures o in NumberedOrders(orders) <==> o in orders && o.number != ""
    decreases |orders|
  {
    if orders != [] {
      NumberedOrdersMembers(orders[1..], o);
      assert o in orders <==> o == orders[0] || o in orders[1..];
    }
  }

  /** The row the first loop writes for an order: its data with its White
      House match. */
  function RowOf(o: ExecutiveOrder, matches: seq<TitleMatch>): OrderData {
    OrderDataOf(o, FindMatch(matches, o.documentNumber))
  }

  /** The first loop: orders without a number are skipped; each other order
      is looked up, updated when the lookup returned a row and inserted
      otherwise, and counted by whether `fails` says its write failed. The
      lookup reads the live table, rows this loop wrote earlier included, so
      `found(k)` is taken as the answer to the `k`-th lookup; `k` is the
      number of lookups made before `orders`. */
  /** The write for the `k`-th lookup: an update of the order's row when
      the lookup found one, an insert otherwise. */
  function FederalWrite(o: ExecutiveOrder, matches: seq<TitleMatch>, found: nat -> bool, k: nat): (w: Write)
    ensures w.data == RowOf(o, matches) && (w.Update? <==> found(k))
  {
    if found(k) then Update(RowOf(o, matches)) else Insert(RowOf(o, matches))
  }

  function SyncFederal(orders: seq<ExecutiveOrder>, matches: seq<TitleMatch>,
                       found: nat -> bool, fails: Write -> bool, k: nat): (r: Tally)
    ensures |r.writes| == Numbered(orders) && r.success + r.errors == |r.writes|
    ensures r.errors == Failures(r.writes, fails)
    decreases |orders|
  {
    if orders == [] then Tally(0, 0, [])
    else
      var o := orders[0];
      if o.number == "" then SyncFederal(orders[1..], matches, found, fails, k)
      else
        var rest := SyncFederal(orders[1..], matches, found, fails, k + 1);
        var w := FederalWrite(o, matches, found, k);
        var writes := [w] + rest.writes;
        assert writes[1..] == rest.writes;
        if fails(w) then Tally(rest.success, rest.errors + 1, writes)
        else Tally(rest.success + 1, rest.errors, writes)
  }

  /** One order of the first loop: skipped without a number, written first
      otherwise. */
  lemma FederalStep(orders: seq<ExecutiveOrder>, matches: seq<TitleMatch>,
                    found: nat -> bool, fails: Write -> bool, k: nat)
    requires orders != []
    ensures orders[0].number == "" ==>
              SyncFederal(orders, matches, found, fails, k).writes == SyncFederal(orders[1..], matches, found, fails, k).writes
              && NumberedOrders(orders) == NumberedOrders(orders[1..])
    ensures orders[0].number != "" ==>
              SyncFederal(orders, matches, found, fails, k).writes
                == [FederalWrite(orders[0], matches, found, k)] + SyncFederal(orders[1..], matches, found, fails, k + 1).writes
              && NumberedOrders(orders) == [orders[0]] + NumberedOrders(orders[1..])
  {
  }

  /** `ws` are the writes for the orders `ns`, looked up from the `k`-th
      lookup on. */
  predicate Follows(ws: seq<Write>, ns: seq<ExecutiveOrder>, matches: seq<TitleMatch>, found: nat -> bool, k: nat) {
    |ws| == |ns| && forall i: nat | i < |ws| :: ws[i] == FederalWrite(ns[i], matches, found, k + i)
  }

  /** Writing order `o` at lookup `k` before the writes that follow from
      lookup `k + 1` keeps them following. */
  lemma FollowsCons(ws: seq<Write>, ns: seq<ExecutiveOrder>, o: ExecutiveOrder,
                    matches: seq<TitleMatch>, found: nat -> bool, k: nat)
    requires Follows(ws, ns, matches, found, k + 1)
    ensures Follows([FederalWrite(o, matches, found, k)] + ws, [o] + ns, matches, found, k)
  {
    var ws' := [FederalWrite(o, matches, found, k)] + ws;
    forall i: nat | 0 < i < |ws'| ensures ws'[i] == FederalWrite(([o] + ns)[i], matches, found, k + i) {
      assert ws'[i] == ws[i - 1] && ([o] + ns)[i] == ns[i - 1];
    }
  }

  /** The `i`-th write of the first loop is the row of the `i`-th numbered
      order, an update exactly when the `i`-th lookup found a row. */
  lemma {:induction false} FederalWrites(orders: seq<ExecutiveOrder>, matches: seq<TitleMatch>,
                                         found: nat -> bool, fails: Write -> bool, k: nat)
    ensures Follows(SyncFederal(orders, matches, found, fails, k).writes, NumberedOrders(orders), matches, found, k)
    decreases |orders|
  {
    if orders != [] {
      FederalStep(orders, matches, found, fails, k);
      if orders[0].number == "" {
        FederalWrites(orders[1..], matches, found, fails, k);
      } else {
        FederalWrites(orders[1..], matches, found, fails, k + 1);
        FollowsCons(SyncFederal(orders[1..], matches, found, fails, k + 1).writes, NumberedOrders(orders[1..]),
                    orders[0], matches, found, k);
      }
    }
  }

  /** `w` writes the row of one of the numbered `orders`, with that order's
      White House match. */
  predicate FromOrder(w: Write, orders: seq<ExecutiveOrder>, matches: seq<TitleMatch>) {
    exists o | o in orders :: o.number != "" && w.data == RowOf(o, matches)
  }

  /** Every row the first loop writes is a numbered order's row. */
  lemma FederalWritesFromOrders(orders: seq<ExecutiveOrder>, matches: seq<TitleMatch>,
                                found: nat -> bool, fails: Write -> bool)
    ensures forall i | 0 <= i < |SyncFederal(orders, matches, found, fails, 0).writes| ::
      FromOrder(SyncFederal(orders, matches, found, fails, 0).writes[i], orders, matches)
  {
    var ws := SyncFederal(orders, matches, found, fails, 0).writes;
    FederalWrites(orders, matches, found, fails, 0);
    forall i | 0 <= i < |ws| ensures FromOrder(ws[i], orders, matches) {
      var o := NumberedOrders(orders)[i];
      NumberedOrdersMembers(orders, o);
    }
  }

  /** The pending insert for White House entry `e`, stamped with the clock
      at that entry. */
  function PendingWrite(matches: seq<TitleMatch>, stamp: nat -> int, e: nat): Write
    requires e < |matches|
  {
    Insert(PendingData(matches[e], stamp(e)))
  }

  /** Entry `e` has no Federal Register id and the White House URL `u`. */
  predicate Unlinked(matches: seq<TitleMatch>, e: nat, u: string)
    requires e < |matches|
  {
    !StrTruthy(matches[e].frId) && matches[e].whUrl == u
  }

  /** The rows holding White House URL `u`: those there when the second loop
      started, plus the ones it has inserted. */
  function RowsWith(whRows: string -> nat, inserted: seq<string>, u: string): nat {
    whRows(u) + multiset(inserted)[u]
  }

  /** The second loop's successes and errors, the entries it inserted a
      pending row for, and those inserts. */
  datatype Pass = Pass(success: nat, errors: nat, entries: seq<nat>, writes: seq<Write>)

  /** The second loop from entry `j` on. An entry without a Federal Register
      id is inserted as pending unless the lookup by its URL returns a row,
      which `maybeSingle` does exactly when one row holds that URL (with
      more it errs, and the error is ignored). `whRows(u)` is the number of
      `executive_orders` rows with URL `u` when the loop starts, `inserted`
      the URLs it has inserted since, and `stamp(e)` the clock at entry `e`. */
  function SyncWhiteHouse(matches: seq<TitleMatch>, whRows: string -> nat, fails: Write -> bool,
                          stamp: nat -> int, j: nat, inserted: seq<string>): (r: Pass)
    ensures |r.writes| == |r.entries| && r.success + r.errors == |r.writes|
    ensures r.errors == Failures(r.writes, fails)
    ensures j <= |matches| ==> |r.entries| <= |matches| - j
    decreases |matches| - j
  {
    if j >= |matches| then Pass(0, 0, [], [])
    else
      var m := matches[j];
      if StrTruthy(m.frId) || RowsWith(whRows, inserted, m.whUrl) == 1 then
        SyncWhiteHouse(matches, whRows, fails, stamp, j + 1, inserted)
      else
        var w := PendingWrite(matches, stamp, j);
        var rest := SyncWhiteHouse(matches, whRows, fails, stamp, j + 1, if fails(w) then inserted else inserted + [m.whUrl]);
        var writes := [w] + rest.writes;
        assert writes[1..] == rest.writes;
        if fails(w) then Pass(rest.success, rest.errors + 1, [j] + rest.entries, writes)
        else Pass(rest.success + 1, rest.errors, [j] + rest.entries, writes)
  }

  /** Entry `j` of the second loop: skipped, or inserted before the entries
      that follow, with `inserted` grown when the insert succeeds. */
  lemma WhiteStep(matches: seq<TitleMatch>, whRows: string -> nat, fails: Write -> bool,
                  stamp: nat -> int, j: nat, inserted: seq<string>)
    requires j < |matches|
    ensures var m := matches[j];
            var inserts := !StrTruthy(m.frId) && RowsWith(whRows, inserted, m.whUrl) != 1;
            var w := PendingWrite(matches, stamp, j);
            var next := if inserts && !fails(w) then inserted + [m.whUrl] else inserted;
            var r := SyncWhiteHouse(matches, whRows, fails, stamp, j, inserted);
            var rest := SyncWhiteHouse(matches, whRows, fails, stamp, j + 1, next);
            r.entries == (if inserts then [j] + rest.entries else rest.entries)
            && r.writes == (if inserts then [w] + rest.writes else rest.writes)
  {
  }

  /** `s` is strictly increasing. */
  predicate Increasing(s: seq<nat>) {
    forall k1, k2 | 0 <= k1 < k2 < |s| :: s[k1] < s[k2]
  }

  /** A strictly increasing sequence above `j` stays so with `j` in front. */
  lemma IncreasingCons(s: seq<nat>, j: nat)
    requires Increasing(s) && forall k | 0 <= k < |s| :: j < s[k]
    ensures Increasing([j] + s)
  {
    var t := [j] + s;
    forall k1, k2 | 0 <= k1 < k2 < |t| ensures t[k1] < t[k2] {
      assert t[k2] == s[k2 - 1];
      if k1 > 0 { assert t[k1] == s[k1 - 1]; }
    }
  }

  /** `entries` are entries of `matches` from `j` on, and `writes` their
      pending inserts. */
  predicate PendsFrom(entries: seq<nat>, writes: seq<Write>, matches: seq<TitleMatch>, stamp: nat -> int, j: nat) {
    |entries| == |writes|
    && forall k | 0 <= k < |entries| :: j <= entries[k] < |matches| && writes[k] == PendingWrite(matches, stamp, entries[k])
  }

  /** Prepending entry `j` to entries from `j + 1` on keeps them pending
      inserts from `j` on. */
  lemma PendsCons(entries: seq<nat>, writes: seq<Write>, matches: seq<TitleMatch>, stamp: nat -> int, j: nat)
    requires j < |matches| && PendsFrom(entries, writes, matches, stamp, j + 1)
    ensures PendsFrom([j] + entries, [PendingWrite(matches, stamp, j)] + writes, matches, stamp, j)
  {
    var es := [j] + entries;
    var ws := [PendingWrite(matches, stamp, j)] + writes;
    forall k | 0 < k < |es| ensures j <= es[k] < |matches| && ws[k] == PendingWrite(matches, stamp, es[k]) {
      assert es[k] == entries[k - 1] && ws[k] == writes[k - 1];
    }
  }

  /** The second loop inserts for increasing entries from `j` on, and each of
      its writes is the pending insert of its entry. */
  lemma {:induction false} WhiteWrites(matches: seq<TitleMatch>, whRows: string -> nat, fails: Write -> bool,
                                       stamp: nat -> int, j: nat, inserted: seq<string>)
    ensures var r := SyncWhiteHouse(matches, whRows, fails, stamp, j, inserted);
            PendsFrom(r.entries, r.writes, matches, stamp, j) && Increasing(r.entries)
    decreases |matches| - j
  {
    if j < |matches| {
      WhiteStep(matches, whRows, fails, stamp, j, inserted);
      var m := matches[j];
      var inserts := !StrTruthy(m.frId) && RowsWith(whRows, inserted, m.whUrl) != 1;
      var next := if inserts && !fails(PendingWrite(matches, stamp, j)) then inserted + [m.whUrl] else inserted;
      WhiteWrites(matches, whRows, fails, stamp, j + 1, next);
      var rest := SyncWhiteHouse(matches, whRows, fails, stamp, j + 1, next);
      if inserts {
        PendsCons(rest.entries, rest.writes, matches, stamp, j);
        IncreasingCons(rest.entries, j);
      } else {
        var r := SyncWhiteHouse(matches, whRows, fails, stamp, j, inserted);
        assert r.entries == rest.entries && r.writes == rest.writes;
      }
    }
  }

  /** The second loop from entry `j` on inserts for no entry before `j`. */
  lemma NoEarlierEntry(matches: seq<TitleMatch>, whRows: string -> nat, fails: Write -> bool,
                       stamp: nat -> int, j: nat, inserted: seq<string>, e: nat)
    requires e < j
    ensures e !in SyncWhiteHouse(matches, whRows, fails, stamp, j, inserted).entries
  {
    WhiteWrites(matches, whRows, fails, stamp, j, inserted);
  }

  /** Whether the second loop, from entry `j` with `inserted` behind it,
      inserts for entry `e`: the entry has no Federal Register id, and its URL
      is held by two or more rows, or by none and every earlier entry with
      that URL failed its insert. */
  predicate GetsPending(matches: seq<TitleMatch>, whRows: string -> nat, fails: Write -> bool,
                        stamp: nat -> int, j: nat, inserted: seq<string>, e: nat)
    requires e < |matches|
  {
    var u := matches[e].whUrl;
    var c := RowsWith(whRows, inserted, u);
    !StrTruthy(matches[e].frId)
    && (c >= 2 || (c == 0 && forall d | j <= d < e :: Unlinked(matches, d, u) ==> fails(PendingWrite(matches, stamp, d))))
  }

  /** One entry of the second loop leaves the decision for a later entry `e`
      as it was, with `inserted` updated as the loop updates it. */
  lemma GetsPendingStep(matches: seq<TitleMatch>, whRows: string -> nat, fails: Write -> bool,
                        stamp: nat -> int, j: nat, inserted: seq<string>, e: nat)
    requires j < e < |matches|
    ensures var m := matches[j];
            var lands := !StrTruthy(m.frId) && RowsWith(whRows, inserted, m.whUrl) != 1
                         && !fails(PendingWrite(matches, stamp, j));
            var next := if lands then inserted + [m.whUrl] else inserted;
            GetsPending(matches, whRows, fails, stamp, j, inserted, e)
            <==> GetsPending(matches, whRows, fails, stamp, j + 1, next, e)
  {
    var m := matches[j];
    var u := matches[e].whUrl;
    var lands := !StrTruthy(m.frId) && RowsWith(whRows, inserted, m.whUrl) != 1
                 && !fails(PendingWrite(matches, stamp, j));
    var next := if lands then inserted + [m.whUrl] else inserted;
    assert multiset(next)[u] == multiset(inserted)[u] + (if lands && m.whUrl == u then 1 else 0);
    var c := RowsWith(whRows, inserted, u);
    var all := forall d | j <= d < e :: Unlinked(matches, d, u) ==> fails(PendingWrite(matches, stamp, d));
    var rest := forall d | j + 1 <= d < e :: Unlinked(matches, d, u) ==> fails(PendingWrite(matches, stamp, d));
    assert all <==> (Unlinked(matches, j, u) ==> fails(PendingWrite(matches, stamp, j))) && rest;
  }

  /** The second loop from entry `j` inserts for `j` exactly when
      `GetsPending` says so. */
  lemma PendingAtStart(matches: seq<TitleMatch>, whRows: string -> nat, fails: Write -> bool,
                       stamp: nat -> int, j: nat, inserted: seq<string>)
    requires j < |matches|
    ensures j in SyncWhiteHouse(matches, whRows, fails, stamp, j, inserted).entries
            <==> GetsPending(matches, whRows, fails, stamp, j, inserted, j)
  {
    var m := matches[j];
    var lands := !StrTruthy(m.frId) && RowsWith(whRows, inserted, m.whUrl) != 1 && !fails(PendingWrite(matches, stamp, j));
    WhiteStep(matches, whRows, fails, stamp, j, inserted);
    NoEarlierEntry(matches, whRows, fails, stamp, j + 1, if lands then inserted + [m.whUrl] else inserted, j);
  }

  /** Whether the second loop from entry `j` inserts for a later entry `e`
      is decided by the loop from `j + 1` on. */
  lemma EntryAfterStart(matches: seq<TitleMatch>, whRows: string -> nat, fails: Write -> bool,
                        stamp: nat -> int, j: nat, inserted: seq<string>, e: nat)
    requires j < e
    requires j < |matches|
    ensures var m := matches[j];
            var lands := !StrTruthy(m.frId) && RowsWith(whRows, inserted, m.whUrl) != 1 && !fails(PendingWrite(matches, stamp, j));
            var next := if lands then inserted + [m.whUrl] else inserted;
            e in SyncWhiteHouse(matches, whRows, fails, stamp, j, inserted).entries
            <==> e in SyncWhiteHouse(matches, whRows, fails, stamp, j + 1, next).entries
  {
    WhiteStep(matches, whRows, fails, stamp, j, inserted);
  }

  /** The second loop inserts for entry `e` exactly when `GetsPending` says so. */
  lemma {:induction false} PendingEntries(matches: seq<TitleMatch>, whRows: string -> nat, fails: Write -> bool,
                                          stamp: nat -> int, j: nat, inserted: seq<string>, e: nat)
    requires j <= e < |matches|
    ensures e in SyncWhiteHouse(matches, whRows, fails, stamp, j, inserted).entries
            <==> GetsPending(matches, whRows, fails, stamp, j, inserted, e)
    decreases e - j
  {
    if e == j {
      PendingAtStart(matches, whRows, fails, stamp, j, inserted);
    } else {
      var m := matches[j];
      var lands := !StrTruthy(m.frId) && RowsWith(whRows, inserted, m.whUrl) != 1 && !fails(PendingWrite(matches, stamp, j));
      var next := if lands then inserted + [m.whUrl] else inserted;
      EntryAfterStart(matches, whRows, fails, stamp, j, inserted, e);
      PendingEntries(matches, whRows, fails, stamp, j + 1, next, e);
      GetsPendingStep(matches, whRows, fails, stamp, j, inserted, e);
    }
  }

  /** Over the whole table: entry `e` gets a pending row exactly when it has
      no Federal Register id and its URL is held by two or more rows, or by
      none and every earlier entry with that URL failed its insert. */
  lemma PendingExactly(matches: seq<TitleMatch>, whRows: string -> nat, fails: Write -> bool, stamp: nat -> int, e: nat)
    requires e < |matches|
    ensures var u := matches[e].whUrl;
            e in SyncWhiteHouse(matches, whRows, fails, stamp, 0, []).entries
            <==> !StrTruthy(matches[e].frId)
                 && (whRows(u) >= 2
                     || (whRows(u) == 0 && forall d | 0 <= d < e :: Unlinked(matches, d, u) ==> fails(PendingWrite(matches, stamp, d))))
  {
    PendingEntries(matches, whRows, fails, stamp, 0, [], e);
    assert RowsWith(whRows, [], matches[e].whUrl) == whRows(matches[e].whUrl);
  }

  /** A URL no row holds is stored by at most one pending insert, however
      often it repeats in `title_matches`: of two entries with that URL
      given a pending row, the earlier insert failed. A URL one row holds
      gets none. */
  lemma UrlStoredOnce(matches: seq<TitleMatch>, whRows: string -> nat, fails: Write -> bool, stamp: nat -> int, u: string)
    ensures var r := SyncWhiteHouse(matches, whRows, fails, stamp, 0, []);
            whRows(u) == 1 ==> forall e | 0 <= e < |matches| && e in r.entries :: matches[e].whUrl != u
    ensures var r := SyncWhiteHouse(matches, whRows, fails, stamp, 0, []);
            whRows(u) == 0 ==> forall e1, e2 | 0 <= e1 < e2 < |matches| && e1 in r.entries && e2 in r.entries
                                                && matches[e1].whUrl == u && matches[e2].whUrl == u
                                 :: fails(PendingWrite(matches, stamp, e1))
  {
    var r := SyncWhiteHouse(matches, whRows, fails, stamp, 0, []);
    forall e | 0 <= e < |matches| && e in r.entries ensures whRows(u) == 1 ==> matches[e].whUrl != u {
      PendingExactly(matches, whRows, fails, stamp, e);
    }
    forall e1, e2 | 0 <= e1 < e2 < |matches| && e1 in r.entries && e2 in r.entries
                    && matches[e1].whUrl == u && matches[e2].whUrl == u
      ensures whRows(u) == 0 ==> fails(PendingWrite(matches, stamp, e1))
    {
      PendingExactly(matches, whRows, fails, stamp, e2);
      assert Unlinked(matches, e1, u) by { PendingExactly(matches, whRows, fails, stamp, e1); }
    }
  }

  /** Two `title_matches` entries without a Federal Register id share a URL
      no row holds: the first is inserted, after which one row holds the
      URL, so the lookup for the second finds it and nothing more is
      written. */
  lemma RepeatedUrlInsertedOnce(stamp: nat -> int)
    ensures var m := TitleMatch("t", "d", "u", None);
            var r := SyncWhiteHouse([m, m], _ => 0, _ => false, stamp, 0, []);
            r.entries == [0] && r.success == 1 && r.errors == 0
  {
    var m := TitleMatch("t", "d", "u", None);
    assert RowsWith(_ => 0, ["u"], "u") == 1;
  }

  // ---------------------------------------------------------------------
  // syncOrders

  /** `results.map(transformFederalRegisterData)`: the first record that
      throws ends the map. */
  function TransformAll(items: seq<Value>, now: string): (r: Attempt<seq<ExecutiveOrder>>)
    ensures r.Done? <==> forall i | 0 <= i < |items| :: Transform(items[i], now).Done?
    ensures r.Done? ==> |r.value| == |items| && forall i | 0 <= i < |items| :: r.value[i] == Transform(items[i], now).value
    ensures r.Threw? ==> exists i | 0 <= i < |items| :: Transform(items[i], now).Threw? && r.error == Transform(items[i], now).error
                                                        && forall j | 0 <= j < i :: Transform(items[j], now).Done?
  {
    MapAll((v: Value) => Transform(v, now), items)
  }

  /** The search results, when the fetch gave an array of them. */
  function Results(reply: Attempt<HttpReply>): seq<Value> {
    var fetched := FetchExecutiveOrders(reply);
    if fetched.Done? && fetched.value.results.Arr? then fetched.value.results.items else []
  }

  /** `{ success: true, stats }` or `{ success: false, message }`, and the
      writes made. */
  datatype SyncResult = Synced(total: nat, success: nat, errors: nat, writes: seq<Write>) | SyncFailed(message: string)

  /** The `title_matches` rows the first loop searches: none when the
      query failed. */
  function MatchesOf(whMatches: Option<seq<TitleMatch>>): seq<TitleMatch> {
    if whMatches.Some? then whMatches.value else []
  }

  /** The second loop over the `title_matches` rows, when there are any. */
  function WhitePass(whMatches: Option<seq<TitleMatch>>, whRows: string -> nat, fails: Write -> bool,
                     stamp: nat -> int): Pass {
    if whMatches.Some? then SyncWhiteHouse(whMatches.value, whRows, fails, stamp, 0, []) else Pass(0, 0, [], [])
  }

  /** `syncOrders()`. `reply` is how the Federal Register request ended,
      `whMatches` the `title_matches` rows (`None` when the query failed),
      `found(k)` the answer to the first loop's `k`-th lookup, `whRows` the
      number of `executive_orders` rows holding each White House URL when
      the second loop starts, `fails` whether a write errs and `stamp(e)`
      the clock at White House entry `e`. */
  function SyncOrders(reply: Attempt<HttpReply>, now: string, whMatches: Option<seq<TitleMatch>>,
                      found: nat -> bool, whRows: string -> nat, fails: Write -> bool,
                      stamp: nat -> int): (r: SyncResult)
    ensures FetchExecutiveOrders(reply).Threw? ==> r == SyncFailed(FetchFailed)
    ensures FetchExecutiveOrders(reply).Done? && !FetchExecutiveOrders(reply).value.results.Arr?
            ==> r == SyncFailed("frResponse.results.map is not a function")
    ensures r.Synced? <==> (FetchExecutiveOrders(reply).Done? && FetchExecutiveOrders(reply).value.results.Arr?
                            && TransformAll(Results(reply), now).Done?)
    ensures FetchExecutiveOrders(reply).Done? && FetchExecutiveOrders(reply).value.results.Arr?
            && TransformAll(Results(reply), now).Threw?
            ==> r == SyncFailed(TransformAll(Results(reply), now).error.MessageOr("Unknown error occurred"))
    ensures r.Synced? ==> r.total == |Results(reply)| + |MatchesOf(whMatches)|
    ensures r.Synced? ==> r.success + r.errors == |r.writes| && r.errors == Failures(r.writes, fails)
    ensures r.Synced? ==> r.writes == SyncFederal(TransformAll(Results(reply), now).value, MatchesOf(whMatches), found, fails, 0).writes
                                      + WhitePass(whMatches, whRows, fails, stamp).writes
  {
    match FetchExecutiveOrders(reply)
    case Threw(e) => SyncFailed(e.MessageOr("Unknown error occurred"))
    case Done(response) =>
      if !response.results.Arr? then SyncFailed("frResponse.results.map is not a function")
      else match TransformAll(response.results.items, now)
        case Threw(e) => SyncFailed(e.MessageOr("Unknown error occurred"))
        case Done(orders) =>
          var matches := MatchesOf(whMatches);
          var federal := SyncFederal(orders, matches, found, fails, 0);
          var white := WhitePass(whMatches, whRows, fails, stamp);
          FailuresAppend(federal.writes, white.writes, fails);
          Synced(|orders| + |matches|, federal.success + white.success, federal.errors + white.errors,
                 federal.writes + white.writes)
  }

  lemma {:induction false} FailuresAppend(a: seq<Write>, b: seq<Write>, fails: Write -> bool)
    ensures Failures(a + b, fails) == Failures(a, fails) + Failures(b, fails)
    decreases |a|
  {
    if a != [] {
      var ab := a + b;
      assert ab != [] && ab[0] == a[0] && ab[1..] == a[1..] + b;
      FailuresAppend(a[1..], b, fails);
      assert Failures(ab, fails) == (if fails(a[0]) then 1 else 0) + Failures(a[1..] + b, fails);
      assert Failures(a, fails) == (if fails(a[0]) then 1 else 0) + Failures(a[1..], fails);
    } else {
      assert a + b == b;
    }
  }

  /** The reported successes and errors never exceed the reported total. */
  lemma CountsWithinTotal(reply: Attempt<HttpReply>, now: string, whMatches: Option<seq<TitleMatch>>,
                          found: nat -> bool, whRows: string -> nat, fails: Write -> bool, stamp: nat -> int)
    requires SyncOrders(reply, now, whMatches, found, whRows, fails, stamp).Synced?
    ensures var r := SyncOrders(reply, now, whMatches, found, whRows, fails, stamp);
      r.success + r.errors <= r.total
  {
    var items := Results(reply);
    var orders := TransformAll(items, now).value;
    assert Numbered(orders) <= |orders| == |items|;
    assert |WhitePass(whMatches, whRows, fails, stamp).writes| <= |MatchesOf(whMatches)|;
  }

  /** Transformed orders always carry a number, so the skip never fires:
      every Federal Register result is written once. */
  lemma {:induction false} NoneSkipped(items: seq<Value>, now: string)
    requires TransformAll(items, now).Done?
    requires forall i | 0 <= i < |items| :: !Get(items[i], "executive_order_number").Arr?
    ensures Numbered(TransformAll(items, now).value) == |items|
    decreases |items|
  {
    if items != [] {
      var orders := TransformAll(items, now).value;
      TransformedNumberNonEmpty(items[0], now);
      assert orders[0].number != "";
      NoneSkipped(items[1..], now);
      assert TransformAll(items[1..], now).value == orders[1..];
    }
  }
}

=== FILE: orders.dfy ===
/** The executive-order record shared by the list view, the Federal Register
    transform, the synchronisation job and the White House scraper (`types.ts`),
    and the database's status enumeration. */
module Orders {
  import opened Wrappers

  /** An executive order as the application holds it. `status` is a string:
      the list view passes database statuses through unchanged. */
  datatype ExecutiveOrder = ExecutiveOrder(
    id: string,
    number: string,
    title: string,
    date: string,
    summary: string,
    category: string,
    status: string,
    url: string,
    documentNumber: Option<string>,
    pdfUrl: Option<string>,
    htmlUrl: Option<string>,
    docType: Option<string>,
    signingDate: Option<string>,
    executiveOrderNumber: Option<string>)

  /** The `status` column of the `executive_orders` table. */
  datatype DbStatus = Pending | Verified | Superseded | Revoked

  /** The string the database stores for a status. */
  function DbStatusName(s: DbStatus): string {
    match s
    case Pending => "pending"
    case Verified => "verified"
    case Superseded => "superseded"
    case Revoked => "revoked"
  }
}

=== FILE: pagination.dfy ===
/** The page-number strip under the order list (`Pagination.tsx`): which page
    buttons are shown, where the ellipses go, and when Previous/Next are disabled. */
module Pagination {

  /** One entry of the strip: a page button or an ellipsis. */
  datatype PageItem = Page(n: int) | Ellipsis

  /** Page buttons `lo`, `lo + 1`, ..., `hi - 1`. */
  function Pages(lo: int, hi: int): (r: seq<PageItem>)
    ensures |r| == if lo <= hi then hi - lo else 0
    ensures forall i :: 0 <= i < |r| ==> r[i] == Page(lo + i)
    decreases hi - lo
  {
    if lo >= hi then [] else [Page(lo)] + Pages(lo + 1, hi)
  }

  /** The buttons of every page, `pages` in the component: `[1, ..., total]`. */
  function AllPages(total: nat): seq<PageItem> {
    Pages(1, total + 1)
  }

  /** `getVisiblePages(current, total)`: every page when there are at most
      seven, otherwise a seven-entry strip keeping the first and last page and
      a window around `current`, with ellipses over the gaps. */
  function VisiblePages(current: int, total: nat): (r: seq<PageItem>)
    ensures total <= 7 ==> |r| == total && forall i :: 0 <= i < |r| ==> r[i] == Page(i + 1)
    ensures total > 7 && current <= 4 ==>
      r == [Page(1), Page(2), Page(3), Page(4), Page(5), Ellipsis, Page(total)]
    ensures total > 7 && 4 < current && current >= total - 3 ==>
      r == [Page(1), Ellipsis, Page(total - 4), Page(total - 3), Page(total - 2), Page(total - 1), Page(total)]
    ensures total > 7 && 4 < current < total - 3 ==>
      r == [Page(1), Ellipsis, Page(current - 1), Page(current), Page(current + 1), Ellipsis, Page(total)]
  {
    var pages := AllPages(total);
    if total <= 7 then pages
    else if current <= 4 then pages[..5] + [Ellipsis, Page(total)]
    else if current >= total - 3 then [Page(1), Ellipsis] + pages[total - 5..]
    else [Page(1), Ellipsis, Page(current - 1), Page(current), Page(current + 1), Ellipsis, Page(total)]
  }

  /** The page numbers shown rise strictly from left to right. */
  predicate NumbersIncreasing(r: seq<PageItem>) {
    forall i, j :: 0 <= i < j < |r| && r[i].Page? && r[j].Page? ==> r[i].n < r[j].n
  }

  /** Shape of the strip for more than seven pages: seven entries, first page
      first, last page last, numbers rising, all numbers real pages. */
  lemma LongStripShape(current: int, total: nat)
    requires total > 7
    ensures var r := VisiblePages(current, total);
      && |r| == 7 && r[0] == Page(1) && r[6] == Page(total)
      && NumbersIncreasing(r)
      && (forall i :: 0 <= i < 7 && r[i].Page? ==> 1 <= r[i].n <= total)
  {
  }

  /** Every strip shows the current page when it is a real page, and shows
      numbers in rising order. */
  lemma StripShowsCurrent(current: int, total: nat)
    requires 1 <= current <= total
    ensures Page(current) in VisiblePages(current, total)
    ensures NumbersIncreasing(VisiblePages(current, total))
  {
    var r := VisiblePages(current, total);
    if total <= 7 {
      assert r[current - 1] == Page(current);
    } else if current <= 4 {
      assert r[current - 1] == Page(current);
    } else if current >= total - 3 {
      assert r[current - total + 6] == Page(current);
    } else {
      assert r[3] == Page(current);
    }
  }

  /** The Previous button is disabled (`currentPage === 1`). */
  predicate PreviousDisabled(current: int) {
    current == 1
  }

  /** The Next button is disabled (`currentPage === totalPages`). */
  predicate NextDisabled(current: int, total: int) {
    current == total
  }

  /** The page a click on Previous (`-1`) or Next (`+1`) asks for, or the
      current page when the button is disabled. */
  function Step(current: int, total: int, forward: bool): (r: int)
    ensures 1 <= current <= total ==> 1 <= r <= total
    ensures forward && !NextDisabled(current, total) ==> r == current + 1
    ensures !forward && !PreviousDisabled(current) ==> r == current - 1
  {
    if forward then (if NextDisabled(current, total) then current else current + 1)
    else (if PreviousDisabled(current) then current else current - 1)
  }
}

=== FILE: provider_test.dfy ===
/** `testAIService(provider)` (`src/services/ai/test.ts`): load the
    provider's configuration, get its service and send one test assessment,
    classifying the outcome. How `assess` ends on the instance is the
    parameter `assess`. */
module ProviderTest {
  import opened Wrappers
  import opened Js
  import opened Text
  import opened AiTypes
  import opened BaseService
  import opened AiConfig
  import opened Factory
  import opened Providers

  /** `{success: true, result}` or `{success: false, message}`. */
  datatype TestResult = Passed(result: Assessment) | Failed(message: string)

  const ConnectionLost := "Server connection lost. Please refresh the page."

  /** The `catch` of `testAIService`: connection-flavoured messages are
      rethrown as one refresh message; any other error becomes a failed
      result carrying its message. */
  predicate ConnectionTrouble(m: string) {
    Contains(m, "Failed to fetch") || Contains(m, "Network error") || Contains(m, "connection lost")
  }

  function Classify(e: Thrown): (r: Attempt<TestResult>)
    ensures ConnectionTrouble(e.MessageOr("Unknown error")) ==> r == Threw(Error(ConnectionLost))
    ensures !ConnectionTrouble(e.MessageOr("Unknown error")) ==> r == Done(Failed(e.MessageOr("Unknown error")))
  {
    var m := e.MessageOr("Unknown error");
    if ConnectionTrouble(m) then Threw(Error(ConnectionLost)) else Done(Failed(m))
  }

  /** A test run: the service cache afterwards and the outcome. */
  datatype TestRun = TestRun(cache: Cache, outcome: Attempt<TestResult>)

  /** `testAIService(provider)`. */
  function TestAIService(env: Env, p: Provider, cache: Cache, urlParses: string -> bool,
                         assess: (Provider, Instance) -> Attempt<Assessment>): (r: TestRun)
    requires WellFormed(cache)
    ensures WellFormed(r.cache)
    ensures GetProviderConfig(env, p).Fail?
            ==> r == TestRun(cache, Classify(Error(GetProviderConfig(env, p).error)))
    ensures p == DeepSeek && GetProviderConfig(env, p).Ok?
            ==> r == TestRun(cache, Done(Failed(DeepSeekDisabled)))
    ensures r.outcome.Done? && r.outcome.value.Passed?
            ==> p != DeepSeek && GetProviderConfig(env, p).Ok? && p in r.cache
                && IsInitialized(r.cache[p].state)
                && assess(p, r.cache[p]) == Done(r.outcome.value.result)
    ensures GetProviderConfig(env, p).Ok? && !(p == DeepSeek && DeepSeekOff(GetProviderConfig(env, p).value)) ==>
              var lookup := GetAIService(cache, p, GetProviderConfig(env, p).value, urlParses);
              && r.cache == lookup.cache
              && (lookup.result.Fail? ==> r.outcome == Classify(Error(lookup.result.error)))
              && (lookup.result.Ok? ==>
                    var tried := assess(p, lookup.result.value);
                    r.outcome == (if tried.Done? then Done(Passed(tried.value)) else Classify(tried.error)))
  {
    match GetProviderConfig(env, p)
    case Fail(message) => TestRun(cache, Classify(Error(message)))
    case Ok(config) =>
      if p == DeepSeek && DeepSeekOff(config) then TestRun(cache, Done(Failed(DeepSeekDisabled)))
      else
        var lookup := GetAIService(cache, p, config, urlParses);
        match lookup.result
        case Fail(message) => TestRun(lookup.cache, Classify(Error(message)))
        case Ok(instance) =>
          match assess(p, instance)
          case Done(a) => TestRun(lookup.cache, Done(Passed(a)))
          case Threw(e) => TestRun(lookup.cache, Classify(e))
  }

  /** Every error other than a connection problem comes back as a failed
      result rather than a thrown error; configuration errors included. */
  lemma OnlyConnectionErrorsThrow(env: Env, p: Provider, cache: Cache, urlParses: string -> bool,
                                  assess: (Provider, Instance) -> Attempt<Assessment>)
    requires WellFormed(cache)
    requires TestAIService(env, p, cache, urlParses, assess).outcome.Threw?
    ensures TestAIService(env, p, cache, urlParses, assess).outcome == Threw(Error(ConnectionLost))
  {
  }
}

=== FILE: providers.dfy ===
/** The three provider services (`src/services/ai/deepseek.ts`,
    `perplexity.ts`, `latimer.ts`): each refuses to run before
    initialisation, sends one request per attempt through the retry loop of
    `BaseService`, and turns the response body into an assessment.

    The proxied HTTP call and `response.json()` of attempt `k` are the
    parameter `fetch`: how that call ends, given the request parameters. */
module Providers {
  import opened Wrappers
  import opened Js
  import opened Text
  import opened Rating
  import opened BaseService

  /** `AssessmentRequest`; absent optional fields are `None`. */
  datatype AssessmentRequest = AssessmentRequest(
    executiveOrderText: string,
    policyDocumentText: string,
    maxTokens: Option<int>,
    temperature: Option<real>)

  /** The tuning parameters a chat-completion request body carries. */
  datatype ChatParams = ChatParams(model: string, temperature: real, maxTokens: int, topP: Option<real>)

  /** `AssessmentResponse` without its free-form metadata. */
  datatype Assessment = Assessment(text: string, rating: Rating, confidence: real)

  /** `field || fallback` for an optional number: absent and 0 are falsy. */
  function RealOr(field: Option<real>, fallback: real): (r: real)
    ensures field.Some? && field.value != 0.0 ==> r == field.value
    ensures field.None? || field.value == 0.0 ==> r == fallback
  {
    if field.Some? && field.value != 0.0 then field.value else fallback
  }

  function IntOr(field: Option<int>, fallback: int): (r: int)
    ensures field.Some? && field.value != 0 ==> r == field.value
    ensures field.None? || field.value == 0 ==> r == fallback
  {
    if field.Some? && field.value != 0 then field.value else fallback
  }

  /** The error `analyzeResponse` raises when the content is truthy but not a
      string (`text.toLowerCase` is then not a function). */
  const NotAString := "text.toLowerCase is not a function"

  // ---------------------------------------------------------------------
  // DeepSeek

  function DeepSeekParams(req: AssessmentRequest): (p: ChatParams)
    ensures p.model == "deepseek-chat" && p.topP == None
    ensures p.temperature == RealOr(req.temperature, 0.3)
    ensures p.maxTokens == IntOr(req.maxTokens, 1000)
  {
    ChatParams("deepseek-chat", RealOr(req.temperature, 0.3), IntOr(req.maxTokens, 1000), None)
  }

  /** `data?.choices?.[0]?.message?.content` (shared by DeepSeek and Perplexity). */
  function ChoiceContent(data: Value): Value {
    Get(Get(Index(Get(data, "choices"), 0), "message"), "content")
  }

  /** Turn a chat completion into an assessment, or fail with `invalid`. */
  function CompletionAssessment(data: Value, terms: Terms, invalid: string): (r: Attempt<Assessment>)
    ensures r.Done? <==> ChoiceContent(data).Str? && ChoiceContent(data).s != ""
    ensures r.Done? ==> r.value.text == ChoiceContent(data).s
                        && r.value.rating == AnalyzeResponse(terms, r.value.text)
                        && r.value.confidence == Confidence(r.value.text)
                        && 0.1 <= r.value.confidence <= 1.0
    ensures !Truthy(ChoiceContent(data)) ==> r == Threw(Error(invalid))
    ensures Truthy(ChoiceContent(data)) && !ChoiceContent(data).Str? ==> r == Threw(TypeError(NotAString))
  {
    var content := ChoiceContent(data);
    if !Truthy(content) then Threw(Error(invalid))
    else if !content.Str? then Threw(TypeError(NotAString))
    else Done(Assessment(content.s, AnalyzeResponse(terms, content.s), Confidence(content.s)))
  }

  /** DeepSeek's `catch`: a message mentioning 'Authentication Fails' becomes
      a plain authentication error; anything else is rethrown unchanged. */
  function AuthRewrite(e: Thrown): (r: Thrown)
    ensures e.IsError() && Contains(e.message, "Authentication Fails")
            ==> r == Error("Authentication failed: Invalid API key")
    ensures !(e.IsError() && Contains(e.message, "Authentication Fails")) ==> r == e
  {
    if Contains(e.MessageOr("Unknown error"), "Authentication Fails")
    then Error("Authentication failed: Invalid API key")
    else e
  }

  /** The operation DeepSeek hands to the retry loop, for one fetch outcome. */
  function DeepSeekCall(fetched: Attempt<Value>): (r: Attempt<Assessment>)
    ensures r.Done? <==> fetched.Done? && CompletionAssessment(fetched.value, DeepSeekTerms, "Invalid response format from DeepSeek API").Done?
    ensures fetched.Done? && !Truthy(ChoiceContent(fetched.value))
            ==> r == Threw(Error("Invalid response format from DeepSeek API"))
    ensures fetched.Threw? ==> r == Threw(AuthRewrite(fetched.error))
    ensures r.Done? ==> r == CompletionAssessment(fetched.value, DeepSeekTerms, "Invalid response format from DeepSeek API")
  {
    MissingCharNotContained("Invalid response format from DeepSeek API", "Authentication Fails", 15);
    match fetched
    case Threw(e) => Threw(AuthRewrite(e))
    case Done(data) =>
      match CompletionAssessment(data, DeepSeekTerms, "Invalid response format from DeepSeek API")
      case Done(a) => Done(a)
      case Threw(e) => Threw(AuthRewrite(e))
  }

  /** `DeepSeekService.assess(request)`. */
  function DeepSeekAssess(s: Service, req: AssessmentRequest, fetch: (ChatParams, nat) -> Attempt<Value>): (r: Run<Assessment>)
    ensures !IsInitialized(s) ==> r == Run(Threw(Error("DeepSeek service not initialized")), 0, [])
    ensures IsInitialized(s) ==> 1 <= r.calls <= MaxCalls(s.config, 0)
    ensures r.outcome.Done? ==> IsInitialized(s)
                                && r.outcome.value.rating == AnalyzeResponse(DeepSeekTerms, r.outcome.value.text)
                                && r.outcome.value.confidence == Confidence(r.outcome.value.text)
                                && fetch(DeepSeekParams(req), r.calls - 1).Done?
                                && ChoiceContent(fetch(DeepSeekParams(req), r.calls - 1).value) == Str(r.outcome.value.text)
    ensures IsInitialized(s) ==> forall i | 0 <= i < r.calls - 1 :: Retried(s.config, DeepSeekOp(req, fetch), i)
    ensures IsInitialized(s) ==> && !Retried(s.config, DeepSeekOp(req, fetch), r.calls - 1)
                                 && r.outcome == Settle(DeepSeekCall(fetch(DeepSeekParams(req), r.calls - 1)))
  {
    if !IsInitialized(s) then Run(Threw(Error("DeepSeek service not initialized")), 0, [])
    else
      DeepSeekRunDone(s.config, req, fetch);
      RetryOutcome(s.config, DeepSeekOp(req, fetch), 0);
      RetryWithBackoff(s.config, DeepSeekOp(req, fetch), 0)
  }

  /** The operation handed to the retry loop: the `k`-th call's fetch. */
  function DeepSeekOp(req: AssessmentRequest, fetch: (ChatParams, nat) -> Attempt<Value>): nat -> Attempt<Assessment> {
    (k: nat) => DeepSeekCall(fetch(DeepSeekParams(req), k))
  }

  /** A run that ends with an assessment read it from its last reply. */
  lemma DeepSeekRunDone(config: Option<Config>, req: AssessmentRequest, fetch: (ChatParams, nat) -> Attempt<Value>)
    ensures var r := RetryWithBackoff(config, DeepSeekOp(req, fetch), 0);
      r.outcome.Done? ==> (r.outcome.value.rating == AnalyzeResponse(DeepSeekTerms, r.outcome.value.text)
                           && r.outcome.value.confidence == Confidence(r.outcome.value.text)
                           && fetch(DeepSeekParams(req), r.calls - 1).Done?
                           && ChoiceContent(fetch(DeepSeekParams(req), r.calls - 1).value) == Str(r.outcome.value.text))
  {
    var op := DeepSeekOp(req, fetch);
    var r := RetryWithBackoff(config, op, 0);
    RetryDone(config, op, 0);
    if r.outcome.Done? {
      var last := fetch(DeepSeekParams(req), r.calls - 1);
      assert r.outcome == op(r.calls - 1) == DeepSeekCall(last);
      assert last.Done? && r.outcome == CompletionAssessment(last.value, DeepSeekTerms, "Invalid response format from DeepSeek API");
    }
  }

  // ---------------------------------------------------------------------
  // Perplexity

  /** Perplexity always sends the model 'sonar' and a `top_p` of 0.9. */
  function PerplexityParams(req: AssessmentRequest): (p: ChatParams)
    ensures p.model == "sonar" && p.topP == Some(0.9)
    ensures p.temperature == RealOr(req.temperature, 0.1)
    ensures p.maxTokens == IntOr(req.maxTokens, 500)
  {
    ChatParams("sonar", RealOr(req.temperature, 0.1), IntOr(req.maxTokens, 500), Some(0.9))
  }

  /** A zero temperature or token limit is replaced by the default, like an
      absent one. */
  lemma PerplexityZeroMeansDefault(eo: string, policy: string)
    ensures var p := PerplexityParams(AssessmentRequest(eo, policy, Some(0), Some(0.0)));
      p.temperature == 0.1 && p.maxTokens == 500
  {
  }

  /** The operation Perplexity hands to the retry loop; its `catch` rethrows. */
  function PerplexityCall(fetched: Attempt<Value>): (r: Attempt<Assessment>)
    ensures fetched.Threw? ==> r == Threw(fetched.error)
    ensures fetched.Done? ==> r == CompletionAssessment(fetched.value, PerplexityTerms, "Invalid response format from API")
  {
    match fetched
    case Threw(e) => Threw(e)
    case Done(data) => CompletionAssessment(data, PerplexityTerms, "Invalid response format from API")
  }

  /** `PerplexityService.assess(request)`. */
  function PerplexityAssess(s: Service, req: AssessmentRequest, fetch: (ChatParams, nat) -> Attempt<Value>): (r: Run<Assessment>)
    ensures !IsInitialized(s) ==> r == Run(Threw(Error("Perplexity service not initialized")), 0, [])
    ensures IsInitialized(s) ==> 1 <= r.calls <= MaxCalls(s.config, 0)
    ensures r.outcome.Done? ==> IsInitialized(s)
                                && r.outcome.value.rating == AnalyzeResponse(PerplexityTerms, r.outcome.value.text)
                                && r.outcome.value.confidence == Confidence(r.outcome.value.text)
                                && fetch(PerplexityParams(req), r.calls - 1).Done?
                                && ChoiceContent(fetch(PerplexityParams(req), r.calls - 1).value) == Str(r.outcome.value.text)
    ensures IsInitialized(s) ==> forall i | 0 <= i < r.calls - 1 :: Retried(s.config, PerplexityOp(req, fetch), i)
    ensures IsInitialized(s) ==> && !Retried(s.config, PerplexityOp(req, fetch), r.calls - 1)
                                 && r.outcome == Settle(PerplexityCall(fetch(PerplexityParams(req), r.calls - 1)))
  {
    if !IsInitialized(s) then Run(Threw(Error("Perplexity service not initialized")), 0, [])
    else
      PerplexityRunDone(s.config, req, fetch);
      RetryOutcome(s.config, PerplexityOp(req, fetch), 0);
      RetryWithBackoff(s.config, PerplexityOp(req, fetch), 0)
  }

  /** The operation handed to the retry loop: the `k`-th call's fetch. */
  function PerplexityOp(req: AssessmentRequest, fetch: (ChatParams, nat) -> Attempt<Value>): nat -> Attempt<Assessment> {
    (k: nat) => PerplexityCall(fetch(PerplexityParams(req), k))
  }

  /** A run that ends with an assessment read it from its last reply. */
  lemma PerplexityRunDone(config: Option<Config>, req: AssessmentRequest, fetch: (ChatParams, nat) -> Attempt<Value>)
    ensures var r := RetryWithBackoff(config, PerplexityOp(req, fetch), 0);
      r.outcome.Done? ==> (r.outcome.value.rating == AnalyzeResponse(PerplexityTerms, r.outcome.value.text)
                           && r.outcome.value.confidence == Confidence(r.outcome.value.text)
                           && fetch(PerplexityParams(req), r.calls - 1).Done?
                           && ChoiceContent(fetch(PerplexityParams(req), r.calls - 1).value) == Str(r.outcome.value.text))
  {
    var op := PerplexityOp(req, fetch);
    var r := RetryWithBackoff(config, op, 0);
    RetryDone(config, op, 0);
    if r.outcome.Done? {
      var last := fetch(PerplexityParams(req), r.calls - 1);
      assert r.outcome == op(r.calls - 1) == PerplexityCall(last);
      assert last.Done? && r.outcome == CompletionAssessment(last.value, PerplexityTerms, "Invalid response format from API");
    }
  }

  /** A chat completion whose content is `text`. */
  function CompletionWith(text: string): Value {
    Obj(map["choices" := Arr([Obj(map["message" := Obj(map["content" := Str(text)])])])])
  }

  /** A completion ending "Rating: neutral" (and no colon before it) is
      rated neutral by Perplexity. */
  lemma PerplexityTrailingNeutral(prefix: string)
    requires ':' !in prefix
    ensures var text := prefix + "Rating: neutral";
      PerplexityCall(Done(CompletionWith(text))) == Done(Assessment(text, Neutral, Confidence(text)))
  {
    var text := prefix + "Rating: neutral";
    assert ChoiceContent(CompletionWith(text)) == Str(text);
    TrailingMarkerDecides(PerplexityTerms, prefix, "neutral");
    assert "neutral"[0] != "positive"[0] && "neutral"[2] != "negative"[2];
    assert WordRating("neutral") == Neutral;
    assert prefix + "Rating: " + "neutral" == text;
    assert CompletionAssessment(CompletionWith(text), PerplexityTerms, "Invalid response format from API")
        == Done(Assessment(text, Neutral, Confidence(text)));
  }

  // ---------------------------------------------------------------------
  // Latimer

  /** `data.message?.content || data.text || data.completion || data.response`. */
  function LatimerText(data: Value): (r: Value)
    ensures Truthy(Get(Get(data, "message"), "content")) ==> r == Get(Get(data, "message"), "content")
    ensures !Truthy(Get(Get(data, "message"), "content")) && Truthy(Get(data, "text")) ==> r == Get(data, "text")
    ensures Truthy(r) <==> Truthy(Get(Get(data, "message"), "content")) || Truthy(Get(data, "text"))
                           || Truthy(Get(data, "completion")) || Truthy(Get(data, "response"))
  {
    OrElse(OrElse(OrElse(Get(Get(data, "message"), "content"), Get(data, "text")), Get(data, "completion")),
           Get(data, "response"))
  }

  /** The operation Latimer hands to the retry loop; its `catch` rethrows. */
  function LatimerCall(fetched: Attempt<Value>): (r: Attempt<Assessment>)
    ensures fetched.Threw? ==> r == Threw(fetched.error)
    ensures fetched.Done? && !(Truthy(fetched.value) && IsObjectType(fetched.value))
            ==> r == Threw(Error("Invalid response format"))
    ensures fetched.Done? && Truthy(fetched.value) && IsObjectType(fetched.value)
            && !(Truthy(LatimerText(fetched.value)) && LatimerText(fetched.value).Str?)
            ==> r == Threw(Error("No assessment text in response"))
    ensures r.Done? <==> fetched.Done? && Truthy(fetched.value) && IsObjectType(fetched.value)
                         && Truthy(LatimerText(fetched.value)) && LatimerText(fetched.value).Str?
    ensures r.Done? ==> fetched.Done? && LatimerText(fetched.value) == Str(r.value.text)
                        && r.value.rating == AnalyzeResponse(LatimerTerms, r.value.text)
                        && r.value.confidence == 0.8
  {
    match fetched
    case Threw(e) => Threw(e)
    case Done(data) =>
      if !Truthy(data) || !IsObjectType(data) then Threw(Error("Invalid response format"))
      else
        var text := LatimerText(data);
        if !Truthy(text) || !text.Str? then Threw(Error("No assessment text in response"))
        else Done(Assessment(text.s, AnalyzeResponse(LatimerTerms, text.s), 0.8))
  }

  /** `LatimerService.assess(request)`. Latimer's body carries only the
      prompt, so its fetch is indexed by the attempt alone. */
  function LatimerAssess(s: Service, fetch: nat -> Attempt<Value>): (r: Run<Assessment>)
    ensures !IsInitialized(s) ==> r == Run(Threw(Error("Latimer service not initialized")), 0, [])
    ensures IsInitialized(s) ==> 1 <= r.calls <= MaxCalls(s.config, 0)
    ensures r.outcome.Done? ==> IsInitialized(s) && r.outcome.value.confidence == 0.8
                                && r.outcome.value.rating == AnalyzeResponse(LatimerTerms, r.outcome.value.text)
                                && fetch(r.calls - 1).Done?
                                && LatimerText(fetch(r.calls - 1).value) == Str(r.outcome.value.text)
    ensures IsInitialized(s) ==> forall i | 0 <= i < r.calls - 1 :: Retried(s.config, LatimerOp(fetch), i)
    ensures IsInitialized(s) ==> && !Retried(s.config, LatimerOp(fetch), r.calls - 1)
                                 && r.outcome == Settle(LatimerCall(fetch(r.calls - 1)))
  {
    if !IsInitialized(s) then Run(Threw(Error("Latimer service not initialized")), 0, [])
    else
      var r := RetryWithBackoff(s.config, LatimerOp(fetch), 0);
      RetryOutcome(s.config, LatimerOp(fetch), 0);
      var last := LatimerCall(fetch(r.calls - 1));
      assert r.outcome == Settle(last);
      assert r.outcome.Done? ==> r.outcome == last;
      r
  }

  /** The operation handed to the retry loop: the `k`-th call's fetch. */
  function LatimerOp(fetch: nat -> Attempt<Value>): nat -> Attempt<Assessment> {
    (k: nat) => LatimerCall(fetch(k))
  }

  /** A Latimer reply `{message: {content}}` ending "Rating: positive" (with
      no colon before it) is rated positive with confidence 0.8. */
  lemma LatimerTrailingPositive(prefix: string)
    requires ':' !in prefix
    ensures var text := prefix + "Rating: positive";
      LatimerCall(Done(Obj(map["message" := Obj(map["content" := Str(text)])])))
      == Done(Assessment(text, Positive, 0.8))
  {
    TrailingMarkerDecides(LatimerTerms, prefix, "positive");
    assert prefix + "Rating: " + "positive" == prefix + "Rating: positive";
    assert WordRating("positive") == Positive;
  }

  /** The other reply fields are read in order when `message.content` is absent. */
  lemma LatimerFallsBackToText(text: string)
    requires text != ""
    ensures LatimerCall(Done(Obj(map["text" := Str(text), "completion" := Str("other")])))
            == Done(Assessment(text, AnalyzeResponse(LatimerTerms, text), 0.8))
  {
    var data := Obj(map["text" := Str(text), "completion" := Str("other")]);
    assert |"message"| != |"text"| && |"message"| != |"completion"|;
    assert Get(data, "message") == Undefined;
    assert Get(data, "text") == Str(text);
    assert LatimerText(data) == Str(text);
    assert Truthy(data) && IsObjectType(data);
    assert LatimerCall(Done(data)) == Done(Assessment(text, AnalyzeResponse(LatimerTerms, text), 0.8));
  }
}

=== FILE: proxy.dfy ===
/** `proxyRequest` (`src/services/ai/proxy.ts`): the browser-side call to the
    local proxy server, with up to three attempts, a health check before each
    retry, and a final rewrite of network errors.

    The network is a parameter: `health(k)` says whether the health check
    before attempt `k` succeeded, and `responses(k)` how the proxied `fetch`
    of attempt `k` ended. `JSON.stringify` is the parameter `stringify`. */
module Proxy {
  import opened Wrappers
  import opened Js
  import opened Text
  import opened AiTypes

  /** The body of a response, as far as the error path reads it. */
  datatype Body =
    | JsonBody(json: Value)   // `response.json()` resolves to this value
    | JsonInvalid             // `response.json()` rejects
    | TextBody(text: string)  // `response.text()` resolves to this string
    | TextUnreadable          // `response.text()` rejects

  /** A `Response`: `ok`, `status`, the `content-type` header and the body. */
  datatype Response = Response(ok: bool, status: int, contentType: Option<string>, body: Body)

  /** `endpoint.replace(/^\//, '')`: at most one leading slash removed. */
  function CleanEndpoint(endpoint: string): (r: string)
    ensures r == endpoint || "/" + r == endpoint
    ensures |endpoint| > 0 && endpoint[0] == '/' ==> "/" + r == endpoint
    ensures !StartsWith(endpoint, "/") ==> r == endpoint
  {
    if |endpoint| > 0 && endpoint[0] == '/' then endpoint[1..] else endpoint
  }

  /** The proxy URL `/api/<provider>/<cleaned endpoint>`. */
  function ProxyUrl(provider: Provider, endpoint: string): (r: string)
    ensures StartsWith(r, "/api/" + provider.Name() + "/")
    ensures r[|"/api/" + provider.Name() + "/"|..] == CleanEndpoint(endpoint)
  {
    var prefix := "/api/" + provider.Name() + "/";
    assert (prefix + CleanEndpoint(endpoint))[..|prefix|] == prefix;
    prefix + CleanEndpoint(endpoint)
  }

  /** A leading slash on the endpoint does not produce a double slash. */
  lemma NoDoubleSlash(provider: Provider, endpoint: string)
    requires !StartsWith(endpoint, "/")
    ensures ProxyUrl(provider, "/" + endpoint) == ProxyUrl(provider, endpoint)
  {
    assert ("/" + endpoint)[1..] == endpoint;
  }

  const ConnectionLost := "Server connection lost. Please refresh the page."
  const HtmlInsteadOfJson := "Server returned HTML instead of JSON. Connection may need to be refreshed."
  const ServerUnreachable := "Network error: Unable to reach the server. Please check your connection."

  /** `contentType?.includes(t)`. */
  predicate HeaderIncludes(contentType: Option<string>, t: string) {
    contentType.Some? && Contains(contentType.value, t)
  }

  /** `${provider} API error: ${status}`, the message when the error body
      cannot be read. */
  function StatusMessage(provider: Provider, status: int): string {
    provider.Name() + " API error: " + IntToString(status)
  }

  /** The message thrown for a response that is not `ok` (and not HTML). */
  function ErrorBodyMessage(provider: Provider, r: Response, stringify: Value -> string): (m: string)
    ensures HeaderIncludes(r.contentType, "application/json") && r.body.JsonBody? && r.body.json.Str?
            ==> m == r.body.json.s
    ensures (HeaderIncludes(r.contentType, "application/json") && r.body.JsonBody? && r.body.json.Obj?
             && Get(r.body.json, "message").Str? && Get(r.body.json, "message").s != "")
            ==> m == Get(r.body.json, "message").s
    ensures HeaderIncludes(r.contentType, "application/json") && (r.body.JsonInvalid? || r.body == JsonBody(Null))
            ==> m == StatusMessage(provider, r.status)
    ensures (!HeaderIncludes(r.contentType, "application/json") && r.body.TextBody?
             && !Contains(r.body.text, "<!DOCTYPE html>")) ==> m == r.body.text
    ensures (!HeaderIncludes(r.contentType, "application/json") && r.body.TextBody?
             && Contains(r.body.text, "<!DOCTYPE html>")) ==> m == ConnectionLost
  {
    if HeaderIncludes(r.contentType, "application/json") then
      match r.body
      case JsonBody(v) =>
        if v.Null? then StatusMessage(provider, r.status)   // reading `.message` of null throws
        else if IsObjectType(v) then
          ErrorMessage(OrElse(OrElse(Get(v, "message"), Get(v, "error")), Str(stringify(v))))
        else ErrorMessage(v)
      case _ => StatusMessage(provider, r.status)
    else
      match r.body
      case TextBody(text) => if Contains(text, "<!DOCTYPE html>") then ConnectionLost else text
      case _ => StatusMessage(provider, r.status)
  }

  /** A JSON error body `{error: {message}}` (an object under `error`) is
      reported as "[object Object]": `error.error` is chosen before
      `JSON.stringify` and turned into a string as it is. */
  lemma NestedErrorObjectIsOpaque(provider: Provider, status: int, inner: map<string, Value>, stringify: Value -> string)
    ensures var body := Obj(map["error" := Obj(inner)]);
      ErrorBodyMessage(provider, Response(false, status, Some("application/json"), JsonBody(body)), stringify)
      == "[object Object]"
  {
    var body := Obj(map["error" := Obj(inner)]);
    assert |"error"| != |"message"|;
    assert Get(body, "message") == Undefined;
    ContainsAt("application/json", "application/json", 0);
  }

  /** The `try` block of attempt `k`: health check (from the second attempt
      on), `fetch`, then the HTML and status checks. */
  function AttemptOnce(provider: Provider, k: nat, health: nat -> bool, responses: nat -> Attempt<Response>,
                       stringify: Value -> string): (r: Attempt<Response>)
    ensures k > 0 && !health(k) ==> r == Threw(Error(ConnectionLost))
    ensures (k == 0 || health(k)) && responses(k).Threw? ==> r == responses(k)
    ensures ((k == 0 || health(k)) && responses(k).Done?
             && HeaderIncludes(responses(k).value.contentType, "text/html")) ==> r == Threw(Error(HtmlInsteadOfJson))
    ensures r.Done? <==> (k == 0 || health(k)) && responses(k).Done? && responses(k).value.ok
                         && !HeaderIncludes(responses(k).value.contentType, "text/html")
    ensures r.Done? ==> r == responses(k)
  {
    if k > 0 && !health(k) then Threw(Error(ConnectionLost))
    else match responses(k)
      case Threw(e) => Threw(e)
      case Done(resp) =>
        if HeaderIncludes(resp.contentType, "text/html") then Threw(Error(HtmlInsteadOfJson))
        else if !resp.ok then Threw(Error(ErrorBodyMessage(provider, resp, stringify)))
        else Done(resp)
  }

  /** `lastError`: what the loop keeps of a thrown value. */
  function AsError(e: Thrown): (r: Thrown)
    ensures r.IsError()
    ensures e.IsError() ==> r == e
  {
    if e.IsError() then e else Error("Unknown error")
  }

  /** The loop's retry test, applied before the last attempt only. */
  predicate RetryableMessage(m: string) {
    Contains(m, "Server connection lost") || Contains(m, "Failed to fetch") || Contains(m, "Server returned HTML")
    || Contains(m, "socket") || Contains(m, "network") || Contains(m, "CORS")
  }

  const MaxAttempts := 3

  /** `retryDelays[attempt]` for the two retries that can happen. */
  function ProxyDelay(k: nat): (d: nat)
    requires k < MaxAttempts - 1
    ensures d == 1000 * (k + 1)
  {
    [1000, 2000, 4000][k]
  }

  /** A run of the loop: the outcome, the attempts made, the delays waited. */
  datatype ProxyRun = ProxyRun(outcome: Attempt<Response>, attempts: nat, delays: seq<nat>)

  /** Whether attempt `k` ended by throwing an error the loop retries. */
  predicate Retried(provider: Provider, k: nat, health: nat -> bool, responses: nat -> Attempt<Response>,
                    stringify: Value -> string) {
    var a := AttemptOnce(provider, k, health, responses, stringify);
    k < MaxAttempts - 1 && a.Threw? && RetryableMessage(AsError(a.error).message)
  }

  /** The `for` loop from attempt `k` on, before the outer `catch`. */
  function LoopFrom(provider: Provider, k: nat, health: nat -> bool, responses: nat -> Attempt<Response>,
                    stringify: Value -> string): (r: ProxyRun)
    requires k < MaxAttempts
    ensures 1 <= r.attempts <= MaxAttempts - k
    ensures |r.delays| == r.attempts - 1
    ensures forall i | 0 <= i < |r.delays| :: r.delays[i] == 1000 * (k + i + 1)
    ensures forall i | k <= i < k + r.attempts - 1 :: Retried(provider, i, health, responses, stringify)
    ensures var last := k + r.attempts - 1;
      && !Retried(provider, last, health, responses, stringify)
      && var a := AttemptOnce(provider, last, health, responses, stringify);
         r.outcome == (if a.Done? then a else Threw(AsError(a.error)))
    decreases MaxAttempts - k
  {
    var a := AttemptOnce(provider, k, health, responses, stringify);
    if a.Done? then ProxyRun(a, 1, [])
    else if Retried(provider, k, health, responses, stringify) then
      var rest := LoopFrom(provider, k + 1, health, responses, stringify);
      ProxyRun(rest.outcome, rest.attempts + 1, [ProxyDelay(k)] + rest.delays)
    else ProxyRun(Threw(AsError(a.error)), 1, [])
  }

  /** The outer `catch`: network-flavoured messages are replaced by one
      generic message; every other error passes through. */
  function FinalError(e: Thrown): (r: Thrown)
    ensures e.IsError() && (Contains(e.message, "Failed to fetch") || Contains(e.message, "socket")
                            || Contains(e.message, "network") || Contains(e.message, "CORS"))
            ==> r == Error(ServerUnreachable)
    ensures e.IsError() && !(Contains(e.message, "Failed to fetch") || Contains(e.message, "socket")
                             || Contains(e.message, "network") || Contains(e.message, "CORS"))
            ==> r == e
    ensures !e.IsError() ==> r == Error("An unexpected error occurred")
  {
    if !e.IsError() then Error("An unexpected error occurred")
    else if Contains(e.message, "Failed to fetch") || Contains(e.message, "socket")
            || Contains(e.message, "network") || Contains(e.message, "CORS")
    then Error(ServerUnreachable)
    else e
  }

  /** `proxyRequest(provider, endpoint, options)`: the attempts before the
      last all threw a retryable error; the last one's response is returned,
      or its error is thrown through the outer `catch`. */
  function ProxyRequest(provider: Provider, health: nat -> bool, responses: nat -> Attempt<Response>,
                        stringify: Value -> string): (r: ProxyRun)
    ensures 1 <= r.attempts <= MaxAttempts
    ensures r.delays == [1000, 2000][..r.attempts - 1]
    ensures r.outcome.Done? ==> r.outcome == responses(r.attempts - 1) && r.outcome.value.ok
    ensures r.outcome.Threw? ==> r.outcome.error.Error? || r.outcome.error.TypeError?
    ensures forall i | 0 <= i < r.attempts - 1 :: Retried(provider, i, health, responses, stringify)
    ensures var last := r.attempts - 1;
      && !Retried(provider, last, health, responses, stringify)
      && var a := AttemptOnce(provider, last, health, responses, stringify);
         r.outcome == (if a.Done? then a else Threw(FinalError(AsError(a.error))))
  {
    var run := LoopFrom(provider, 0, health, responses, stringify);
    assert run.delays == [1000, 2000][..run.attempts - 1];
    match run.outcome
    case Done(_) => run
    case Threw(e) => ProxyRun(Threw(FinalError(e)), run.attempts, run.delays)
  }

  /** Attempt `k` of the loop is made only when every earlier attempt threw
      a retryable error; a non-retryable error ends the loop at once. */
  lemma {:induction false} NonRetryableStops(provider: Provider, health: nat -> bool, responses: nat -> Attempt<Response>,
                                             stringify: Value -> string, j: nat)
    requires j < MaxAttempts
    requires forall i | 0 <= i < j :: Retried(provider, i, health, responses, stringify)
    requires !Retried(provider, j, health, responses, stringify)
    ensures ProxyRequest(provider, health, responses, stringify).attempts == j + 1
  {
    var run := LoopFrom(provider, 0, health, responses, stringify);
  }

  /** The health check before the first attempt is never made, so its
      outcome cannot matter. */
  lemma {:induction false} FirstHealthCheckIgnored(provider: Provider, h1: nat -> bool, h2: nat -> bool,
                                                   responses: nat -> Attempt<Response>, stringify: Value -> string, k: nat)
    requires k < MaxAttempts
    requires forall i | i > 0 :: h1(i) == h2(i)
    ensures LoopFrom(provider, k, h1, responses, stringify) == LoopFrom(provider, k, h2, responses, stringify)
    decreases MaxAttempts - k
  {
    assert AttemptOnce(provider, k, h1, responses, stringify) == AttemptOnce(provider, k, h2, responses, stringify);
    if k + 1 < MaxAttempts {
      FirstHealthCheckIgnored(provider, h1, h2, responses, stringify, k + 1);
    }
  }

  /** A page of HTML is an error even with an OK status. */
  lemma HtmlIsAnError(provider: Provider, k: nat, health: nat -> bool, responses: nat -> Attempt<Response>,
                      stringify: Value -> string)
    requires k == 0 || health(k)
    requires responses(k).Done? && responses(k).value.ok
    requires HeaderIncludes(responses(k).value.contentType, "text/html")
    ensures AttemptOnce(provider, k, health, responses, stringify).Threw?
  {
  }
}

=== FILE: queue.dfy ===
/** The assessment queue (`src/services/queueService.ts`): queueing an
    order for both providers, choosing the next batch, and the status and
    attempt transitions of processing one item. The table is a sequence of
    rows; how each database step ends is a parameter. */
module Queue {
  import opened Wrappers
  import opened Js
  import opened AiTypes
  import opened Aggregate

  datatype QueueStatus = Pending | Processing | Completed | Failed

  /** A row of `assessment_queue`. */
  datatype QueueItem = QueueItem(
    id: string,
    executiveOrderId: string,
    policyDocumentId: string,
    provider: QueuedProvider,
    status: QueueStatus,
    priority: int,
    createdAt: int,
    attempts: int,
    error: Option<string>)

  const MaxRetries := 3
  const BatchSize := 5

  // ---------------------------------------------------------------------
  // queueAssessment

  /** The columns `createQueueItem` inserts. */
  datatype NewItem = NewItem(
    executiveOrderId: string,
    policyDocumentId: string,
    provider: QueuedProvider,
    priority: int,
    status: QueueStatus,
    attempts: int)

  /** What `queueAssessment` leaves: the rows the table gained, and how the
      call ended. */
  datatype Queued = Queued(rows: seq<NewItem>, outcome: Attempt<()>)

  /** `queueAssessment`: the priority is the signing date in milliseconds
      (`timeOf` stands for `new Date(d).getTime()`), or 0 without one. Both
      inserts are issued together; `insertError(p)` is the error the insert
      for `p` throws, if any. `Promise.all` rejects with the first rejection
      to settle, which `perplexityFirst` decides when both fail; the other
      insert still lands when it succeeds. */
  function QueueAssessment(orderId: string, documentId: string, signingDate: Option<string>,
                           timeOf: string -> int, insertError: QueuedProvider -> Option<Thrown>,
                           perplexityFirst: bool): (r: Queued)
    ensures |r.rows| <= 2
    ensures forall i | 0 <= i < |r.rows| ::
              && r.rows[i].executiveOrderId == orderId && r.rows[i].policyDocumentId == documentId
              && r.rows[i].status == Pending && r.rows[i].attempts == 0
              && r.rows[i].priority == (if StrTruthy(signingDate) then timeOf(signingDate.value) else 0)
    ensures forall i | 0 <= i < |r.rows| :: insertError(r.rows[i].provider).None?
    ensures |r.rows| == (if insertError(Latimer).None? then 1 else 0) + (if insertError(Perplexity).None? then 1 else 0)
    ensures |r.rows| == 2 ==> r.rows[0].provider == Latimer && r.rows[1].provider == Perplexity
    ensures r.outcome.Done? <==> |r.rows| == 2
    ensures r.outcome.Threw? ==> exists p: QueuedProvider :: insertError(p) == Some(r.outcome.error)
    ensures insertError(Latimer).Some? && insertError(Perplexity).Some? ==>
              r.outcome == Threw(insertError(if perplexityFirst then Perplexity else Latimer).value)
  {
    var priority := if StrTruthy(signingDate) then timeOf(signingDate.value) else 0;
    var latimer := if insertError(Latimer).None? then [NewItem(orderId, documentId, Latimer, priority, Pending, 0)] else [];
    var perplexity := if insertError(Perplexity).None? then [NewItem(orderId, documentId, Perplexity, priority, Pending, 0)] else [];
    var outcome :=
      if insertError(Latimer).Some? && (insertError(Perplexity).None? || !perplexityFirst) then Threw(insertError(Latimer).value)
      else if insertError(Perplexity).Some? then Threw(insertError(Perplexity).value)
      else Done(());
    var rows := latimer + perplexity;
    Queued(rows, outcome)
  }

  /** The row an inserted `NewItem` becomes, with the id and creation time
      the database assigns. */
  function Stored(n: NewItem, id: string, createdAt: int): (r: QueueItem)
    ensures r.priority == n.priority && r.status == n.status && r.attempts == n.attempts
  {
    QueueItem(id, n.executiveOrderId, n.policyDocumentId, n.provider, n.status, n.priority, createdAt, n.attempts, None)
  }

  // ---------------------------------------------------------------------
  // processQueue: selection

  /** `.in('status', ['pending', 'failed']).lt('attempts', MAX_RETRIES)`. */
  predicate Eligible(item: QueueItem) {
    (item.status == Pending || item.status == Failed) && item.attempts < MaxRetries
  }

  /** The batch order: priority descending, then `created_at` ascending. */
  predicate Before(a: QueueItem, b: QueueItem) {
    a.priority > b.priority || (a.priority == b.priority && a.createdAt <= b.createdAt)
  }

  predicate Sorted(s: seq<QueueItem>) {
    forall i, j | 0 <= i < j < |s| :: Before(s[i], s[j])
  }

  function KeepEligible(items: seq<QueueItem>): (r: seq<QueueItem>)
    ensures forall i | 0 <= i < |r| :: Eligible(r[i])
    ensures forall x | x in items :: Eligible(x) <==> x in r
    ensures forall x | x in r :: x in items
    ensures |r| <= |items|
  {
    if items == [] then []
    else (if Eligible(items[0]) then [items[0]] else []) + KeepEligible(items[1..])
  }

  /** Insert `x` into the sorted `s` after the items that come before it. */
  function Insert(x: QueueItem, s: seq<QueueItem>): (r: seq<QueueItem>)
    requires Sorted(s)
    ensures Sorted(r)
    ensures multiset(r) == multiset(s) + multiset{x}
    ensures |r| == |s| + 1
  {
    if s == [] then [x]
    else if Before(x, s[0]) then [x] + s
    else
      var rest := Insert(x, s[1..]);
      InsertBehind(x, s, rest);
      [s[0]] + rest
  }

  /** When `x` goes after the head, the head stays in front of the rest
      with `x` inserted. */
  lemma InsertBehind(x: QueueItem, s: seq<QueueItem>, rest: seq<QueueItem>)
    requires Sorted(s) && s != [] && !Before(x, s[0])
    requires Sorted(rest) && multiset(rest) == multiset(s[1..]) + multiset{x}
    ensures Sorted([s[0]] + rest)
    ensures multiset([s[0]] + rest) == multiset(s) + multiset{x}
  {
    assert multiset(s) == multiset{s[0]} + multiset(s[1..]) by { assert s == [s[0]] + s[1..]; }
    forall j | 0 <= j < |rest| ensures Before(s[0], rest[j]) {
      assert rest[j] in multiset(rest);
      if rest[j] != x {
        assert rest[j] in s[1..];
      }
    }
    var r := [s[0]] + rest;
    assert forall i, j | 0 < i < j < |r| :: r[i] == rest[i - 1] && r[j] == rest[j - 1];
  }

  /** Insertion sort: a sorted permutation. */
  function Sort(s: seq<QueueItem>): (r: seq<QueueItem>)
    ensures Sorted(r)
    ensures multiset(r) == multiset(s)
    ensures |r| == |s|
  {
    if s == [] then []
    else
      assert s == [s[0]] + s[1..];
      Insert(s[0], Sort(s[1..]))
  }

  /** The batch `processQueue` works through. */
  function SelectBatch(items: seq<QueueItem>): (r: seq<QueueItem>)
    ensures |r| <= BatchSize && Sorted(r)
    ensures forall x | x in r :: x in items && Eligible(x)
    ensures |r| == (if |KeepEligible(items)| < BatchSize then |KeepEligible(items)| else BatchSize)
    ensures r == Sort(KeepEligible(items))[..|r|]
  {
    var sorted := Sort(KeepEligible(items));
    var n := if |sorted| < BatchSize then |sorted| else BatchSize;
    PrefixOfSorted(sorted, KeepEligible(items), n);
    sorted[..n]
  }

  /** A prefix of a sorted permutation of `s` is sorted and draws from `s`. */
  lemma PrefixOfSorted(sorted: seq<QueueItem>, s: seq<QueueItem>, n: nat)
    requires Sorted(sorted) && multiset(sorted) == multiset(s) && n <= |sorted|
    ensures Sorted(sorted[..n])
    ensures forall x | x in sorted[..n] :: x in s
  {
    forall x | x in sorted[..n] ensures x in s {
      assert x in multiset(sorted);
    }
  }

  /** An eligible item left out of a full batch comes no earlier than any
      selected one. */
  lemma LeftOutComesLater(items: seq<QueueItem>, x: QueueItem)
    requires Eligible(x) && x in items && x !in SelectBatch(items)
    ensures forall y | y in SelectBatch(items) :: Before(y, x)
  {
    var sorted := Sort(KeepEligible(items));
    var r := SelectBatch(items);
    assert x in multiset(sorted);
    var k :| 0 <= k < |sorted| && sorted[k] == x;
    assert k >= |r|;
    forall y | y in r ensures Before(y, x) {
      var j :| 0 <= j < |r| && r[j] == y;
      assert sorted[j] == y;
    }
  }

  /** More recent orders first: a freshly queued row whose priority beats
      every eligible row already in the table heads the next batch. */
  lemma NewerOrderFirst(table: seq<QueueItem>, n: NewItem, id: string, createdAt: int)
    requires n.status == Pending && n.attempts == 0
    requires forall y | y in table && Eligible(y) :: y.priority < n.priority
    ensures var x := Stored(n, id, createdAt);
      SelectBatch(table + [x]) != [] && SelectBatch(table + [x])[0] == x
  {
    var x := Stored(n, id, createdAt);
    var items := table + [x];
    var eligible := KeepEligible(items);
    var sorted := Sort(eligible);
    assert items[|table|] == x;
    assert x in eligible;
    assert x in multiset(sorted);
    var k :| 0 <= k < |sorted| && sorted[k] == x;
    var head := sorted[0];
    assert head in multiset(eligible);
    assert head in items && Eligible(head);
    assert head in table || head == x;
    assert head in table ==> head.priority < x.priority;
    assert k > 0 ==> Before(head, x);
    assert SelectBatch(items) == sorted[..|SelectBatch(items)|];
  }

  // ---------------------------------------------------------------------
  // processQueueItem

  /** The steps of `processQueueItem`'s `try` that can fail. */
  datatype Step = MarkProcessing | FetchInputs | StoreAssessment | MarkCompleted | UpdateImpact

  /** Where a step sits in the `try`. */
  function Rank(s: Step): nat {
    match s
    case MarkProcessing => 0
    case FetchInputs => 1
    case StoreAssessment => 2
    case MarkCompleted => 3
    case UpdateImpact => 4
  }

  /** The step whose error the `catch` receives: the first in the `try` that
      fails. */
  function FirstFailing(fails: Step -> Option<Thrown>): (r: Option<Step>)
    ensures r.None? <==> forall s :: fails(s).None?
    ensures r.Some? ==> fails(r.value).Some? && forall t :: Rank(t) < Rank(r.value) ==> fails(t).None?
  {
    if fails(MarkProcessing).Some? then Some(MarkProcessing)
    else if fails(FetchInputs).Some? then Some(FetchInputs)
    else if fails(StoreAssessment).Some? then Some(StoreAssessment)
    else if fails(MarkCompleted).Some? then Some(MarkCompleted)
    else if fails(UpdateImpact).Some? then Some(UpdateImpact)
    else
      assert forall s: Step :: fails(s).None? by {
        forall s: Step ensures fails(s).None? {
          assert s == MarkProcessing || s == FetchInputs || s == StoreAssessment || s == MarkCompleted || s == UpdateImpact;
        }
      }
      None
  }

  /** The status writes that succeeded before step `s` ran: none before the
      "processing" write, that one before the middle steps, and the
      "completed" write too before the impact update. */
  function WritesBefore(s: Step): (n: nat)
    ensures n <= 2
  {
    match s
    case MarkProcessing => 0
    case FetchInputs => 1
    case StoreAssessment => 1
    case MarkCompleted => 1
    case UpdateImpact => 2
  }

  /** `updateQueueItemStatus` when the write succeeds: `attempts + 1`; an
      `undefined` error is dropped from the update and leaves the column. */
  function Write(item: QueueItem, status: QueueStatus, error: Option<string>): (r: QueueItem)
    ensures r.status == status && r.attempts == item.attempts + 1
    ensures r.error == (if error.Some? then error else item.error)
    ensures r.id == item.id && r.priority == item.priority && r.provider == item.provider
  {
    item.(status := status, attempts := item.attempts + 1, error := if error.Some? then error else item.error)
  }

  /** The row after one call, and the error it threw (only when the final
      "failed" write itself failed). */
  datatype Processed = Processed(item: QueueItem, threw: Option<Thrown>)

  /** The `catch`: record the failure, unless that write fails too. */
  function Recover(item: QueueItem, e: Thrown, failedWrite: Option<Thrown>): (r: Processed)
    ensures failedWrite.None? ==> r == Processed(Write(item, Failed, Some(e.MessageOr("Unknown error"))), None)
    ensures failedWrite.Some? ==> r == Processed(item, failedWrite)
  {
    if failedWrite.Some? then Processed(item, failedWrite)
    else Processed(Write(item, Failed, Some(e.MessageOr("Unknown error"))), None)
  }

  /** `processQueueItem(item)`: `fails(s)` is the error step `s` throws, if
      any; `failedWrite` the error of the `catch`'s own write. */
  function ProcessItem(item: QueueItem, fails: Step -> Option<Thrown>, failedWrite: Option<Thrown>): (r: Processed)
    ensures item.attempts <= r.item.attempts <= item.attempts + 3
    ensures r.item.id == item.id && r.item.priority == item.priority
    ensures r.threw.None? ==> r.item.status == Completed || r.item.status == Failed
    ensures r.threw.None? ==> (r.item.status == Completed <==> forall s :: fails(s).None?)
    ensures (forall s :: fails(s).None?) ==> r == Processed(Write(Write(item, Processing, None), Completed, None), None)
    ensures fails(MarkProcessing).None? && failedWrite.None? ==> r.item.attempts >= item.attempts + 2
    ensures r.threw.Some? ==> r.threw == failedWrite
    ensures FirstFailing(fails).Some? ==> r.threw == failedWrite
    ensures FirstFailing(fails).Some? ==>
              r.item.attempts == item.attempts + WritesBefore(FirstFailing(fails).value) + (if failedWrite.None? then 1 else 0)
    ensures FirstFailing(fails).Some? && failedWrite.None? ==>
              r.item.status == Failed && r.item.error == Some(fails(FirstFailing(fails).value).value.MessageOr("Unknown error"))
  {
    match fails(MarkProcessing)
    case Some(e) => Recover(item, e, failedWrite)
    case None =>
      var busy := Write(item, Processing, None);
      if fails(FetchInputs).Some? then Recover(busy, fails(FetchInputs).value, failedWrite)
      else if fails(StoreAssessment).Some? then Recover(busy, fails(StoreAssessment).value, failedWrite)
      else if fails(MarkCompleted).Some? then Recover(busy, fails(MarkCompleted).value, failedWrite)
      else
        var done := Write(busy, Completed, None);
        if fails(UpdateImpact).Some? then Recover(done, fails(UpdateImpact).value, failedWrite)
        else
          assert forall s: Step :: fails(s).None? by {
            forall s: Step ensures fails(s).None? {
              assert s == MarkProcessing || s == FetchInputs || s == StoreAssessment || s == MarkCompleted || s == UpdateImpact;
            }
          }
          Processed(done, None)
  }

  /** A completed item is never selected again. */
  lemma CompletedNotEligible(item: QueueItem, fails: Step -> Option<Thrown>, failedWrite: Option<Thrown>)
    requires forall s :: fails(s).None?
    ensures !Eligible(ProcessItem(item, fails, failedWrite).item)
  {
  }

  /** An item queued with 0 attempts is processed at most twice: after two
      rounds whose status writes succeed it has at least 4 attempts. */
  lemma AtMostTwoRounds(item: QueueItem, f1: Step -> Option<Thrown>, f2: Step -> Option<Thrown>)
    requires item.attempts == 0
    requires f1(MarkProcessing).None? && f2(MarkProcessing).None?
    ensures var once := ProcessItem(item, f1, None).item;
      once.attempts >= 2 && !Eligible(ProcessItem(once, f2, None).item)
  {
  }

  // ---------------------------------------------------------------------
  // processQueue: the loop

  /** What a run leaves: the processed rows in order, the pauses taken after
      each, and the error that ended it early. */
  datatype QueueRun = QueueRun(processed: seq<QueueItem>, pauses: nat, threw: Option<Thrown>)

  /** How processing `x` ends when its steps fail as `fails` says. */
  function ProcessOne(x: QueueItem, fails: (QueueItem, Step) -> Option<Thrown>,
                      failedWrite: QueueItem -> Option<Thrown>): Processed {
    ProcessItem(x, (s: Step) => fails(x, s), failedWrite(x))
  }

  /** The `for` loop over the batch; a thrown error ends it. */
  function RunBatch(batch: seq<QueueItem>, fails: (QueueItem, Step) -> Option<Thrown>,
                    failedWrite: QueueItem -> Option<Thrown>): (r: QueueRun)
    ensures |r.processed| <= |batch|
    ensures forall i | 0 <= i < |r.processed| ::
              r.processed[i] == ProcessOne(batch[i], fails, failedWrite).item
    ensures r.threw.None? ==> |r.processed| == |batch| && r.pauses == |batch|
    ensures r.threw.Some? ==> (|r.processed| < |batch| && r.pauses == |r.processed|
              && r.threw == failedWrite(batch[|r.processed|]))
    decreases |batch|
  {
    if batch == [] then QueueRun([], 0, None)
    else
      var x := batch[0];
      var one := ProcessOne(x, fails, failedWrite);
      if one.threw.Some? then QueueRun([], 0, one.threw)
      else
        var rest := RunBatch(batch[1..], fails, failedWrite);
        QueueRun([one.item] + rest.processed, rest.pauses + 1, rest.threw)
  }

  /** `processQueue()`: a failed selection query throws; an empty batch
      returns at once. */
  function ProcessQueue(table: seq<QueueItem>, queryError: Option<Thrown>,
                        fails: (QueueItem, Step) -> Option<Thrown>,
                        failedWrite: QueueItem -> Option<Thrown>): (r: QueueRun)
    ensures queryError.Some? ==> r == QueueRun([], 0, queryError)
    ensures queryError.None? ==> |r.processed| <= BatchSize
    ensures queryError.None? ==> |r.processed| <= |SelectBatch(table)|
    ensures queryError.None? ==> forall i | 0 <= i < |r.processed| && i < |SelectBatch(table)| ::
              r.processed[i].id == SelectBatch(table)[i].id
    ensures queryError.None? && SelectBatch(table) == [] ==> r == QueueRun([], 0, None)
    ensures queryError.None? ==> r == RunBatch(SelectBatch(table), fails, failedWrite)
  {
    if queryError.Some? then QueueRun([], 0, queryError)
    else
      var batch := SelectBatch(table);
      if batch == [] then QueueRun([], 0, None)
      else RunBatch(batch, fails, failedWrite)
  }
}

=== FILE: rating.dfy ===
/** The response-rating heuristics shared by the three provider services
    (`analyzeResponse` and `calculateConfidence` in `deepseek.ts`,
    `perplexity.ts` and `latimer.ts`): an explicit "Rating:" marker decides
    first, otherwise keyword counts are compared; confidence grows with the
    analysis sections present and shrinks with uncertainty words. */
module Rating {
  import opened Wrappers
  import opened Text

  datatype Rating = Positive | Neutral | Negative

  /** A provider's keyword lists for the fallback sentiment count. */
  datatype Terms = Terms(positive: seq<string>, negative: seq<string>)

  const DeepSeekTerms := Terms(
    ["align", "support", "complement", "reinforce", "enhance"],
    ["conflict", "oppose", "contradict", "undermine", "hinder"])

  const LatimerTerms := Terms(
    ["align", "support", "complement", "reinforce", "enhance"],
    ["conflict", "oppose", "contradict", "undermine", "hinder"])

  const PerplexityTerms := Terms(
    ["align", "support", "complement", "reinforce", "positive"],
    ["conflict", "oppose", "contradict", "negative", "misalign"])

  /** The lower-cased text contains "rating: <word>" or "rating:<word>". */
  predicate HasMarker(normalized: string, word: string) {
    Contains(normalized, "rating: " + word) || Contains(normalized, "rating:" + word)
  }

  /** The explicit marker, checked in the order positive, negative, neutral. */
  function ExplicitRating(normalized: string): (r: Option<Rating>)
    ensures HasMarker(normalized, "positive") ==> r == Some(Positive)
    ensures !HasMarker(normalized, "positive") && HasMarker(normalized, "negative") ==> r == Some(Negative)
    ensures (!HasMarker(normalized, "positive") && !HasMarker(normalized, "negative")
             && HasMarker(normalized, "neutral")) ==> r == Some(Neutral)
    ensures r == None <==> !HasMarker(normalized, "positive") && !HasMarker(normalized, "negative")
                           && !HasMarker(normalized, "neutral")
  {
    if HasMarker(normalized, "positive") then Some(Positive)
    else if HasMarker(normalized, "negative") then Some(Negative)
    else if HasMarker(normalized, "neutral") then Some(Neutral)
    else None
  }

  /** Total number of matches of the listed terms, as the `forEach` loops add
      them up. */
  function Score(normalized: string, terms: seq<string>): nat {
    if terms == [] then 0 else Count(normalized, terms[0]) + Score(normalized, terms[1..])
  }

  /** The accumulation in `analyzeResponse`'s `forEach`, statement by statement. */
  method ScoreTerms(normalized: string, terms: seq<string>) returns (score: nat)
    ensures score == Score(normalized, terms)
  {
    score := 0;
    var i := 0;
    while i < |terms|
      invariant 0 <= i <= |terms|
      invariant score + Score(normalized, terms[i..]) == Score(normalized, terms)
    {
      assert terms[i..][1..] == terms[i + 1..];
      score := score + Count(normalized, terms[i]);
      i := i + 1;
    }
  }

  /** Compare two scores: higher positive, higher negative, or a tie. */
  function Compare(positiveScore: nat, negativeScore: nat): Rating {
    if positiveScore > negativeScore then Positive
    else if negativeScore > positiveScore then Negative
    else Neutral
  }

  /** `analyzeResponse(text)` with a provider's term lists. */
  function AnalyzeResponse(terms: Terms, text: string): (r: Rating)
    ensures var n := ToLower(text);
      ExplicitRating(n).Some? ==> r == ExplicitRating(n).value
    ensures var n := ToLower(text);
      var p := Score(n, terms.positive);
      var q := Score(n, terms.negative);
      ExplicitRating(n).None? ==>
        && (r == Positive <==> p > q)
        && (r == Negative <==> q > p)
        && (r == Neutral <==> p == q)
  {
    var n := ToLower(text);
    match ExplicitRating(n)
    case Some(rating) => rating
    case None => Compare(Score(n, terms.positive), Score(n, terms.negative))
  }

  /** Latimer's classifier is DeepSeek's: same marker rule, same term lists. */
  lemma LatimerClassifiesLikeDeepSeek(text: string)
    ensures AnalyzeResponse(LatimerTerms, text) == AnalyzeResponse(DeepSeekTerms, text)
  {
  }

  /** The rating a marker word names. */
  function WordRating(word: string): Rating
    requires word in {"positive", "negative", "neutral"}
  {
    if word == "positive" then Positive else if word == "negative" then Negative else Neutral
  }

  lemma LowerKeepsColonFree(s: string)
    requires ':' !in s
    ensures ':' !in ToLower(s)
  {
  }

  /** In `p + "rating: " + word` with no colon in `p` or `word`, a string
      whose seventh character is the only colon can occur only where the
      trailing statement starts, so it is a prefix of that statement. */
  lemma MarkerOnlyAtTail(p: string, word: string, m: string, i: int)
    requires ':' !in p && ':' !in word
    requires |m| > 6 && m[6] == ':'
    requires OccursAt(p + "rating: " + word, m, i)
    ensures m <= "rating: " + word
  {
    var tail := "rating: " + word;
    var n := p + tail;
    assert n[i..i + |m|][6] == m[6];
    assert n[i + 6] == ':';
    assert forall j | 0 <= j < |p| :: n[j] == p[j];
    assert i + 6 >= |p|;
    var k := i + 6 - |p|;
    assert n[i + 6] == tail[k];
    assert forall j | 0 <= j < |word| :: tail[8 + j] == word[j];
    assert k == 6;
    assert n[|p|..] == tail;
    assert m == tail[..|m|];
  }

  /** No marker for one word is a prefix of the statement for another. */
  lemma MarkersDiffer(a: string, b: string)
    requires a != b
    requires a in {"positive", "negative", "neutral"} && b in {"positive", "negative", "neutral"}
    ensures !("rating: " + a <= "rating: " + b) && !("rating:" + a <= "rating: " + b)
  {
    var x := "rating: " + a;
    var y := "rating: " + b;
    var z := "rating:" + a;
    assert x[8] != y[8] || x[10] != y[10];
    assert z[7] != y[7];
  }

  /** The trailing statement "rating: <word>" shows the marker for `other`
      exactly when `other` is `word`. */
  lemma OnlyTrailingMarker(p: string, word: string, other: string)
    requires ':' !in p
    requires word in {"positive", "negative", "neutral"} && other in {"positive", "negative", "neutral"}
    ensures HasMarker(p + "rating: " + word, other) <==> other == word
  {
    var n := p + "rating: " + word;
    assert n[|p|..] == "rating: " + word;
    if other == word {
      assert OccursAt(n, "rating: " + other, |p|);
    } else {
      MarkersDiffer(other, word);
      forall i | OccursAt(n, "rating: " + other, i) ensures false {
        MarkerOnlyAtTail(p, word, "rating: " + other, i);
      }
      forall i | OccursAt(n, "rating:" + other, i) ensures false {
        MarkerOnlyAtTail(p, word, "rating:" + other, i);
      }
    }
  }

  /** A response ending in an explicit "Rating: <word>" statement, with no
      colon before it, is rated by that word (as the provider tests expect of
      "... alignment.\n\nRating: neutral"). */
  lemma TrailingMarkerDecides(terms: Terms, prefix: string, word: string)
    requires ':' !in prefix
    requires word in {"positive", "negative", "neutral"}
    ensures AnalyzeResponse(terms, prefix + "Rating: " + word) == WordRating(word)
  {
    var text := prefix + "Rating: " + word;
    var p := ToLower(prefix);
    assert ToLower(text) == p + "rating: " + word;
    LowerKeepsColonFree(prefix);
    OnlyTrailingMarker(p, word, "positive");
    OnlyTrailingMarker(p, word, "negative");
    OnlyTrailingMarker(p, word, "neutral");
  }

  // ---------------------------------------------------------------------
  // 'misalign' in Perplexity's lists

  /** Number of (possibly overlapping) occurrences of `t` at or after `lo`. */
  function Positions(s: string, t: string, lo: nat): nat
    decreases |s| - lo
  {
    if lo >= |s| then 0 else (if OccursAt(s, t, lo) then 1 else 0) + Positions(s, t, lo + 1)
  }

  lemma {:induction false} PositionsBeyondEnd(s: string, t: string, lo: nat)
    requires lo + |t| > |s|
    ensures Positions(s, t, lo) == 0
    decreases |s| - lo
  {
    if lo < |s| {
      PositionsBeyondEnd(s, t, lo + 1);
    }
  }

  lemma {:induction false} PositionsSkip(s: string, t: string, a: nat, b: nat)
    requires a <= b <= |s|
    requires forall i :: a <= i < b ==> !OccursAt(s, t, i)
    ensures Positions(s, t, a) == Positions(s, t, b)
    decreases b - a
  {
    if a < b {
      PositionsSkip(s, t, a + 1, b);
    }
  }

  /** For a term whose first letter does not recur in it, matches cannot
      overlap, so the regular-expression count is the number of occurrences. */
  lemma {:induction false} CountIsPositions(s: string, t: string, lo: nat)
    requires t != "" && forall k :: 0 < k < |t| ==> t[k] != t[0]
    requires lo <= |s|
    ensures CountFrom(s, t, lo) == Positions(s, t, lo)
    decreases |s| - lo
  {
    if lo + |t| > |s| {
      PositionsBeyondEnd(s, t, lo);
    } else if s[lo..lo + |t|] == t {
      CountIsPositions(s, t, lo + |t|);
      forall i | lo + 1 <= i < lo + |t| ensures !OccursAt(s, t, i) {
        assert s[lo..lo + |t|][i - lo] == s[i];
        assert s[i] == t[i - lo] && t[i - lo] != t[0];
      }
      PositionsSkip(s, t, lo + 1, lo + |t|);
    } else {
      CountIsPositions(s, t, lo + 1);
    }
  }

  /** Occurrences of "align" at or after `lo` that are not the tail of a
      "misalign". */
  function StandaloneAlign(s: string, lo: nat): nat
    decreases |s| - lo
  {
    if lo >= |s| then 0
    else (if OccursAt(s, "align", lo) && !(lo >= 3 && OccursAt(s, "misalign", lo - 3)) then 1 else 0)
         + StandaloneAlign(s, lo + 1)
  }

  lemma {:induction false} AlignSplitsFrom(s: string, j: nat)
    ensures Positions(s, "align", j + 3) == Positions(s, "misalign", j) + StandaloneAlign(s, j + 3)
    decreases |s| - j
  {
    if j >= |s| {
    } else if j + 3 >= |s| {
      PositionsBeyondEnd(s, "misalign", j);
    } else {
      AlignSplitsFrom(s, j + 1);
      if OccursAt(s, "misalign", j) {
        assert s[j + 3..j + 8] == s[j..j + 8][3..];
        assert OccursAt(s, "align", j + 3);
      }
    }
  }

  lemma {:induction false} ScoreAppend(n: string, terms: seq<string>, t: string)
    ensures Score(n, terms + [t]) == Score(n, terms) + Count(n, t)
  {
    if terms == [] {
      assert [t][1..] == [];
    } else {
      assert (terms + [t])[1..] == terms[1..] + [t];
      ScoreAppend(n, terms[1..], t);
    }
  }

  /** No "misalign" can end in an "align" among the first three positions. */
  lemma AlignNearStart(s: string, lo: nat)
    requires lo < 3 && lo < |s|
    ensures Positions(s, "align", lo) - Positions(s, "align", lo + 1)
            == StandaloneAlign(s, lo) - StandaloneAlign(s, lo + 1)
  {
  }

  /** Every "misalign" also counts as an "align": the number of "align"
      matches is the number of "misalign" matches plus the standalone ones. */
  lemma AlignCountSplits(s: string)
    ensures Count(s, "align") == Count(s, "misalign") + StandaloneAlign(s, 0)
  {
    assert Count(s, "align") == Positions(s, "align", 0) by { CountIsPositions(s, "align", 0); }
    assert Count(s, "misalign") == Positions(s, "misalign", 0) by { CountIsPositions(s, "misalign", 0); }
    assert Positions(s, "align", 3) == Positions(s, "misalign", 0) + StandaloneAlign(s, 3) by {
      AlignSplitsFrom(s, 0);
    }
    assert Positions(s, "align", 0) - Positions(s, "align", 3) == StandaloneAlign(s, 0) - StandaloneAlign(s, 3) by {
      if |s| > 0 { AlignNearStart(s, 0); }
      if |s| > 1 { AlignNearStart(s, 1); }
      if |s| > 2 { AlignNearStart(s, 2); }
    }
  }

  /** Perplexity's fallback is decided as if "misalign" were not a term at all
      and only standalone "align"s counted: each "misalign" adds one to both
      scores. */
  lemma MisalignNeverDecides(text: string)
    requires ExplicitRating(ToLower(text)).None?
    ensures var n := ToLower(text);
      AnalyzeResponse(PerplexityTerms, text)
      == Compare(StandaloneAlign(n, 0) + Score(n, ["support", "complement", "reinforce", "positive"]),
                 Score(n, ["conflict", "oppose", "contradict", "negative"]))
  {
    var n := ToLower(text);
    AlignCountSplits(n);
    var ps := ["align", "support", "complement", "reinforce", "positive"];
    var ns := ["conflict", "oppose", "contradict", "negative", "misalign"];
    var others := ["conflict", "oppose", "contradict", "negative"];
    assert ps[1..] == ["support", "complement", "reinforce", "positive"];
    assert Score(n, ps) == Count(n, "align") + Score(n, ps[1..]);
    ScoreAppend(n, others, "misalign");
    assert others + ["misalign"] == ns;
  }

  // ---------------------------------------------------------------------
  // Confidence (DeepSeek and Perplexity)

  /** Section headings that raise confidence by 0.1 each (case-sensitive). */
  const SectionMarkers := ["Alignment:", "Impact:", "Rating:"]

  /** Words that lower confidence by 0.05 each (case-insensitive). */
  const UncertaintyTerms := ["maybe", "perhaps", "unclear", "uncertain", "possible"]

  /** How many of the listed terms the text includes (each counted once). */
  function Present(text: string, terms: seq<string>): (k: nat)
    ensures k <= |terms|
  {
    if terms == [] then 0
    else (if Contains(text, terms[0]) then 1 else 0) + Present(text, terms[1..])
  }

  function Clamp(x: real, lo: real, hi: real): real {
    if x < lo then lo else if x > hi then hi else x
  }

  /** `calculateConfidence(text)`: 0.7, plus 0.1 per section marker present,
      minus 0.05 per distinct uncertainty word present, clamped to [0.1, 1.0].
      The clamp never binds: the value always lies in [0.45, 1.0]. */
  function Confidence(text: string): (c: real)
    ensures 0.45 <= c <= 1.0
    ensures 0.1 <= c <= 1.0
    ensures c == 0.7 + 0.1 * (Present(text, SectionMarkers) as real)
                 - 0.05 * (Present(ToLower(text), UncertaintyTerms) as real)
  {
    Clamp(0.7 + 0.1 * (Present(text, SectionMarkers) as real)
          - 0.05 * (Present(ToLower(text), UncertaintyTerms) as real), 0.1, 1.0)
  }

  /** `calculateConfidence`'s accumulation, statement by statement. */
  method CalculateConfidence(text: string) returns (c: real)
    ensures c == Confidence(text)
  {
    var confidence := 0.7;
    if Contains(text, "Alignment:") { confidence := confidence + 0.1; }
    if Contains(text, "Impact:") { confidence := confidence + 0.1; }
    if Contains(text, "Rating:") { confidence := confidence + 0.1; }
    assert SectionMarkers[1..] == ["Impact:", "Rating:"];
    assert SectionMarkers[1..][1..] == ["Rating:"];
    assert SectionMarkers[1..][1..][1..] == [];
    assert Present(text, SectionMarkers[1..][1..]) == (if Contains(text, "Rating:") then 1 else 0);
    assert Present(text, SectionMarkers[1..]) == (if Contains(text, "Impact:") then 1 else 0)
      + (if Contains(text, "Rating:") then 1 else 0);
    assert Present(text, SectionMarkers) == (if Contains(text, "Alignment:") then 1 else 0)
      + (if Contains(text, "Impact:") then 1 else 0) + (if Contains(text, "Rating:") then 1 else 0);
    assert confidence == 0.7 + 0.1 * (Present(text, SectionMarkers) as real);
    var lowered := ToLower(text);
    var i := 0;
    while i < |UncertaintyTerms|
      invariant 0 <= i <= |UncertaintyTerms|
      invariant confidence == 0.7 + 0.1 * (Present(text, SectionMarkers) as real)
                              - 0.05 * ((Present(lowered, UncertaintyTerms) - Present(lowered, UncertaintyTerms[i..])) as real)
    {
      assert UncertaintyTerms[i..][1..] == UncertaintyTerms[i + 1..];
      if Contains(lowered, UncertaintyTerms[i]) {
        confidence := confidence - 0.05;
      }
      i := i + 1;
    }
    c := if confidence > 1.0 then 1.0 else confidence;
    c := if c < 0.1 then 0.1 else c;
  }

  lemma {:induction false} PresentAgrees(t1: string, t2: string, terms: seq<string>)
    requires forall i | 0 <= i < |terms| :: Contains(t1, terms[i]) == Contains(t2, terms[i])
    ensures Present(t1, terms) == Present(t2, terms)
  {
    if terms != [] {
      PresentAgrees(t1, t2, terms[1..]);
    }
  }

  /** Confidence depends only on which markers and uncertainty words are
      present, not on how often: repeating "maybe" lowers it only once. */
  lemma ConfidenceDependsOnPresence(t1: string, t2: string)
    requires forall i | 0 <= i < |SectionMarkers| :: Contains(t1, SectionMarkers[i]) == Contains(t2, SectionMarkers[i])
    requires forall i | 0 <= i < |UncertaintyTerms| ::
      Contains(ToLower(t1), UncertaintyTerms[i]) == Contains(ToLower(t2), UncertaintyTerms[i])
    ensures Confidence(t1) == Confidence(t2)
  {
    PresentAgrees(t1, t2, SectionMarkers);
    PresentAgrees(ToLower(t1), ToLower(t2), UncertaintyTerms);
  }
}

=== FILE: scraper.dfy ===
/** The White House page scraper (`src/api/whiteHouseScraper.ts`): the
    title filter, the extraction of the order number from a title, the
    summary fallback, and the rule that the first selector yielding any
    order gives the result. The fetched page is abstracted as the list of
    articles each selector picks out, and date parsing as a parameter. */
module Scraper {
  import opened Wrappers
  import opened Js
  import opened Text

  /** The article selectors, in the order they are tried. */
  const Selectors: seq<string> := [
    ".archive-content article",
    ".presidential-actions article",
    "article.briefing-statement",
    ".entry-content article"]

  /** The literal parts of `/executive order (?:number )?(\d+)/`. */
  const Phrase := "executive order "
  const NumberWord := "number "

  /** The `RangeError` message of `toISOString` on an invalid date. */
  const InvalidTime := "Invalid time value"

  /** What the scraper reads from one article element: the text of its first
      title element, the `href` of its first link, the text of its first
      date element and of its first summary element (empty when absent). */
  datatype Article = Article(titleText: string, href: Option<string>, dateText: string, summaryText: string)

  /** The `Partial<ExecutiveOrder>` pushed for a kept article. */
  datatype ScrapedOrder = ScrapedOrder(number: string, title: string, date: string, url: string, summary: string, status: string)

  /** The fetched page: a non-OK status, a request that threw, or the HTML
      with the articles each selector matches, in document order. */
  datatype Page = NotOk(status: int) | Unreachable | Html(select: string -> seq<Article>)

  // ---------------------------------------------------------------------
  // The order number

  /** `\d`: an ASCII digit. */
  predicate IsDigit(c: char) {
    '0' <= c <= '9'
  }

  predicate AllDigits(s: string) {
    forall i | 0 <= i < |s| :: IsDigit(s[i])
  }

  /** The longest run of digits starting at `i` (what a greedy `\d+` takes). */
  function DigitRun(s: string, i: nat): (r: string)
    requires i <= |s|
    ensures i + |r| <= |s| && r == s[i..i + |r|]
    ensures AllDigits(r)
    ensures i + |r| == |s| || !IsDigit(s[i + |r|])
    decreases |s| - i
  {
    if i < |s| && IsDigit(s[i]) then [s[i]] + DigitRun(s, i + 1) else ""
  }

  /** A digit run is determined by where it starts: a run of digits at `i`
      that is not followed by a digit is the one `DigitRun` takes. */
  lemma {:induction false} DigitRunIs(s: string, i: nat, n: string)
    requires i + |n| <= |s| && s[i..i + |n|] == n && AllDigits(n)
    requires i + |n| == |s| || !IsDigit(s[i + |n|])
    ensures DigitRun(s, i) == n
    decreases |n|
  {
    if n != "" {
      assert s[i] == n[0];
      assert s[i + 1..i + 1 + |n[1..]|] == n[1..];
      DigitRunIs(s, i + 1, n[1..]);
      assert [s[i]] + n[1..] == n;
    }
  }

  /** The captured number of a match of the pattern at index `i` of the
      lower-cased title: after `executive order number ` when a digit follows
      it, otherwise after `executive order ` when a digit follows that. */
  function MatchAt(s: string, i: nat): (r: Option<string>)
    ensures r.Some? ==> r.value != "" && AllDigits(r.value) && OccursAt(s, Phrase, i) && s[i] == 'e'
  {
    var long := i + |Phrase| + |NumberWord|;
    var short := i + |Phrase|;
    if OccursAt(s, Phrase + NumberWord, i) && long < |s| && IsDigit(s[long]) then
      assert s[i..short] == (Phrase + NumberWord)[..|Phrase|];
      assert s[i] == s[i..short][0];
      Some(DigitRun(s, long))
    else if OccursAt(s, Phrase, i) && short < |s| && IsDigit(s[short]) then
      assert s[i] == s[i..short][0];
      Some(DigitRun(s, short))
    else
      None
  }

  /** The leftmost index at or after `i` where `at` finds a match, and what
      it found there: the scan a non-global regular expression performs. */
  function FirstMatch<T>(at: (string, nat) -> Option<T>, s: string, i: nat): Option<T>
    decreases |s| - i
  {
    if i >= |s| then None
    else if at(s, i).Some? then at(s, i)
    else FirstMatch(at, s, i + 1)
  }

  /** `FirstMatch` is the leftmost match: it is found at some `j`, and no
      index before `j` matches; there is none exactly when no index matches. */
  lemma {:induction false} FirstMatchIsLeftmost<T>(at: (string, nat) -> Option<T>, s: string, i: nat)
    ensures FirstMatch(at, s, i).None? <==> forall j | i <= j < |s| :: at(s, j).None?
    ensures FirstMatch(at, s, i).Some? ==>
              exists j | i <= j < |s| :: (at(s, j) == FirstMatch(at, s, i)
                && forall k | i <= k < j :: at(s, k).None?)
    decreases |s| - i
  {
    if i < |s| && at(s, i).None? {
      FirstMatchIsLeftmost(at, s, i + 1);
      if FirstMatch(at, s, i).Some? {
        var j :| i + 1 <= j < |s| && at(s, j) == FirstMatch(at, s, i + 1)
                 && forall k | i + 1 <= k < j :: at(s, k).None?;
        assert forall k | i <= k < j :: at(s, k).None?;
      }
    }
  }

  /** A match at `p` with none before it is the leftmost one. */
  lemma {:induction false} FirstMatchAt<T>(at: (string, nat) -> Option<T>, s: string, i: nat, p: nat)
    requires i <= p < |s|
    requires forall k | i <= k < p :: at(s, k).None?
    requires at(s, p).Some?
    ensures FirstMatch(at, s, i) == at(s, p)
    decreases p - i
  {
    if i < p {
      FirstMatchAt(at, s, i + 1, p);
    }
  }

  /** `numberMatch ? numberMatch[1] : ''` on the lower-cased title. */
  function ExtractNumber(title: string): string {
    match FirstMatch(MatchAt, ToLower(title), 0)
    case Some(n) => n
    case None => ""
  }

  /** The number is a run of digits. */
  lemma NumberIsDigits(title: string)
    ensures AllDigits(ExtractNumber(title))
  {
    FirstMatchIsLeftmost(MatchAt, ToLower(title), 0);
  }

  /** The number is empty exactly when the pattern matches nowhere in the
      lower-cased title. */
  lemma NumberIffMatch(title: string)
    ensures ExtractNumber(title) == "" <==> forall j | 0 <= j < |title| :: MatchAt(ToLower(title), j).None?
  {
    var s := ToLower(title);
    FirstMatchIsLeftmost(MatchAt, s, 0);
    assert |s| == |title|;
  }

  /** A title with a number passes the title filter, so the filter only
      decides which dates are parsed. */
  lemma NumberPassesFilter(title: string)
    requires ExtractNumber(title) != ""
    ensures Contains(ToLower(title), "executive order")
  {
    var s := ToLower(title);
    FirstMatchIsLeftmost(MatchAt, s, 0);
    var j :| 0 <= j < |s| && MatchAt(s, j) == FirstMatch(MatchAt, s, 0);
    PhraseAt(s, j);
  }

  /** A match at `j` starts with the words of the title filter. */
  lemma PhraseAt(s: string, j: nat)
    requires MatchAt(s, j).Some?
    ensures Contains(s, "executive order")
  {
    assert s[j..j + 15] == s[j..j + |Phrase|][..15];
    ContainsAt(s, "executive order", j);
  }

  /** `toLowerCase` leaves digits as they are and non-digits non-digits. */
  lemma LowerKeepsDigits(c: char)
    ensures IsDigit(LowerChar(c)) <==> IsDigit(c)
    ensures IsDigit(c) ==> LowerChar(c) == c
  {
  }

  /** The lower-cased title is the lower-cased parts, digits unchanged. */
  lemma {:induction false} LowerOfTitle(prefix: string, middle: string, n: string, rest: string)
    requires AllDigits(n)
    requires rest == "" || !IsDigit(rest[0])
    ensures var s := ToLower(prefix + middle + n + rest);
            var d := |prefix| + |middle|;
            (forall k | 0 <= k < |prefix| :: s[k] == LowerChar(prefix[k]))
            && s[|prefix|..d] == ToLower(middle) && s[d..d + |n|] == n
            && (d + |n| == |s| || !IsDigit(s[d + |n|]))
  {
    var title := prefix + middle + n + rest;
    var s := ToLower(title);
    var d := |prefix| + |middle|;
    forall k | 0 <= k < |prefix| ensures s[k] == LowerChar(prefix[k]) {
      assert title[k] == prefix[k];
    }
    forall k | 0 <= k < |middle| ensures s[|prefix| + k] == LowerChar(middle[k]) {
      assert title[|prefix| + k] == middle[k];
    }
    forall k | 0 <= k < |n| ensures s[d + k] == n[k] {
      assert title[d + k] == n[k];
      LowerKeepsDigits(n[k]);
    }
    if rest != "" {
      assert title[d + |n|] == rest[0];
      LowerKeepsDigits(rest[0]);
    }
  }

  /** Where the lower-cased phrase is followed by a digit run `n`, the match
      there captures `n`. */
  lemma MatchOfPhrase(s: string, p: nat, numbered: bool, n: string)
    requires var d := p + |Phrase| + (if numbered then |NumberWord| else 0);
             d + |n| <= |s| && s[p..d] == (if numbered then Phrase + NumberWord else Phrase)
             && s[d..d + |n|] == n && n != "" && AllDigits(n)
             && (d + |n| == |s| || !IsDigit(s[d + |n|]))
    ensures MatchAt(s, p) == Some(n)
  {
    if numbered {
      MatchOfLongPhrase(s, p, n);
    } else {
      MatchOfShortPhrase(s, p, n);
    }
  }

  lemma MatchOfLongPhrase(s: string, p: nat, n: string)
    requires var d := p + |Phrase| + |NumberWord|;
             d + |n| <= |s| && s[p..d] == Phrase + NumberWord
             && s[d..d + |n|] == n && n != "" && AllDigits(n)
             && (d + |n| == |s| || !IsDigit(s[d + |n|]))
    ensures MatchAt(s, p) == Some(n)
  {
    var d := p + |Phrase| + |NumberWord|;
    assert s[d] == n[0];
    DigitRunIs(s, d, n);
    assert OccursAt(s, Phrase + NumberWord, p);
  }

  lemma MatchOfShortPhrase(s: string, p: nat, n: string)
    requires var d := p + |Phrase|;
             d + |n| <= |s| && s[p..d] == Phrase
             && s[d..d + |n|] == n && n != "" && AllDigits(n)
             && (d + |n| == |s| || !IsDigit(s[d + |n|]))
    ensures MatchAt(s, p) == Some(n)
  {
    var d := p + |Phrase|;
    assert s[d] == n[0];
    DigitRunIs(s, d, n);
    assert OccursAt(s, Phrase, p);
    assert !OccursAt(s, Phrase + NumberWord, p) by {
      assert (Phrase + NumberWord)[|Phrase|] == 'n';
    }
  }

  /** The phrase as the site writes it lower-cases to the pattern's text. */
  lemma LowerOfPhrase(numbered: bool)
    ensures ToLower(if numbered then "Executive Order Number " else "Executive Order ")
            == if numbered then Phrase + NumberWord else Phrase
  {
    if numbered {
      LowerOfLongPhrase();
    } else {
      LowerOfShortPhrase();
    }
  }

  lemma LowerOfShortPhrase()
    ensures ToLower("Executive Order ") == Phrase
  {
    var m := "Executive Order ";
    assert forall k | 0 <= k < |m| :: ToLower(m)[k] == Phrase[k];
  }

  lemma LowerOfLongPhrase()
    ensures ToLower("Executive Order Number ") == Phrase + NumberWord
  {
    var m := "Executive Order Number ";
    var t := Phrase + NumberWord;
    assert forall k | 0 <= k < |m| :: ToLower(m)[k] == t[k];
  }

  /** A title written `… Executive Order 14148 …` or `… Executive Order
      Number 14148 …`, in any letter case, yields the number, provided no
      earlier `e` can start a match and the number is not followed by
      another digit. */
  lemma NumberOfTitle(prefix: string, numbered: bool, n: string, rest: string)
    requires forall k | 0 <= k < |prefix| :: LowerChar(prefix[k]) != 'e'
    requires n != "" && AllDigits(n)
    requires rest == "" || !IsDigit(rest[0])
    ensures ExtractNumber(prefix + (if numbered then "Executive Order Number " else "Executive Order ") + n + rest) == n
  {
    var middle := if numbered then "Executive Order Number " else "Executive Order ";
    var title := prefix + middle + n + rest;
    MatchInTitle(prefix, numbered, n, rest);
    NoMatchInPrefix(prefix, middle, n, rest);
    NumberAt(title, |prefix|, n);
  }

  /** In such a title the pattern matches where the phrase starts. */
  lemma MatchInTitle(prefix: string, numbered: bool, n: string, rest: string)
    requires n != "" && AllDigits(n)
    requires rest == "" || !IsDigit(rest[0])
    ensures var middle := if numbered then "Executive Order Number " else "Executive Order ";
            |prefix| < |prefix + middle + n + rest| && MatchAt(ToLower(prefix + middle + n + rest), |prefix|) == Some(n)
  {
    var middle := if numbered then "Executive Order Number " else "Executive Order ";
    var s := ToLower(prefix + middle + n + rest);
    var p := |prefix|;
    var d := p + |middle|;
    LowerOfTitle(prefix, middle, n, rest);
    LowerOfPhrase(numbered);
    assert d == p + |Phrase| + (if numbered then |NumberWord| else 0);
    assert s[p..d] == ToLower(middle);
    MatchOfPhrase(s, p, numbered, n);
  }

  /** No match starts inside a prefix without `e` or `E`. */
  lemma NoMatchInPrefix(prefix: string, middle: string, n: string, rest: string)
    requires forall k | 0 <= k < |prefix| :: LowerChar(prefix[k]) != 'e'
    ensures forall k | 0 <= k < |prefix| :: MatchAt(ToLower(prefix + middle + n + rest), k).None?
  {
    var title := prefix + middle + n + rest;
    forall k | 0 <= k < |prefix| ensures ToLower(title)[k] != 'e' {
      assert title[k] == prefix[k];
    }
    NoMatchBefore(ToLower(title), |prefix|);
  }

  /** No match starts before the first `e` of a lower-cased text. */
  lemma NoMatchBefore(s: string, p: nat)
    requires p <= |s|
    requires forall k | 0 <= k < p :: s[k] != 'e'
    ensures forall k | 0 <= k < p :: MatchAt(s, k).None?
  {
  }

  /** The number of a title whose lower-cased form first matches at `p`. */
  lemma NumberAt(title: string, p: nat, n: string)
    requires p < |title|
    requires forall k | 0 <= k < p :: MatchAt(ToLower(title), k).None?
    requires MatchAt(ToLower(title), p) == Some(n)
    ensures ExtractNumber(title) == n
  {
    FirstMatchAt(MatchAt, ToLower(title), 0, p);
  }

  // ---------------------------------------------------------------------
  // One article

  /** An order as the scraper produces it: status `active`, a digit-only
      number read from its title, a title passing the filter, and a summary
      that is never empty. */
  predicate Kept(o: ScrapedOrder) {
    o.status == "active" && o.number != "" && AllDigits(o.number) && o.number == ExtractNumber(o.title)
    && Contains(ToLower(o.title), "executive order") && o.summary != ""
  }

  /** An article passing the title filter whose date text is present but
      cannot be parsed: `toISOString` throws on it. */
  predicate BadDate(a: Article, isoOf: string -> Option<string>) {
    Contains(ToLower(Trim(a.titleText)), "executive order") && Trim(a.dateText) != "" && isoOf(Trim(a.dateText)).None?
  }

  /** The body of `each` for one article, with `isoOf` standing for
      `new Date(text).toISOString()` (`None` where that throws) and `now` for
      the current time. `Done(None)` means the article is skipped. */
  function Visit(a: Article, isoOf: string -> Option<string>, now: string): (r: Attempt<Option<ScrapedOrder>>)
    ensures !Contains(ToLower(Trim(a.titleText)), "executive order") ==> r == Done(None)
    ensures r.Threw? <==> BadDate(a, isoOf)
    ensures r == Done(None) ==> !Contains(ToLower(Trim(a.titleText)), "executive order") || ExtractNumber(Trim(a.titleText)) == ""
    ensures r.Done? && r.value.Some? ==> (Kept(r.value.value) && r.value.value.title == Trim(a.titleText)
              && r.value.value.url == StrOr(a.href, ""))
    ensures r.Done? && r.value.Some? && Trim(a.summaryText) == "" ==> r.value.value.summary == Trim(a.titleText)
    ensures r.Done? && r.value.Some? && Trim(a.summaryText) != "" ==> r.value.value.summary == Trim(a.summaryText)
    ensures r.Done? && r.value.Some? && Trim(a.dateText) != "" ==> isoOf(Trim(a.dateText)) == Some(r.value.value.date)
    ensures r.Done? && r.value.Some? && Trim(a.dateText) == "" ==> r.value.value.date == now
  {
    var title := Trim(a.titleText);
    if !Contains(ToLower(title), "executive order") then Done(None)
    else
      var dateText := Trim(a.dateText);
      var date := if dateText != "" then isoOf(dateText) else Some(now);
      if date.None? then Threw(Error(InvalidTime))
      else
        var number := ExtractNumber(title);
        NumberIsDigits(title);
        var summary := if Trim(a.summaryText) != "" then Trim(a.summaryText) else title;
        if number != "" then
          Done(Some(ScrapedOrder(number, title, date.value, StrOr(a.href, ""), summary, "active")))
        else
          Done(None)
  }

  /** An article yields an order exactly when its title passes the filter,
      its date is not bad and its title carries a number. */
  lemma VisitPushesIff(a: Article, isoOf: string -> Option<string>, now: string)
    ensures var r := Visit(a, isoOf, now);
            (r.Done? && r.value.Some?) <==> Contains(ToLower(Trim(a.titleText)), "executive order") && !BadDate(a, isoOf)
                                            && ExtractNumber(Trim(a.titleText)) != ""
  {
  }

  /** The outcome of each article's visit, in article order. */
  function Visits(articles: seq<Article>, isoOf: string -> Option<string>, now: string): (r: seq<Attempt<Option<ScrapedOrder>>>)
    ensures |r| == |articles|
    ensures forall i | 0 <= i < |articles| :: r[i] == Visit(articles[i], isoOf, now)
  {
    seq(|articles|, i requires 0 <= i < |articles| => Visit(articles[i], isoOf, now))
  }

  /** The orders a run of visits pushes, in order, as if none aborted. */
  function Hits(vs: seq<Attempt<Option<ScrapedOrder>>>): seq<ScrapedOrder> {
    if vs == [] then []
    else (if vs[0].Done? && vs[0].value.Some? then [vs[0].value.value] else []) + Hits(vs[1..])
  }

  /** `$(selector).each(…)` over the selector's articles: the orders pushed,
      or the error that aborted the loop. */
  function Collect(articles: seq<Article>, isoOf: string -> Option<string>, now: string): (r: Attempt<seq<ScrapedOrder>>)
    ensures r.Done? ==> |r.value| <= |articles|
    decreases |articles|
  {
    if articles == [] then Done([])
    else
      match Visit(articles[0], isoOf, now)
      case Threw(e) => Threw(e)
      case Done(hit) =>
        match Collect(articles[1..], isoOf, now)
        case Threw(e) => Threw(e)
        case Done(rest) => Done((if hit.Some? then [hit.value] else []) + rest)
  }

  /** A loop that runs to the end pushes, in article order, exactly the
      orders its visits yield. */
  lemma {:induction false} CollectIsHits(articles: seq<Article>, isoOf: string -> Option<string>, now: string)
    requires Collect(articles, isoOf, now).Done?
    ensures Collect(articles, isoOf, now).value == Hits(Visits(articles, isoOf, now))
    decreases |articles|
  {
    if articles != [] {
      CollectIsHits(articles[1..], isoOf, now);
      HitsOfVisits(articles, isoOf, now);
    }
  }

  /** The hits of a run of visits are the first visit's hit, then the rest's. */
  lemma HitsOfVisits(articles: seq<Article>, isoOf: string -> Option<string>, now: string)
    requires articles != []
    ensures var v := Visit(articles[0], isoOf, now);
            Hits(Visits(articles, isoOf, now))
            == (if v.Done? && v.value.Some? then [v.value.value] else []) + Hits(Visits(articles[1..], isoOf, now))
  {
    var vs := Visits(articles, isoOf, now);
    assert vs[1..] == Visits(articles[1..], isoOf, now);
  }

  /** Every order a selector's loop pushes is a kept one. */
  lemma {:induction false} CollectKept(articles: seq<Article>, isoOf: string -> Option<string>, now: string)
    requires Collect(articles, isoOf, now).Done?
    ensures forall o | o in Collect(articles, isoOf, now).value :: Kept(o)
    decreases |articles|
  {
    if articles != [] {
      CollectKept(articles[1..], isoOf, now);
    }
  }

  /** A loop that runs to the end pushes exactly the orders its visits
      yield: an order is in the result iff some article's visit yields it. */
  lemma CollectMembers(articles: seq<Article>, isoOf: string -> Option<string>, now: string)
    requires Collect(articles, isoOf, now).Done?
    ensures forall o :: o in Collect(articles, isoOf, now).value
                        <==> exists i | 0 <= i < |articles| :: Visit(articles[i], isoOf, now) == Done(Some(o))
  {
    var vs := Visits(articles, isoOf, now);
    CollectIsHits(articles, isoOf, now);
    forall o ensures o in Hits(vs) <==> exists i | 0 <= i < |articles| :: Visit(articles[i], isoOf, now) == Done(Some(o))
    {
      HitsMember(vs, o);
      VisitYields(articles, isoOf, now, o);
    }
  }

  /** Some visit outcome yields `o` iff some article's visit does. */
  lemma VisitYields(articles: seq<Article>, isoOf: string -> Option<string>, now: string, o: ScrapedOrder)
    ensures var vs := Visits(articles, isoOf, now);
            (exists i | 0 <= i < |vs| :: vs[i] == Done(Some(o)))
            <==> exists i | 0 <= i < |articles| :: Visit(articles[i], isoOf, now) == Done(Some(o))
  {
    var vs := Visits(articles, isoOf, now);
    if exists i | 0 <= i < |vs| :: vs[i] == Done(Some(o)) {
      var i :| 0 <= i < |vs| && vs[i] == Done(Some(o));
      assert Visit(articles[i], isoOf, now) == Done(Some(o));
    }
    if exists i | 0 <= i < |articles| :: Visit(articles[i], isoOf, now) == Done(Some(o)) {
      var i :| 0 <= i < |articles| && Visit(articles[i], isoOf, now) == Done(Some(o));
      assert vs[i] == Done(Some(o));
    }
  }

  /** An order is among the hits iff some visit yields it. */
  lemma {:induction false} HitsMember(vs: seq<Attempt<Option<ScrapedOrder>>>, o: ScrapedOrder)
    ensures o in Hits(vs) <==> exists i | 0 <= i < |vs| :: vs[i] == Done(Some(o))
  {
    if vs != [] {
      HitsMember(vs[1..], o);
      if exists i | 0 <= i < |vs| :: vs[i] == Done(Some(o)) {
        var i :| 0 <= i < |vs| && vs[i] == Done(Some(o));
        if i > 0 {
          assert vs[1..][i - 1] == vs[i];
        }
      }
    }
  }

  /** The loop over a selector's articles aborts exactly when one of them
      has a bad date. */
  lemma {:induction false} CollectThrowsIff(articles: seq<Article>, isoOf: string -> Option<string>, now: string)
    ensures Collect(articles, isoOf, now).Threw? <==> exists i | 0 <= i < |articles| :: BadDate(articles[i], isoOf)
    decreases |articles|
  {
    if articles != [] {
      CollectThrowsIff(articles[1..], isoOf, now);
      CollectStep(articles, isoOf, now);
      ExistsCons(BadDate, articles, isoOf);
    }
  }

  /** One step of the loop: it aborts on the first article or on the rest. */
  lemma CollectStep(articles: seq<Article>, isoOf: string -> Option<string>, now: string)
    requires articles != []
    ensures Collect(articles, isoOf, now).Threw? <==> BadDate(articles[0], isoOf) || Collect(articles[1..], isoOf, now).Threw?
  {
  }

  /** Some element satisfies `p` exactly when the first does or one of the rest does. */
  lemma ExistsCons<T, U>(p: (T, U) -> bool, xs: seq<T>, u: U)
    requires xs != []
    ensures (exists i | 0 <= i < |xs| :: p(xs[i], u)) <==> p(xs[0], u) || exists i | 0 <= i < |xs[1..]| :: p(xs[1..][i], u)
  {
    if exists i | 0 <= i < |xs| :: p(xs[i], u) {
      var i :| 0 <= i < |xs| && p(xs[i], u);
      if i > 0 {
        assert xs[1..][i - 1] == xs[i];
      }
    }
    if exists i | 0 <= i < |xs[1..]| :: p(xs[1..][i], u) {
      var i :| 0 <= i < |xs[1..]| && p(xs[1..][i], u);
      assert xs[i + 1] == xs[1..][i];
    }
  }

  // ---------------------------------------------------------------------
  // The selector loop

  /** The outcome of each selector's loop, in selector order. Every outcome
      is a pure function of the page, so listing them all gives the loop
      below the same result as reading them one by one. */
  function Outcomes(select: string -> seq<Article>, isoOf: string -> Option<string>, now: string)
    : (r: seq<Attempt<seq<ScrapedOrder>>>)
    ensures |r| == |Selectors|
    ensures forall j | 0 <= j < |r| :: r[j] == Collect(select(Selectors[j]), isoOf, now)
  {
    seq(|Selectors|, j requires 0 <= j < |Selectors| => Collect(select(Selectors[j]), isoOf, now))
  }

  /** The `for … of possibleArticleSelectors` loop with its `break`: the
      orders of the first selector that yields any, or none; an error
      aborts the loop. */
  function FirstYield<T>(outcomes: seq<Attempt<seq<T>>>): (r: Attempt<seq<T>>)
    decreases |outcomes|
  {
    if outcomes == [] then Done([])
    else
      match outcomes[0]
      case Threw(e) => Threw(e)
      case Done(found) => if |found| > 0 then Done(found) else FirstYield(outcomes[1..])
  }

  /** When every selector before `j` yields nothing and selector `j` yields
      orders, those orders are the result; later selectors do not matter. */
  lemma {:induction false} FirstSelectorWins<T>(outcomes: seq<Attempt<seq<T>>>, j: nat)
    requires j < |outcomes|
    requires forall k | 0 <= k < j :: outcomes[k] == Done([])
    requires outcomes[j].Done? && outcomes[j].value != []
    ensures FirstYield(outcomes) == outcomes[j]
    decreases j
  {
    if j > 0 {
      var rest := outcomes[1..];
      assert outcomes[0] == Done([]);
      assert forall k | 0 <= k < j - 1 :: rest[k] == Done([]) by {
        forall k | 0 <= k < j - 1 ensures rest[k] == Done([]) {
          assert rest[k] == outcomes[k + 1];
        }
      }
      FirstSelectorWins(rest, j - 1);
    }
  }

  /** When no selector yields an order and none aborts, the result is empty. */
  lemma {:induction false} NothingFound<T>(outcomes: seq<Attempt<seq<T>>>)
    requires forall k | 0 <= k < |outcomes| :: outcomes[k] == Done([])
    ensures FirstYield(outcomes) == Done([])
    decreases |outcomes|
  {
    if outcomes != [] {
      assert outcomes[0] == Done([]);
      NothingFound(outcomes[1..]);
    }
  }

  /** Any result comes from one selector, every earlier selector having
      yielded nothing: a non-empty list or an error is that selector's own
      outcome, and an empty list means every selector yielded nothing. */
  lemma {:induction false} ResultFromOneSelector<T>(outcomes: seq<Attempt<seq<T>>>)
    ensures FirstYield(outcomes) != Done([]) ==>
              exists j | 0 <= j < |outcomes| ::
                (outcomes[j] == FirstYield(outcomes) && forall k | 0 <= k < j :: outcomes[k] == Done([]))
    ensures FirstYield(outcomes) == Done([]) ==> forall k | 0 <= k < |outcomes| :: outcomes[k] == Done([])
    decreases |outcomes|
  {
    if outcomes != [] && outcomes[0] == Done([]) {
      var rest := outcomes[1..];
      ResultFromOneSelector(rest);
      assert FirstYield(outcomes) == FirstYield(rest);
      if FirstYield(rest) != Done([]) {
        var j :| 0 <= j < |rest| && rest[j] == FirstYield(rest) && forall k | 0 <= k < j :: rest[k] == Done([]);
        assert outcomes[j + 1] == rest[j];
        assert forall k | 0 <= k < j + 1 :: outcomes[k] == Done([]) by {
          forall k | 0 <= k < j + 1 ensures outcomes[k] == Done([]) {
            if k > 0 { assert outcomes[k] == rest[k - 1]; }
          }
        }
      } else {
        forall k | 0 <= k < |outcomes| ensures outcomes[k] == Done([]) {
          if k > 0 { assert outcomes[k] == rest[k - 1]; }
        }
      }
    } else if outcomes != [] {
      assert outcomes[0] == FirstYield(outcomes);
    }
  }

  // ---------------------------------------------------------------------
  // scrapeWhiteHouseOrders

  /** `scrapeWhiteHouseOrders()`: the orders of the first selector yielding
      any; an HTTP error, a failed request or an invalid date gives none. */
  function Scrape(page: Page, isoOf: string -> Option<string>, now: string): (r: seq<ScrapedOrder>)
    ensures !page.Html? ==> r == []
    ensures page.Html? && FirstYield(Outcomes(page.select, isoOf, now)).Threw? ==> r == []
    ensures page.Html? && FirstYield(Outcomes(page.select, isoOf, now)).Done?
            ==> r == FirstYield(Outcomes(page.select, isoOf, now)).value
  {
    match page
    case Html(select) =>
      (match FirstYield(Outcomes(select, isoOf, now))
       case Done(found) => found
       case Threw(_) => [])
    case _ => []
  }

  /** Every scraped order is a kept one: status `active`, a digit-only number
      read from its title, a title passing the filter and a non-empty summary. */
  lemma ScrapedAreKept(page: Page, isoOf: string -> Option<string>, now: string)
    ensures forall o | o in Scrape(page, isoOf, now) :: Kept(o)
  {
    if page.Html? && Scrape(page, isoOf, now) != [] {
      var outcomes := Outcomes(page.select, isoOf, now);
      ResultFromOneSelector(outcomes);
      var j :| 0 <= j < |outcomes| && outcomes[j] == FirstYield(outcomes) && forall k | 0 <= k < j :: outcomes[k] == Done([]);
      CollectKept(page.select(Selectors[j]), isoOf, now);
    }
  }

  /** The result is the orders of the first selector yielding any, provided
      no earlier selector hit an invalid date. */
  lemma ScrapeTakesFirstYield(select: string -> seq<Article>, isoOf: string -> Option<string>, now: string, j: nat)
    requires j < |Selectors|
    requires forall k | 0 <= k < j :: Collect(select(Selectors[k]), isoOf, now) == Done([])
    requires Collect(select(Selectors[j]), isoOf, now).Done? && Collect(select(Selectors[j]), isoOf, now).value != []
    ensures Scrape(Html(select), isoOf, now) == Collect(select(Selectors[j]), isoOf, now).value
  {
    FirstSelectorWins(Outcomes(select, isoOf, now), j);
  }

  /** A date that cannot be parsed on a filtered article of the first
      selector empties the whole result. */
  lemma InvalidDateEmptiesResult(select: string -> seq<Article>, isoOf: string -> Option<string>, now: string, i: nat)
    requires i < |select(Selectors[0])|
    requires BadDate(select(Selectors[0])[i], isoOf)
    ensures Scrape(Html(select), isoOf, now) == []
  {
    CollectThrowsIff(select(Selectors[0]), isoOf, now);
    assert Outcomes(select, isoOf, now)[0].Threw?;
  }
}

=== FILE: supabase_client.dfy ===
/** The Supabase client helpers (`src/lib/supabase.ts`) and the connection
    check of the main screen that uses them (`checkConnection` in
    `src/App.tsx`): configuration validation, the environment report, the
    connection test with its retry and backoff policy, and the mapping of
    errors to user messages. The two environment variables are optional
    strings; each connection attempt's outcome is a parameter. */
module SupabaseClient {
  import opened Wrappers
  import opened Js
  import opened Text

  const MissingEnv := "Missing Supabase environment variables. Please ensure you have connected to Supabase."

  /** Loading the module throws unless both variables are set. */
  function LoadClient(url: Option<string>, key: Option<string>): (r: Result<()>)
    ensures r.Ok? <==> StrTruthy(url) && StrTruthy(key)
    ensures r.Fail? ==> r.error == MissingEnv
  {
    if !StrTruthy(url) || !StrTruthy(key) then Fail(MissingEnv) else Ok(())
  }

  // ---------------------------------------------------------------------
  // validateConfig

  /** `{ isValid, issues }`. */
  datatype Validation = Validation(isValid: bool, issues: seq<string>)

  /** The issue with one variable, if any: `missing` when it is empty,
      `malformed` when it does not start with `prefix`. */
  function Issue(value: Option<string>, prefix: string, missing: string, malformed: string): (r: seq<string>)
    ensures |r| <= 1
    ensures r == [] <==> StrTruthy(value) && StartsWith(value.value, prefix)
    ensures !StrTruthy(value) ==> r == [missing]
    ensures StrTruthy(value) && !StartsWith(value.value, prefix) ==> r == [malformed]
  {
    if !StrTruthy(value) then [missing]
    else if !StartsWith(value.value, prefix) then [malformed]
    else []
  }

  /** `validateConfig()`: the URL's issue, then the key's. */
  function ValidateConfig(url: Option<string>, key: Option<string>): (r: Validation)
    ensures r.isValid <==> r.issues == []
    ensures r.isValid <==> StrTruthy(url) && StartsWith(url.value, "https://")
                           && StrTruthy(key) && StartsWith(key.value, "eyJ")
    ensures |r.issues| <= 2
    ensures !StrTruthy(url) ==> r.issues[0] == "Missing VITE_SUPABASE_URL"
    ensures StrTruthy(url) && !StartsWith(url.value, "https://") ==> r.issues[0] == "Invalid VITE_SUPABASE_URL format"
    ensures !StrTruthy(key) ==> r.issues[|r.issues| - 1] == "Missing VITE_SUPABASE_ANON_KEY"
    ensures StrTruthy(key) && !StartsWith(key.value, "eyJ")
            ==> r.issues[|r.issues| - 1] == "Invalid VITE_SUPABASE_ANON_KEY format"
  {
    var issues := Issue(url, "https://", "Missing VITE_SUPABASE_URL", "Invalid VITE_SUPABASE_URL format")
                  + Issue(key, "eyJ", "Missing VITE_SUPABASE_ANON_KEY", "Invalid VITE_SUPABASE_ANON_KEY format");
    Validation(issues == [], issues)
  }

  /** Each variable has at most one issue: it is missing or malformed, never both. */
  lemma OneIssuePerVariable(url: Option<string>, key: Option<string>)
    ensures var issues := ValidateConfig(url, key).issues;
      !("Missing VITE_SUPABASE_URL" in issues && "Invalid VITE_SUPABASE_URL format" in issues)
      && !("Missing VITE_SUPABASE_ANON_KEY" in issues && "Invalid VITE_SUPABASE_ANON_KEY format" in issues)
  {
  }

  /** Once the module has loaded, no variable can be reported missing. */
  lemma LoadedNeverMissing(url: Option<string>, key: Option<string>)
    requires LoadClient(url, key).Ok?
    ensures "Missing VITE_SUPABASE_URL" !in ValidateConfig(url, key).issues
    ensures "Missing VITE_SUPABASE_ANON_KEY" !in ValidateConfig(url, key).issues
  {
  }

  // ---------------------------------------------------------------------
  // checkEnvironment

  /** `checkEnvironment()`: 'Set' or 'Missing' for each variable. */
  function CheckEnvironment(url: Option<string>, key: Option<string>): (r: (string, string))
    ensures r.0 == (if StrTruthy(url) then "Set" else "Missing")
    ensures r.1 == (if StrTruthy(key) then "Set" else "Missing")
  {
    (if StrTruthy(url) then "Set" else "Missing", if StrTruthy(key) then "Set" else "Missing")
  }

  /** Both reports are non-empty strings, so the screen's test for a falsy
      report never fires. */
  lemma EnvironmentReportTruthy(url: Option<string>, key: Option<string>)
    ensures CheckEnvironment(url, key).0 != "" && CheckEnvironment(url, key).1 != ""
  {
  }

  // ---------------------------------------------------------------------
  // testConnection

  /** How one attempt's health query ended: rows, an `error` in the
      response, or a thrown value. */
  datatype Probe = Healthy | HealthError(error: Thrown) | Raised(error: Thrown)

  /** What `testConnection` reports, with the number of attempts made and
      the wait after each attempt but the last (0 for none). */
  datatype Connection = Connection(success: bool, error: Option<string>, attempts: nat, waits: seq<int>)

  const TablesNotFound := "Database tables not found. Please ensure you have connected to Supabase and run the migrations."
  const PermissionDenied := "Permission denied. Please check your Supabase connection and ensure proper access rights."
  const NetworkError := "Network error. Please check your internet connection and try again."
  const ConnectFailed := "Failed to connect to database. Please ensure you have connected to Supabase."
  const GaveUp := "Failed to establish database connection after multiple attempts. Please try again."

  /** `Math.min(1000 * Math.pow(2, attempt - 1), 5000)`. */
  function Backoff(attempt: nat): (d: int)
    requires attempt >= 1
    ensures 1000 <= d <= 5000
  {
    var w := 1000 * Pow2(attempt - 1);
    if w < 5000 then w else 5000
  }

  lemma {:induction false} Pow2AtLeast8(n: nat)
    requires n >= 3
    ensures Pow2(n) >= 8
    decreases n
  {
    if n > 3 {
      Pow2AtLeast8(n - 1);
    }
  }

  /** The waits are 1, 2 and 4 seconds, then 5 seconds from the fourth attempt on. */
  lemma BackoffSchedule(attempt: nat)
    requires attempt >= 1
    ensures attempt == 1 ==> Backoff(attempt) == 1000
    ensures attempt == 2 ==> Backoff(attempt) == 2000
    ensures attempt == 3 ==> Backoff(attempt) == 4000
    ensures attempt >= 4 ==> Backoff(attempt) == 5000
  {
    if attempt >= 4 {
      Pow2AtLeast8(attempt - 1);
    }
  }

  /** The `catch` block's decision on a caught value: the message to return
      with, or `None` to go on to the next attempt. */
  function Verdict(e: Thrown, last: bool): (r: Option<string>)
    ensures last ==> r.Some?
    ensures e.IsError() && (Contains(ToLower(e.message), "not found") || Contains(ToLower(e.message), "does not exist"))
            ==> r == Some(TablesNotFound)
    ensures !last && r.Some? ==> r.value in {TablesNotFound, PermissionDenied}
  {
    if e.IsError() then
      var message := ToLower(e.message);
      if Contains(message, "not found") || Contains(message, "does not exist") then Some(TablesNotFound)
      else if Contains(message, "permission denied") then Some(PermissionDenied)
      else if Contains(message, "network") || Contains(message, "failed to fetch") then
        (if last then Some(NetworkError) else None)
      else if last then Some(e.message)
      else None
    else if last then Some(ConnectFailed)
    else None
  }

  /** The decision an attempt leads to: success, a message, or going on. */
  function Step(p: Probe, last: bool): (r: Option<Option<string>>)
    ensures p.Healthy? <==> r == Some(None)
    ensures last ==> r.Some?
    ensures r.Some? && r.value.Some? && !last ==> r.value.value in {TablesNotFound, PermissionDenied}
  {
    match p
    case Healthy => Some(None)
    case HealthError(e) => if last then (var v := Verdict(e, true); Some(v)) else None
    case Raised(e) => var v := Verdict(e, last); if v.Some? then Some(v) else None
  }

  /** Attempt `a` of `retries` neither succeeds nor decides: the loop goes on. */
  predicate GoesOn(probe: nat -> Probe, retries: int, a: nat) {
    Step(probe(a), a == retries).None?
  }

  /** The loop from `attempt` on. */
  function TestFrom(retries: int, probe: nat -> Probe, attempt: nat): (r: Connection)
    requires attempt >= 1
    ensures attempt > retries ==> r == Connection(false, Some(GaveUp), 0, [])
    ensures attempt <= retries ==> 1 <= r.attempts <= retries - attempt + 1
    ensures attempt <= retries ==> (r.success <==> probe(attempt + r.attempts - 1).Healthy?)
    ensures r.success <==> r.error.None?
    ensures attempt <= retries ==> |r.waits| == r.attempts - 1
    ensures forall k | 0 <= k < |r.waits| :: r.waits[k] == (if probe(attempt + k).HealthError? then Backoff(attempt + k) else 0)
    ensures forall a | attempt <= a < attempt + r.attempts - 1 :: GoesOn(probe, retries, a)
    ensures attempt <= retries ==> Step(probe(attempt + r.attempts - 1), attempt + r.attempts - 1 == retries) == Some(r.error)
    decreases if retries >= attempt then retries - attempt + 1 else 0
  {
    if attempt > retries then Connection(false, Some(GaveUp), 0, [])
    else
      var last := attempt == retries;
      match Step(probe(attempt), last)
      case Some(outcome) =>
        Connection(outcome.None?, outcome, 1, [])
      case None =>
        var rest := TestFrom(retries, probe, attempt + 1);
        var wait := if probe(attempt).HealthError? then Backoff(attempt) else 0;
        var waits := [wait] + rest.waits;
        assert forall k | 1 <= k < |waits| :: waits[k] == rest.waits[k - 1];
        Connection(rest.success, rest.error, rest.attempts + 1, waits)
  }

  /** `testConnection(retries)`: at most `retries` attempts, ending at the
      first healthy one or the first that decides; with no attempt at all
      it gives up. */
  function TestConnection(retries: int, probe: nat -> Probe): (r: Connection)
    ensures retries < 1 ==> r == Connection(false, Some(GaveUp), 0, [])
    ensures retries >= 1 ==> 1 <= r.attempts <= retries
    ensures retries >= 1 ==> (r.success <==> probe(r.attempts).Healthy?)
    ensures retries >= 1 ==> Step(probe(r.attempts), r.attempts == retries) == Some(r.error)
    ensures forall a | 1 <= a < r.attempts :: GoesOn(probe, retries, a)
    ensures forall k | 0 <= k < |r.waits| :: r.waits[k] == (if probe(k + 1).HealthError? then Backoff(k + 1) else 0)
  {
    TestFrom(retries, probe, 1)
  }

  /** A missing table ends the test at once, whichever attempt it happens on. */
  lemma NotFoundEndsTest(retries: int, probe: nat -> Probe, a: nat, message: string)
    requires 1 <= a <= retries
    requires forall k | 1 <= k < a :: GoesOn(probe, retries, k)
    requires probe(a) == Raised(Error(message)) && Contains(ToLower(message), "not found")
    ensures TestConnection(retries, probe).attempts == a
    ensures TestConnection(retries, probe).error == Some(TablesNotFound)
  {
    var r := TestConnection(retries, probe);
    assert !GoesOn(probe, retries, r.attempts);
    assert !GoesOn(probe, retries, a);
  }

  /** A health error before the last attempt is retried after its backoff;
      the one on the last attempt is thrown and judged like a caught error. */
  lemma HealthErrorsRetried(retries: int, probe: nat -> Probe)
    requires retries >= 2
    requires forall k | 1 <= k < retries :: probe(k).HealthError?
    requires probe(retries).Healthy?
    ensures TestConnection(retries, probe).success
    ensures TestConnection(retries, probe).attempts == retries
    ensures forall k | 0 <= k < retries - 1 :: TestConnection(retries, probe).waits[k] == Backoff(k + 1)
  {
    var r := TestConnection(retries, probe);
    assert r.attempts < retries ==> probe(r.attempts).HealthError?;
  }

  // ---------------------------------------------------------------------
  // handleSupabaseError

  /** The messages for the four keyword groups, in the order they are tested. */
  const KeywordMessages: seq<string> := [
    "The requested resource was not found. Please ensure you have connected to Supabase and run the migrations.",
    "Permission denied. Please check your Supabase connection and ensure proper access rights.",
    "Network error. Please check your internet connection and try again.",
    "The request timed out. Please try again."]

  /** The first keyword group (1 to 4) a lower-cased message mentions, 0 for none. */
  function Keywords(message: string): (g: nat)
    ensures g <= 4
    ensures g == 0 <==> !Contains(message, "not found") && !Contains(message, "does not exist")
                        && !Contains(message, "permission denied") && !Contains(message, "network")
                        && !Contains(message, "failed to fetch") && !Contains(message, "timeout")
  {
    if Contains(message, "not found") || Contains(message, "does not exist") then 1
    else if Contains(message, "permission denied") then 2
    else if Contains(message, "network") || Contains(message, "failed to fetch") then 3
    else if Contains(message, "timeout") then 4
    else 0
  }

  /** `handleSupabaseError(error)`; `None` is a falsy value. */
  function HandleSupabaseError(error: Option<Thrown>): (r: string)
    ensures error.None? ==> r == "An unknown error occurred"
    ensures error.Some? && !error.value.IsError() ==> r == "An unexpected error occurred. Please try again."
    ensures error.Some? && error.value.IsError()
            && (Contains(ToLower(error.value.message), "not found") || Contains(ToLower(error.value.message), "does not exist"))
            ==> r == "The requested resource was not found. Please ensure you have connected to Supabase and run the migrations."
    ensures error.Some? && error.value.IsError() && Keywords(ToLower(error.value.message)) == 0
            ==> r == error.value.message
    ensures error.Some? && error.value.IsError() && Keywords(ToLower(error.value.message)) > 0
            ==> r == KeywordMessages[Keywords(ToLower(error.value.message)) - 1]
  {
    match error
    case None => "An unknown error occurred"
    case Some(e) =>
      if !e.IsError() then "An unexpected error occurred. Please try again."
      else
        var message := ToLower(e.message);
        if Contains(message, "not found") || Contains(message, "does not exist") then
          "The requested resource was not found. Please ensure you have connected to Supabase and run the migrations."
        else if Contains(message, "permission denied") then
          "Permission denied. Please check your Supabase connection and ensure proper access rights."
        else if Contains(message, "network") || Contains(message, "failed to fetch") then
          "Network error. Please check your internet connection and try again."
        else if Contains(message, "timeout") then "The request timed out. Please try again."
        else e.message
  }

  // ---------------------------------------------------------------------
  // checkConnection (App.tsx)

  /** The main screen's verdict: connected, or the error it shows. */
  datatype Check = Connected | CheckFailed(message: string)

  /** `checkConnection()` up to loading the orders; the module has loaded. */
  function CheckConnection(url: Option<string>, key: Option<string>, probe: nat -> Probe): (r: Check)
    requires LoadClient(url, key).Ok?
    ensures !ValidateConfig(url, key).isValid
            ==> r == CheckFailed("Invalid configuration: " + Join(ValidateConfig(url, key).issues, ", "))
    ensures r.Connected? <==> ValidateConfig(url, key).isValid && TestConnection(3, probe).success
    ensures r.CheckFailed? ==> r.message != ""
    ensures ValidateConfig(url, key).isValid && !TestConnection(3, probe).success
            ==> r == CheckFailed(StrOr(TestConnection(3, probe).error,
                                       "Failed to connect to database. Please ensure you are connected to Supabase."))
  {
    var v := ValidateConfig(url, key);
    if !v.isValid then
      var message := "Invalid configuration: " + Join(v.issues, ", ");
      assert message[0] == 'I';
      CheckFailed(message)
    else
      var env := CheckEnvironment(url, key);
      if env.0 == "" || env.1 == "" then
        CheckFailed("Missing Supabase configuration. Please click the \"Connect to Supabase\" button in the top right corner.")
      else
        var c := TestConnection(3, probe);
        if c.success then Connected
        else CheckFailed(StrOr(c.error, "Failed to connect to database. Please ensure you are connected to Supabase."))
  }
}

=== FILE: text.dfy ===
/** String primitives the application uses through JavaScript's `String`
    methods: ASCII case mapping, `includes`, `startsWith`, `trim`, and the
    number of matches of a literal global regular expression. */
module Text {

  /** `toLowerCase` on one character, ASCII letters only. */
  function LowerChar(c: char): char {
    if 'A' <= c <= 'Z' then (c as int + 32) as char else c
  }

  /** `toUpperCase` on one character, ASCII letters only. */
  function UpperChar(c: char): char {
    if 'a' <= c <= 'z' then (c as int - 32) as char else c
  }

  /** `s.toLowerCase()`, ASCII letters only. */
  function ToLower(s: string): (r: string)
    ensures |r| == |s|
    ensures forall i :: 0 <= i < |s| ==> r[i] == LowerChar(s[i])
  {
    seq(|s|, i requires 0 <= i < |s| => LowerChar(s[i]))
  }

  /** `s.toUpperCase()`, ASCII letters only. */
  function ToUpper(s: string): (r: string)
    ensures |r| == |s|
    ensures forall i :: 0 <= i < |s| ==> r[i] == UpperChar(s[i])
  {
    seq(|s|, i requires 0 <= i < |s| => UpperChar(s[i]))
  }

  /** `t` occurs in `s` starting at index `i`. */
  predicate OccursAt(s: string, t: string, i: int) {
    0 <= i && i + |t| <= |s| && s[i..i + |t|] == t
  }

  /** `s.includes(t)`. */
  predicate Contains(s: string, t: string) {
    exists i | 0 <= i <= |s| - |t| :: OccursAt(s, t, i)
  }

  /** `s.startsWith(p)`. */
  predicate StartsWith(s: string, p: string) {
    p <= s
  }

  lemma ContainsAt(s: string, t: string, i: int)
    requires OccursAt(s, t, i)
    ensures Contains(s, t)
  {
  }

  /** A string lacking one of the characters of `t` does not contain `t`. */
  lemma MissingCharNotContained(s: string, t: string, k: int)
    requires 0 <= k < |t| && t[k] !in s
    ensures !Contains(s, t)
  {
  }

  /** A string that contains `t` still contains it with text added on either side. */
  lemma ContainsExtended(a: string, s: string, b: string, t: string)
    requires Contains(s, t)
    ensures Contains(a + s + b, t)
  {
    var i :| 0 <= i <= |s| - |t| && OccursAt(s, t, i);
    assert (a + s + b)[|a| + i..|a| + i + |t|] == s[i..i + |t|];
    ContainsAt(a + s + b, t, |a| + i);
  }

  /** The characters `String.prototype.trim` and the regular expression class
      `\s` treat as white space (ECMA-262 WhiteSpace and LineTerminator). */
  predicate IsSpace(c: char) {
    var n := c as int;
    n == 0x09 || n == 0x0A || n == 0x0B || n == 0x0C || n == 0x0D || n == 0x20
    || n == 0xA0 || n == 0x1680 || (0x2000 <= n <= 0x200A) || n == 0x2028
    || n == 0x2029 || n == 0x202F || n == 0x205F || n == 0x3000 || n == 0xFEFF
  }

  /** Every character of `s` is white space. */
  predicate Blank(s: string) {
    forall i | 0 <= i < |s| :: IsSpace(s[i])
  }

  /** `s` without its leading white space. */
  function TrimStart(s: string): (r: string)
    ensures |r| <= |s| && r == s[|s| - |r|..]
    ensures r == "" || !IsSpace(r[0])
    ensures r == "" <==> Blank(s)
  {
    if |s| > 0 && IsSpace(s[0]) then
      var r := TrimStart(s[1..]);
      assert Blank(s) <==> Blank(s[1..]) by {
        if Blank(s[1..]) {
          forall i | 0 <= i < |s| ensures IsSpace(s[i]) {
            if i > 0 { assert s[1..][i - 1] == s[i]; }
          }
        }
      }
      r
    else
      s
  }

  /** `s` without its trailing white space. */
  function TrimEnd(s: string): (r: string)
    ensures |r| <= |s| && r == s[..|r|]
    ensures r == "" || !IsSpace(r[|r| - 1])
    ensures r == "" <==> Blank(s)
  {
    if |s| > 0 && IsSpace(s[|s| - 1]) then
      var r := TrimEnd(s[..|s| - 1]);
      assert Blank(s) <==> Blank(s[..|s| - 1]) by {
        if Blank(s[..|s| - 1]) {
          forall i | 0 <= i < |s| ensures IsSpace(s[i]) {
            if i < |s| - 1 { assert s[..|s| - 1][i] == s[i]; }
          }
        }
      }
      r
    else
      s
  }

  /** `s.trim()`: `s` without leading and trailing white space. It is empty
      exactly when `s` is all white space. */
  function Trim(s: string): (r: string)
    ensures |r| <= |s|
    ensures r == "" || (!IsSpace(r[0]) && !IsSpace(r[|r| - 1]))
    ensures r == "" <==> Blank(s)
  {
    var a := TrimStart(s);
    assert a != "" ==> !Blank(a);
    TrimEnd(a)
  }

  /** The number of matches `s.match(new RegExp(t, 'g'))` returns for a
      pattern `t` without special characters, scanning from index `lo`: each
      match resumes the search just after itself, so matches never overlap.
      An empty pattern matches at every position. */
  function CountFrom(s: string, t: string, lo: nat): nat
    decreases |s| - lo
  {
    if lo > |s| then 0
    else if t == "" then |s| - lo + 1
    else if lo + |t| > |s| then 0
    else if s[lo..lo + |t|] == t then 1 + CountFrom(s, t, lo + |t|)
    else CountFrom(s, t, lo + 1)
  }

  /** `(s.match(new RegExp(t, 'g')) || []).length`. */
  function Count(s: string, t: string): nat {
    CountFrom(s, t, 0)
  }

  /** Scanning from `lo` finds a match exactly when `t` occurs at or after `lo`. */
  lemma {:induction false} CountFromPositive(s: string, t: string, lo: nat)
    requires t != "" && lo <= |s|
    ensures CountFrom(s, t, lo) > 0 <==> exists i | lo <= i <= |s| - |t| :: OccursAt(s, t, i)
    decreases |s| - lo
  {
    if lo + |t| > |s| {
    } else if s[lo..lo + |t|] == t {
      assert OccursAt(s, t, lo);
    } else {
      CountFromPositive(s, t, lo + 1);
      if exists i | lo <= i <= |s| - |t| :: OccursAt(s, t, i) {
        var i :| lo <= i <= |s| - |t| && OccursAt(s, t, i);
        assert i != lo;
      }
    }
  }

  /** A non-empty pattern has at least one match exactly when the text includes it. */
  lemma CountPositiveIffContains(s: string, t: string)
    requires t != ""
    ensures Count(s, t) > 0 <==> Contains(s, t)
  {
    CountFromPositive(s, t, 0);
  }
}

=== FILE: upload_form.dfy ===
/** The upload form (`src/components/DocumentUpload.tsx`): the checks on a
    chosen file, the guard and error handling of a submission, the progress
    counter while the upload runs, and the reset after success. The upload
    itself is a parameter; the interval timer is the number of ticks that
    fire before the upload answers. */
module UploadForm {
  import opened Wrappers
  import opened Js
  import opened Text
  import opened Base64
  import opened Documents

  const DefaultPolicyType := "project2025"
  const MissingInput := "Please provide both a title and a PDF file"
  const TooLarge := "File is too large for processing. Please try a smaller file or split the document."
  const UploadFailed := "Failed to upload document"

  /** The component's state. */
  datatype Form = Form(
    file: Option<File>,
    title: string,
    policyType: string,
    loading: bool,
    error: Option<string>,
    progress: int)

  /** The state on first render. */
  function Initial(): Form {
    Form(None, "", DefaultPolicyType, false, None, 0)
  }

  // ---------------------------------------------------------------------
  // handleFileChange

  /** The first failing check on a chosen file. The five-byte header is read
      as a binary string, one character per byte, so `startsWith('%PDF-')`
      is the byte test of `HasPdfHeader`. */
  function SelectionError(f: File): (r: Option<string>)
    ensures r.None? <==> f.mimeType == PdfType && |f.bytes| <= MaxPdfSize && HasPdfHeader(f.bytes)
    ensures f.mimeType != PdfType ==> r == Some("Please select a valid PDF file")
    ensures f.mimeType == PdfType && |f.bytes| > MaxPdfSize ==> r == Some("File size must be less than 10MB")
    ensures f.mimeType == PdfType && |f.bytes| <= MaxPdfSize && !HasPdfHeader(f.bytes)
            ==> r == Some("Invalid PDF file format")
  {
    if f.mimeType != PdfType then Some("Please select a valid PDF file")
    else if |f.bytes| > MaxPdfSize then Some("File size must be less than 10MB")
    else if !HasPdfHeader(f.bytes) then Some("Invalid PDF file format")
    else None
  }

  /** A selected file, if any, passed the checks. */
  predicate SelectionOk(form: Form) {
    form.file.Some? ==> SelectionError(form.file.value).None?
  }

  /** `handleFileChange`: no file chosen leaves the form alone; a failing
      file is dropped with its message; a passing one is selected and the
      error cleared. Nothing else changes. */
  function FileChange(form: Form, chosen: Option<File>): (r: Form)
    ensures chosen.None? ==> r == form
    ensures chosen.Some? ==> (r.file.Some? <==> SelectionError(chosen.value).None?)
    ensures chosen.Some? ==> r.error == SelectionError(chosen.value)
    ensures chosen.Some? && r.file.Some? ==> r.file == chosen
    ensures SelectionOk(form) ==> SelectionOk(r)
    ensures r.title == form.title && r.policyType == form.policyType
            && r.loading == form.loading && r.progress == form.progress
  {
    match chosen
    case None => form
    case Some(f) =>
      match SelectionError(f)
      case Some(message) => form.(file := None, error := Some(message))
      case None => form.(file := Some(f), error := None)
  }

  /** The form lacks the service's lower size bound: a file it accepts is
      either accepted by the service's own checks or rejected there as too
      small, and every file the service accepts with a PDF header passes the
      form. */
  lemma FormChecksAgainstService(f: File)
    ensures SelectionError(f).None? ==>
              FileCheck(f).None? || FileCheck(f) == Some("File appears to be empty or corrupted")
    ensures FileCheck(f).None? && HasPdfHeader(f.bytes) ==> SelectionError(f).None?
    ensures SelectionError(f).None? && FileCheck(f).Some? ==> |f.bytes| < MinPdfSize
  {
  }

  // ---------------------------------------------------------------------
  // Progress

  /** One firing of the progress interval. */
  function Tick(p: int): (r: int)
    ensures p >= 90 ==> r == 90
    ensures p < 90 ==> r == p + 5
  {
    if p >= 90 then 90 else p + 5
  }

  /** The progress after `k` ticks from `p`. */
  function Ticks(p: int, k: nat): int
    decreases k
  {
    if k == 0 then p else Ticks(Tick(p), k - 1)
  }

  /** The values the bar shows while uploading: multiples of 5 up to 90. */
  predicate Shown(p: int) {
    0 <= p <= 90 && p % 5 == 0
  }

  lemma TickKeepsShown(p: int)
    requires Shown(p)
    ensures Shown(Tick(p))
  {
  }

  /** From `p = 5j` the bar climbs by 5 per tick and stops at 90. */
  lemma {:induction false} TicksFrom(j: nat, k: nat)
    requires j <= 18
    ensures Ticks(5 * j, k) == if 5 * (j + k) >= 90 then 90 else 5 * (j + k)
    decreases k
  {
    if k > 0 {
      if j == 18 {
        assert Tick(90) == 90;
        TicksFrom(18, k - 1);
      } else {
        assert Tick(5 * j) == 5 * (j + 1);
        TicksFrom(j + 1, k - 1);
      }
    }
  }

  /** The bar after `k` ticks of an upload is min(5k, 90). */
  lemma UploadProgress(k: nat)
    ensures Ticks(0, k) == if 5 * k >= 90 then 90 else 5 * k
    ensures Shown(Ticks(0, k))
  {
    TicksFrom(0, k);
  }

  // ---------------------------------------------------------------------
  // handleSubmit

  /** The message shown for a failed upload: the size rewrite, the
      service's message, or a fallback when it sent none. */
  function UploadError(error: Option<string>): (r: string)
    ensures r != ""
    ensures error.Some? && Contains(error.value, "request entity too large") ==> r == TooLarge
    ensures error.Some? && error.value != "" && !Contains(error.value, "request entity too large")
            ==> r == error.value
    ensures error.None? || error.value == "" ==> r == UploadFailed
  {
    if error.Some? && Contains(error.value, "request entity too large") then TooLarge
    else StrOr(error, UploadFailed)
  }

  /** What `uploadPolicyDocument` is called with. */
  datatype Request = Request(file: File, title: string, policyType: string)

  /** A submission: the form once the upload has answered (before the
      success timer), the request sent, and the bar just before the answer. */
  datatype Submitted = Submitted(form: Form, sent: Option<Request>, lastShown: int)

  /** `handleSubmit` with `ticks` interval firings before `upload` answers. */
  function Submit(form: Form, upload: Request -> Upload, ticks: nat): (r: Submitted)
    ensures r.sent.None? <==> form.file.None? || Blank(form.title)
    ensures r.sent.None? ==> r.form == form.(error := Some(MissingInput)) && r.lastShown == form.progress
    ensures r.sent.Some? ==> (r.sent.value.file == form.file.value && r.sent.value.title == Trim(form.title)
              && r.sent.value.title != "" && r.sent.value.policyType == form.policyType)
    ensures r.sent.Some? ==> (!r.form.loading && Shown(r.lastShown)
              && r.form.file == form.file && r.form.title == form.title && r.form.policyType == form.policyType)
    ensures r.sent.Some? && upload(r.sent.value).success ==> r.form.progress == 100 && r.form.error.None?
    ensures r.sent.Some? && !upload(r.sent.value).success
            ==> r.form.progress == 0 && r.form.error == Some(UploadError(upload(r.sent.value).error))
  {
    if form.file.None? || Trim(form.title) == "" then
      Submitted(form.(error := Some(MissingInput)), None, form.progress)
    else
      var request := Request(form.file.value, Trim(form.title), form.policyType);
      var result := upload(request);
      UploadProgress(ticks);
      var lastShown := Ticks(0, ticks);
      if result.success then
        Submitted(form.(loading := false, error := None, progress := 100), Some(request), lastShown)
      else
        Submitted(form.(loading := false, error := Some(UploadError(result.error)), progress := 0), Some(request), lastShown)
  }

  /** The success timer: the form is emptied (the error and loading flag
      are left as they are). */
  function Reset(form: Form): (r: Form)
    ensures r.file.None? && r.title == "" && r.policyType == DefaultPolicyType && r.progress == 0
    ensures r.loading == form.loading && r.error == form.error
  {
    form.(file := None, title := "", policyType := DefaultPolicyType, progress := 0)
  }

  /** After a successful upload and its timer the form is back to its
      first-render state, whatever it held before. */
  lemma SuccessThenReset(form: Form, upload: Request -> Upload, ticks: nat)
    requires Submit(form, upload, ticks).sent.Some?
    requires upload(Submit(form, upload, ticks).sent.value).success
    ensures Reset(Submit(form, upload, ticks).form) == Initial()
  {
  }

  /** A submission never sends a file that failed the checks. */
  lemma SentFilePassedChecks(form: Form, upload: Request -> Upload, ticks: nat)
    requires SelectionOk(form)
    requires Submit(form, upload, ticks).sent.Some?
    ensures SelectionError(Submit(form, upload, ticks).sent.value.file).None?
  {
  }
}

=== FILE: wrappers.dfy ===
/** Failure-carrying values used throughout the model in place of JavaScript's
    `null`/`undefined` and of thrown errors. */
module Wrappers {

  /** A value that may be absent (`null` or `undefined` in the application). */
  datatype Option<+T> = None | Some(value: T) {

    /** The value, or `default` when it is absent. */
    function GetOr(default: T): T {
      match this
      case Some(v) => v
      case None => default
    }
  }

  /** A computation that either produced a value or failed with an error message. */
  datatype Result<+T> = Ok(value: T) | Fail(error: string) {

    predicate IsFailure() {
      Fail?
    }

    function PropagateFailure<U>(): Result<U>
      requires Fail?
    {
      Fail(error)
    }

    function Extract(): T
      requires Ok?
    {
      value
    }
  }
}
